=== FILE: README.md ===
# Image name matcher: a Dafny model of its matching and renaming core

The application pairs two groups of images. Group A holds reference
images and group B holds candidates. Both groups are read by OCR, and each
B image whose text is similar enough to an A image's text is renamed after
that A image: it keeps its own extension and takes the A image's stem.
This project models the bookkeeping behind that:

- the greedy matcher (`auto_match_and_rename`): one pass over group B,
  one reference per candidate;
- the batch rename engine (`apply_matched_renames`): it evicts an older
  holder of the target name, searches for a free `_k` suffix, and rekeys
  the candidate's record;
- the manual override (`manual_match`), which makes one pair the only
  one claiming its reference;
- the suggestion ranker (`compute_b_suggestions_for_current_a`);
- adding, OCR merging, deleting and clearing of images;
- the display sort keys, the filter modes and the card grid;
- the progress line, the three-word text summary and the image-extension
  filter;
- the window's handlers around these steps. Each handler refreshes the
  tables it touches, which re-sorts the groups into display order. A
  delete then runs the automatic match-and-rename when both groups have
  text.

State is immutable. `Records.State` holds:

- the two image lists;
- the two OCR text maps;
- the A records as a map;
- the B records as an insertion-ordered dictionary (`OrderedDicts.Dict`).
  The order matters because the eviction sweep walks records in
  dictionary order.

The filesystem is a set of paths (`FileSystem.Fs`). A rename succeeds
exactly when the source exists, is not refused by the `locked` oracle,
and the destination is free. Similarity is a parameter: an arbitrary
function from two texts to a percentage. The timestamp token used in
`_restored_` and `_old_` names is a parameter too. So are the suggestion
ranks `ranks`, which are a key of group B's display order, and, for a
recognition result, whether the image already has a card on screen.

Modules follow the program's structure:

| Module | Contents |
|---|---|
| `Paths` | stem, suffix, numbered names |
| `FileSystem` | rename, free-name search |
| `OrderedDicts` | Python dictionaries |
| `Sorting` | stable `sorted` |
| `Records` | records and state |
| `Matcher`, `MatcherFacts` | the greedy pass and its properties |
| `RenameEngine` | batch rename |
| `ManualOverride` | manual override |
| `Suggestions` | suggestion ranker |
| `Collections` | add, merge, delete, clear |
| `Display` | sort keys, filters, grid, progress, summary |
| `Scanning` | extension filter |
| `Workflow` | the whole auto-match-then-rename step |
| `Handlers` | add, recognise, clear, choose a folder, delete, each with its table refresh |

## Model

| member | source | states |
|---|---|---|
| Paths.StemSuffixSplit | main.py:2505-2507 | The stem and the suffix together rebuild the file name. A suffix is a dot followed by non-dot characters, and only a name with a non-empty stem has one. |
| Paths.TargetKeepsExtension | main.py:2322-2324 | The name given to a matched candidate has the candidate's extension and the reference's stem. |
| Paths.NumberedInjective | main.py:2444-2448 | Different counters give different `stem_k.ext` names, so the suffix search never tries the same name twice. |
| Paths.DecimalRoundTrip | main.py:2447 | Reading back the decimal text of a counter gives the counter. |
| Paths.LowerAscii | main.py:1728 | Lower-casing keeps the length and maps each letter to its lower-case form. |
| FileSystem.Rename | main.py:2450-2451 | A rename succeeds iff the source exists, is not refused and the destination is free. On success the source is replaced by the destination, the count of files is unchanged, and no other path changes. |
| FileSystem.FindVacant | main.py:2441-2448 | The suffix search returns the first candidate in the order target, `_1`, `_2`, … that is free or is the file itself. It never returns a path owned by another existing file. |
| FileSystem.FirstVacantUnique | main.py:2444-2448 | There is only one first free counter, so the search result is determined. |
| OrderedDicts.Put | main.py:2468 | Assigning a key keeps an existing key's position and appends a new key at the end. |
| OrderedDicts.Pop | main.py:2462 | Popping removes exactly that key, and popping an absent key changes nothing. |
| OrderedDicts.Get | main.py:2327 | A lookup finds a value exactly when the key is present. |
| OrderedDicts.RekeySize | main.py:2462-2468 | Moving a record to a key that is free, or to the same key, keeps the number of records. |
| OrderedDicts.ProjectPop | main.py:2424 | Popping a record removes exactly one copy of its field from the multiset of that field over all records. |
| Sorting.SortByCorrect | main.py:1732 | `sorted(key=…)` returns a permutation of its input, ordered by key, that keeps the input order among equal keys. |
| Sorting.LexTransitive | main.py:1730 | The tuple comparison used by the sort keys is transitive. |
| Sorting.LexTotal | main.py:1730 | Any two sort keys are comparable. |
| Records.ReplaceFirst | main.py:2454-2456 | Replacing a path in the image list changes only its first occurrence. |
| Records.MoveText | main.py:2458-2459 | A renamed image's OCR text moves to its new path unchanged, and every other text stays. |
| Records.CarriesOne | main.py:2454-2459 | A single rename carries the source's first list entry and its text to the destination, and every other path keeps its list entries and its text. |
| Records.CarriesThen | main.py:2414-2459 | The evictions of a sweep followed by the rename carry the list and the texts along the concatenation of their moves. |
| Records.MovePathsReordered | main.py:2351-2352 | Re-sorting the list before the renames changes only the order of the result: the moves act on the multiset of paths. |
| Matcher.ScanReferences | main.py:2291-2317 | The loop over group A returns exactly the reference choice that `MatcherFacts.BestAmongSpec` characterises. |
| Matcher.RunPass | main.py:2270-2346 | The loop over group B computes the sequential pass from the given claimed set. Successes plus warnings equal the number of accepted matches. |
| Matcher.CountsAddUp | main.py:2343-2346 | Each accepted match is counted exactly once, as a success (at least five points above the threshold) or as a warning. |
| MatcherFacts.BestAmongSpec | main.py:2291-2317 | No reference is chosen iff no eligible A reaches the threshold. An eligible A is unclaimed, has non-blank text and has a compatible size. A chosen A is eligible, reaches the threshold, scores at least as well as every eligible A, and scores strictly better than every eligible A before it: the first best wins. |
| MatcherFacts.AcceptedMatchIsEligible | main.py:2274-2320 | Every accepted pair joins a B that was unmatched and had text to a reference in group A that has non-blank text. |
| MatcherFacts.AcceptedMatchIsFirstBest | main.py:2315-2320 | No reference still unclaimed at that point beats an accepted pair's similarity. None before it in group A ties it. |
| MatcherFacts.NoReferenceMeansNoneQualified | main.py:2315-2320 | When an unmatched B with text gets no reference, every reference still eligible for it scored below the threshold. |
| MatcherFacts.PassIsExclusive | main.py:2270-2340 | Within one pass, no reference is given to two candidates and no candidate is matched twice. |
| MatcherFacts.PassEffect | main.py:2320-2340 | After a pass, every record that got a match holds matched, similarity, reference, target name and not-renamed, and all other B records are unchanged. An A record is used iff it was before or was claimed in the pass. Images, texts and A sizes are untouched. |
| MatcherFacts.PassPrefix | main.py:2274-2346 | Each verdict is decided on the state left by the verdicts before it, so a pass is a left fold over group B. |
| MatcherFacts.UsedRefsAfterPass | main.py:2335-2338 | The references marked used after a pass are those used before plus those claimed by the pass. |
| MatcherFacts.RerunReassignsClaimedReference | main.py:2270 | As written, a second pass over the example gives the already claimed reference to another candidate, so two B records claim the same A. |
| MatcherFacts.CorrectedRerunKeepsExample | main.py:2270 | With the claimed set seeded from the used flags, the second pass over the example changes nothing. |
| MatcherFacts.CorrectedAutoMatchIsIdempotent | main.py:2261-2346 | With the seeded claimed set, running the matcher again after a pass accepts nothing and leaves the state unchanged, for every input. |
| Workflow.AutoMatchAndRename | main.py:2261-2355 | Nothing happens unless both groups have text. Otherwise it runs the matching pass with the claimed set seeded from the used flags (`Matcher.CorrectedAutoMatch`, see Findings), refreshes both tables, and renames every pending match. The pass's counts add up, and the A records are those the pass left. Both groups end in display order, with group A a permutation of what it was. There is one outcome per pending match. Group B's list is, up to order, the old list with the reported moves applied, and its texts are the old texts with them applied. When every record's file exists, the k-th pending image is renamed iff it is no longer pending, and a failure only comes from a refused file. Each renamed image's record then holds its old record renamed, with its match kept, and its text under the new path, unless a later pending image with the same target evicted it. An image not renamed, and a record that was not pending and did not hold such a target, keeps its record (as the pass left it), its list entry and its text. No record becomes pending, and with nothing pending the filesystem is untouched. |
| RenameEngine.Pending | main.py:2360-2364 | A B record is pending iff it is matched but not yet renamed, and each pending path appears once. |
| RenameEngine.Rekey | main.py:2453-2468 | Moving a record to its new path puts the new record under the destination, drops the source key, and leaves every other record and all A data alone. |
| RenameEngine.RekeyCoherent | main.py:2450-2468 | If every record has a file, then after a rename to a free path every record still has a file and the record count is unchanged. |
| RenameEngine.RekeyOriginalNames | main.py:2461-2468 | A move trades one original name for another in the multiset of original names. Because an existing original name is never overwritten, no original name is lost. |
| RenameEngine.RestoreTarget | main.py:2393-2412 | An evicted holder goes back to its original name when that name is free. Otherwise it gets the first free `_restored_<token>` name, with counters, in its own folder. |
| RenameEngine.Evict | main.py:2392-2429 | An evicted holder is released unless its file is refused. Released means unmatched, no reference, renamed, and the new name is the restore name. It keeps its original name, and no other record changes. |
| RenameEngine.ReleaseCoherent | main.py:2414-2429 | Releasing a holder keeps every record backed by a file, keeps the record count, and keeps the multiset of original names. |
| RenameEngine.EvictIfHolder | main.py:2383-2429 | Only a renamed record at another path whose file name equals the target is evicted. Its file is then moved, and its list entry and its text go with it: the list and texts are the old ones with the reported move applied. When every record's file exists, every other record, list entry and text is left alone. |
| RenameEngine.EvictHolders | main.py:2382-2439 | Every record that held the target name at the start ends unmatched unless its file was refused. Afterwards every matched record that still holds the name is a refused one. Each record is either unchanged or unmatched. The list and texts are the old ones with the reported moves applied, and each move is that of an evicted holder. With no holder nothing changes. When every record's file exists, a record that does not hold the name is unchanged and keeps its list entry and its text, and the original names and the record count survive. |
| RenameEngine.RenameOne | main.py:2375-2482 | One image: the holders of its target are evicted, then it is moved, recording the reference it is claimed for (none in the batch). If its file exists, a pending image is renamed iff it stops being pending, and it fails only when its file is refused. A renamed record sits at a numbered form of the target, and its record there is its old record renamed, with its original name kept and its match kept or set to the claim. Its text is then stored under the new path, the list and texts are the old ones with the reported moves applied, and the last move is its own. When every record's file exists, every record other than the evicted holders' (and the image's own, if renamed) is unchanged and keeps its list entry and its text. No record becomes pending. |
| RenameEngine.RenamePending | main.py:2370-2482 | One outcome per pending image, in dictionary order. A renamed image gets a numbered form of the target name its record held when the batch started. The list and texts are the old ones with the reported moves applied, each move taking the source's first list entry and its text to the destination. When every record's file exists: the k-th image is renamed iff it is no longer pending, and it fails only when refused; a renamed image's record is its old record renamed, with its match kept, and its text is stored under the new path, unless a later image with the same target evicted it; an image not renamed keeps its list entry and text; a record that was not pending and did not hold the target of a pending image is unchanged, with its list entry and text. The counts are the renamed and failed outcomes, and no record becomes pending. |
| RenameEngine.RenameInPlace | main.py:2441-2479 | The candidate moves to the first free name. The move is skipped when that name is its own and fails when the file is missing or refused. On success the list entry, the text and the record follow the file, and the original name is set only if it was missing. |
| RenameEngine.CountsBounded | main.py:2476-2482 | Successes plus failures never exceed the items attempted, and skips count as neither. |
| RenameEngine.ApplyMatchedRenames | main.py:2357-2490 | With nothing pending nothing changes. Otherwise there is one outcome per pending match, tied to that match, and both groups end in display order. Group B's list is, up to that order, the old list with the reported moves applied, and its texts are the old texts with them applied. When every record's file exists: an outcome is a rename iff its image is no longer pending, and a failure only for a refused file; a renamed image's record is its old record renamed, with its match kept, and its text is under the new path, unless a later pending image with the same target evicted it; an image not renamed, and a record that was neither pending nor the holder of a pending target, keeps its record, list entry and text. The counts are the renamed and failed outcomes. A records, texts and list sizes are kept, records stay backed by files, and no original name is lost. |
| ManualOverride.Retire | main.py:2623-2662 | A record that claims the reference but was never renamed is only unmatched, in place. A renamed one moves to the first free `_old_<token>` name and is unmatched, unless its file is refused; its list entry and its text go with it, and that move is the only one reported. No other record, list entry or text of an existing file changes, and no record gains a match. |
| ManualOverride.ReleaseStep | main.py:2615-2664 | The sweep touches a record only if it claims the chosen reference and is not the chosen candidate, and such a record ends unmatched unless its file was refused. The list and texts are the old ones with the reported move applied, which is that record's. No other record, list entry or text of an existing file changes, and no record gains a match. |
| ManualOverride.ReleaseOthers | main.py:2615-2664 | After the sweep, only the chosen candidate and refused files still claim the reference. The chosen candidate keeps its record, its list entry and its text, and with no other claimant nothing changes. The list and texts are the old ones with the reported moves applied, each of them a released claimant's. When every record's file exists, a record that did not claim the reference is unchanged and keeps its list entry and its text, and records stay backed by files. |
| ManualOverride.ClaimAndRename | main.py:2515-2610 | The holders of the target are evicted, then the candidate is renamed to the first free numbered form of the target, and the reference is marked used. Its record at the new path is its old record renamed, with its original name kept and its claim on the reference set, and its text is stored under the new path. The list and texts are the old ones with the reported moves applied, the last being the candidate's own. When nothing is renamed, the A records are unchanged. When every record's file exists, only the candidate's record (when renamed) and those of evicted holders change, the same goes for list entries and texts, and records stay backed by files. |
| ManualOverride.Confirm | main.py:2515-2664 | A confirmed pair: the candidate is renamed to a numbered form of the target, its record at the new path is its old record renamed and claiming the reference, its text goes with it, and the reference is used. The candidate is then the only claimant apart from refused files. The list and texts are the old ones with the reported moves applied. When nothing is renamed, the A records are unchanged. When every record's file exists, a record that is not an evicted holder of the target is unchanged with its list entry and text, except, after a rename, the candidate's and those that claimed the reference; records stay backed by files. |
| ManualOverride.ManualMatch | main.py:2492-2693 | Without two selections nothing happens. After a successful override the candidate's record at its new, numbered target path is its old record renamed and claiming the reference, its text goes with it, and it is the only claimant apart from refused files. The reference is used, and other A records are unchanged. Group B's list is, up to order, the old list with the reported moves applied, and its texts are the old texts with them applied. After a rename both groups are in display order (main.py:2679-2680); otherwise group A keeps its order. When every record's file exists, a record that is not an evicted holder of the target is unchanged with its list entry and text, except, after a rename, the candidate's and those that claimed the reference; records stay backed by files. |
| Suggestions.Candidates | main.py:1964-1978 | A B image is a candidate iff its text is not blank and it scores above zero. |
| Suggestions.RankMap | main.py:1983-1984 | Ranks map exactly the top list's members to their positions. |
| Suggestions.TopMembers | main.py:1981-1982 | The top list has at most the limit, comes from the candidates, is sorted, and keeps every candidate when there are few. |
| Suggestions.TopStable | main.py:1981-1982 | Among equal scores, the top list keeps a prefix of the candidates in their original order. |
| Suggestions.SuggestionsDomain | main.py:1955-1984 | No focus or blank A text gives no suggestions. Otherwise at most eight suggestions, all candidates, and every candidate when there are at most eight. |
| Suggestions.SuggestionsDescend | main.py:1981-1984 | A better rank never has a lower score. |
| Suggestions.SuggestionsDominate | main.py:1981-1982 | Every suggested image scores at least as high as every candidate that was left out. |
| Suggestions.SuggestionsStable | main.py:1981-1982 | The sort is stable, so equal scores keep group B's order. |
| Suggestions.SuggestionsRanks | main.py:1983-1984 | The ranks are exactly 0 to n-1, one per suggested image. |
| Collections.AppendNew | main.py:1473-1476 | Adding keeps the existing list as a prefix, appends only files not yet listed, and keeps the list free of duplicates. |
| Collections.AddRecord | main.py:1511-1520 | A new B path gets a fresh record, and an existing record is not touched. |
| Collections.AwaitingText | main.py:1526-1529 | The images sent to OCR are exactly the added ones without text. |
| Collections.AddA | main.py:1468-1487 | The data step of adding to group A extends the list, creates records only for new paths, and leaves texts and group B alone. |
| Collections.AddB | main.py:1498-1520 | The data step of adding to group B extends the list, gives new paths an unmatched record named after the file, keeps existing records, and leaves group A alone. |
| Collections.AddAIdempotent | main.py:1468-1487 | Adding the same files twice is the same as adding them once. |
| Collections.AddBIdempotent | main.py:1498-1520 | Adding the same files twice is the same as adding them once. |
| Collections.MergeTextA | main.py:1587-1607 | A non-empty OCR result sets that image's text and its record's text and size, and touches no other image. An empty result changes nothing. |
| Collections.MergeTextB | main.py:1624-1673 | A non-empty OCR result sets text and size. It keeps the match, the reference, the target name and the renamed flag, and fills in the original name only if it was missing. A new record is created unmatched. No other image changes. |
| Collections.MergeTextAIdempotent | main.py:1587-1607 | Merging the same OCR result twice equals merging it once. |
| Collections.MergeTextBIdempotent | main.py:1624-1673 | Merging the same OCR result twice equals merging it once. |
| Collections.RemoveFirstCount | main.py:2008-2009 | `list.remove` takes away exactly one occurrence when there is one. |
| Collections.RemoveFirstOrder | main.py:2008-2009 | `list.remove` keeps the order of the remaining images. |
| Collections.DeleteA | main.py:2006-2011 | The data step of a delete from group A removes the image's list entry, text and record, and touches no other data. The re-sort and the match that follow are in `Handlers.OnDeleteA`. |
| Collections.DeleteB | main.py:2021-2026 | The data step of a delete from group B removes the image's list entry, text and record, and touches no other data. The re-sort and the match that follow are in `Handlers.OnDeleteB`. |
| Collections.DeleteUndoesAddA | main.py:2006-2011 | Deleting a freshly added A image restores the state before the add. |
| Collections.DeleteUndoesAddB | main.py:2021-2026 | Deleting a freshly added B image restores the state before the add. |
| Collections.DeleteRemovesEntirely | main.py:2008-2009 | With no duplicates in the lists, a deleted image is gone from its list. |
| Collections.DistinctPreserved | main.py:1473-1476 | Every collection operation keeps both image lists free of duplicates. |
| Collections.ResetUsed | main.py:2730-2733 | Resetting clears every used flag and keeps every text and size. |
| Collections.ClearB | main.py:2702-2733 | The data step of clearing group B empties its list, texts and records, keeps group A's data, and releases every reference. |
| Collections.ClearAll | main.py:2741-2781 | Clearing everything empties both groups' lists, texts and records. Clearing group B afterwards changes nothing, so it does all that clearing group B does, and no reference is left marked used. |
| Collections.SelectFolderA | main.py:2138-2158 | The data step of choosing folder A replaces the list with the scan, drops the records, takes the cached texts if any, and leaves group B alone. |
| Collections.SelectFolderB | main.py:2163-2192 | The data step of choosing folder B replaces the list with the scan, drops the records, takes the cached texts if any, and releases every reference. |
| Collections.FreshGroupBMatchesAsWritten | main.py:2182-2185 | After group B is cleared or chosen afresh no reference is used, so the corrected matcher and the matcher as written agree. |
| Display.ArrangeAOrder | main.py:1722-1732 | Group A is shown as a permutation: unused before used, then larger area first, then by lower-cased name. |
| Display.ArrangeBOrder | main.py:1850-1868 | Group B is shown as a permutation: unmatched before matched, then by suggestion rank, then larger area first, then by the lower-cased shown name. |
| Display.ArrangeAIdempotent | main.py:2696-2700 | Refreshing the A table leaves group A in display order, and refreshing it again, as every resize does, changes nothing. |
| Display.ArrangeBIdempotent | main.py:2696-2700 | Refreshing the B table with the same ranks leaves group B in display order, and refreshing it again changes nothing. |
| Display.Refresh | main.py:2351-2352 | Refreshing both tables puts both groups in display order. Only the order changes: the lists are permutations, and texts and records are the same. |
| Display.SuggestedShownFirst | main.py:1860-1866 | Among unmatched candidates, a suggested one is never shown after one with a worse or no rank. |
| Display.ParseMode | main.py:2249-2250 | Only the three mode names are accepted. |
| Display.ParseModeName | main.py:2247-2259 | A mode's name parses back to that mode. |
| Display.SetMode | main.py:2247-2259 | An unknown mode name leaves the filter unchanged, and a known one selects that mode. |
| Display.Visible | main.py:1755-1763 | A card is shown iff the filter admits its flag: all, unmatched only, or matched only. |
| Display.ShowAll | main.py:1755-1763 | The "all" filter shows every card in order. |
| Display.FilterPartition | main.py:1895-1899 | The unmatched and matched filters split the group between them. |
| Display.CardsPerRow | main.py:1750-1753 | From 1 to 6 cards per row. The cards fit the width unless only one fits, and one more would not fit unless the row is full. |
| Display.Cell | main.py:1765-1767 | The grid cell of the i-th visible card is the row and column that index it in row-major order. |
| Display.CellsRowMajor | main.py:1765-1767 | Later cards occupy strictly later cells in row-major order. |
| Display.Layout | main.py:1754-1767 | Visible cards keep their order and occupy cells 0, 1, 2, … in row-major order. |
| Display.ProgressOf | main.py:2234-2245 | No data iff group B is empty. Otherwise the matched count is at most the total, and the percentage is the floor of matched/total × 100, so it is 100 exactly when everything is matched. |
| Display.PercentBounds | main.py:2244 | The integer percentage is at most 100, brackets the exact ratio, and is 100 only for a full match. |
| Display.CountIsMatchedFilter | main.py:2237-2240 | The matched count equals the number of cards the matched filter would show. |
| Display.JoinFields | main.py:499 | Joining the space-separated fields of a text with single spaces gives the text with newlines turned into spaces. |
| Display.FieldsJoin | main.py:499-500 | Splitting words that contain no break, after joining them with spaces, gives the words back. |
| Display.SummaryShowsFirstWords | main.py:494-507 | The summary shows the first three non-blank words, and ` ...` is added exactly when there are more. |
| Scanning.KeepImages | main.py:1402-1405 | A walked file is kept iff its lower-cased suffix is an image extension. |
| Scanning.ScanFolderSpec | main.py:1394-1407 | A missing folder gives nothing. Otherwise the result is every image file of the walk, each as often as listed, sorted by full path. |
| Scanning.FilterImageFilesSpec | main.py:1409-1422 | A drop yields only images, sorted by path. It contains every dropped image file and every image inside a dropped folder, each as often as collected. Every result comes from a dropped file or from a dropped folder's listing. |
| Scanning.RenamedStaysImage | main.py:1404 | A candidate renamed after a reference keeps its extension, so it is still an image. |
| Handlers.OnAddA | main.py:1468-1496 | After adding and refreshing, group A holds exactly the old and the new paths. It is a permutation of the appended list, in display order. Texts, records and group B are as the data step leaves them, and the images sent to recognition are the new ones without text. |
| Handlers.OnAddB | main.py:1498-1529 | After adding and refreshing with the current ranks, group B holds exactly the old and the new paths. It is a permutation of the appended list, in display order. Everything else is as the data step leaves it. |
| Handlers.OnAddAIdempotent | main.py:1468-1490 | Dropping the same files onto group A twice, refresh included, gives the same state as dropping them once. |
| Handlers.OnAddBIdempotent | main.py:1498-1523 | Dropping the same files onto group B twice, with the same ranks, gives the same state as dropping them once. |
| Handlers.OnTextA | main.py:1587-1606 | An empty result changes nothing. A result for an image with a card updates the data only. A result for an image without a card also rebuilds the grid, leaving group A in display order (main.py:1709-1717). The list is always a permutation of what it was. |
| Handlers.OnTextB | main.py:1624-1672 | The same for group B, ordered with the current ranks. |
| Handlers.ArrangedUnused | main.py:1722-1732 | When no reference is used, group A's display order is by area, largest first, and by lower-cased name among equal areas. |
| Handlers.OnClearB | main.py:2702-2737 | Clearing group B empties it and releases every reference. Group A keeps its images, re-sorted largest first. |
| Handlers.OnSelectFolderA | main.py:2138-2161 | Group A becomes a permutation of the scan. With cached texts it is shown in lower-cased name order. Without them it stays in scan order until recognition rebuilds the grid. |
| Handlers.OnSelectFolderB | main.py:2163-2195 | Group A is re-sorted largest first. Group B becomes a permutation of the scan, in display order when texts are cached and in scan order otherwise. |
| Handlers.OnDeleteA | main.py:2006-2019 | The image and its text leave group A, and the rest is re-sorted. When both groups still have text, the match-and-rename runs with the corrected pass (`Matcher.CorrectedAutoMatch`), and afterwards both groups are in display order. Group B's list is, up to order, the old list with the reported moves applied, and its texts are the old texts with them applied. When every record's file exists, its outcomes say which pending matches were renamed; a renamed record keeps its match and its text follows it, unless a later image with the same target evicted it; an image not renamed, and a record that was not pending and held no pending target, keeps its record, list entry and text. Otherwise nothing else changes. |
| Handlers.OnDeleteB | main.py:2021-2034 | The image leaves group B and the rest is re-sorted with the current ranks. Group B's list is, up to order, the list without the image's first entry with the reported moves applied, and its texts are those without the image's with them applied. When both groups still have text, the match-and-rename runs with the corrected pass (`Matcher.CorrectedAutoMatch`), with the same outcomes and frame as for group A. |

## Left out

- The Qt user interface is not modelled. That covers cards, tooltips, log lines, message boxes, drag and drop events and `update_buttons_state`. `Display` models only the decisions the interface code makes.
- The OCR controller and its worker threads (main.py:71-258, main.py:2785-2802) are left out. OCR results enter as parameters of `Collections.MergeTextA` and `Collections.MergeTextB`.
- The similarity functions `fuzz.ratio` and `difflib.SequenceMatcher.ratio` are not modelled. Similarity is an arbitrary function onto 0..100 per cent, and a failing similarity call is covered by that function returning any value.
- Similarities and the threshold are floats in the source (0.5 to 1.0). They are modelled as whole percentages, and `threshold + 0.05` as the threshold plus five points. Float rounding at that boundary is not modelled.
- The clock is a parameter: one timestamp token per batch, used in `_restored_` and `_old_` names. The program reads the clock once per eviction (main.py:2403), so two holders evicted in one batch may get different tokens. The model gives them the same token, and the free-name search then adds counters.
- Image sizes come from `Image.open`, and a failing open gives size zero. Sizes enter as an optional parameter.
- `os.walk`, `os.path.isfile`, `os.path.isdir` and `os.path.exists` are inputs: a walk's listing, and the `Scanning.Dropped` kinds.
- Path strings are `Path(dir, name)`. The full-path sort of a scan uses `\` as the separator, as on Windows, where the application runs.
- `str.lower` is modelled for ASCII letters only, and `str.strip` whitespace uses Python's ASCII and Unicode space characters.
- The OCR cache is an optional map parameter of `Collections.SelectFolderA` and `Collections.SelectFolderB`. Storing into the cache is not modelled.
- Every `except` branch around an OS call is modelled by one oracle: the `locked` set of paths whose rename fails.
- `int(matched * 100 / total)` is modelled as the integer floor of the exact ratio. For these magnitudes the float quotient truncates to the same integer.
- Display.ProgressOf: the percentage is the exact integer floor of the ratio. Float rounding of `matched * 100 / total` is not modelled.
- RenameEngine.ApplyMatchedRenames: "every record is still backed by a file" and "no original name is lost" are promised only when every B record's path exists before the batch (`Coherent`), since the source does not check that.
- RenameEngine.EvictHolders: records that do not hold the target are promised unchanged only under `Coherent`, for the same reason.
- ManualOverride.ManualMatch: the frame on the other records and the backing of records by files are stated only when every B record's file exists before the override (`Coherent`). A record whose file is missing can be overwritten by the rename in the model as in the program.
- ManualOverride.ManualMatch: when the candidate already has the target name, no rename happens, but holders of the same name elsewhere are still evicted (main.py:2515-2562). The override is therefore not "no change" in that case.
- ManualOverride.ManualMatch: the previous reference of the chosen candidate keeps its used flag, as in the source.
- Collections.MergeTextA: the record written for an OCR result drops the `used` flag, as the source rebuilds the record without it (main.py:1598-1602).
- Collections.DeleteB: deleting a matched candidate does not clear its reference's used flag, as in the source.
- `start_ocr_a_specific`, `start_ocr_b_specific` and the threshold slider are interface glue and not modelled.
- `trigger_auto_match_if_ready` (main.py:1690-1695) runs the full match-and-rename when both groups have text. It is the guard at the head of `Workflow.AutoMatchAndRename`, and `Handlers.OnDeleteA` and `Handlers.OnDeleteB` call it after a delete. The recognition-finished handlers (main.py:1609-1622, main.py:1675-1688) only store the cache and call that same step, so they have no member of their own.
- Collections.AddA: the data step alone keeps the appended order. The program then re-sorts the table (main.py:1490), and `Handlers.OnAddA` states the order that results.
- Collections.AddB: the data step alone keeps the appended order. The re-sort at main.py:1523 is in `Handlers.OnAddB`.
- Collections.DeleteA: the data step alone. The re-sort at main.py:2016 and the match-and-rename at main.py:2019 are in `Handlers.OnDeleteA`.
- Collections.DeleteB: the data step alone. The re-sort at main.py:2031 and the match-and-rename at main.py:2034 are in `Handlers.OnDeleteB`.
- Collections.ClearB: the data step alone keeps group A's order. The re-sort at main.py:2734 is in `Handlers.OnClearB`.
- Collections.SelectFolderA: the data step alone keeps the scan order. The re-sort at main.py:2159 is in `Handlers.OnSelectFolderA`.
- Collections.SelectFolderB: the data step alone keeps both orders. The re-sorts at main.py:2187 and main.py:2193 are in `Handlers.OnSelectFolderB`.
- Handlers.OnDeleteA: the match-and-rename after the delete (main.py:2019) uses the corrected pass `Matcher.CorrectedAutoMatch`, which starts from the references already used, not from the empty set at main.py:2270. Findings explains the difference.
- Handlers.OnDeleteB: the match-and-rename after the delete (main.py:2034) uses the corrected pass `Matcher.CorrectedAutoMatch`, not the pass from the empty set at main.py:2270, as for `Handlers.OnDeleteA`.
- Workflow.AutoMatchAndRename: the pass starts from the references already used (`Matcher.CorrectedAutoMatch`), not from the empty set at main.py:2270. The pass as written is `Matcher.AutoMatch`, and Findings explains the difference.
- RenameEngine.ApplyMatchedRenames: the outcome of each image, and the frame on the records of renamed and untouched images, are stated only when every B record's file exists (`Coherent`). A missing file makes the move fail in the model as in the program, but the contract does not say so.
- RenameEngine.RenamePending: when a later image of the batch evicts an earlier renamed one from its target, the contract does not follow that image's record and text on to its restore path; it only excepts it. The same holds for `RenameEngine.ApplyMatchedRenames`, `Workflow.AutoMatchAndRename`, `Handlers.OnDeleteA` and `Handlers.OnDeleteB`. The record and text frames hold only under `Coherent`, as above.
- RenameEngine.RenameOne: the image's record at its new path, the frame on the other records, list entries and texts are stated only under `Coherent`, for the same reason as for `RenameEngine.EvictHolders`.
- ManualOverride.ReleaseOthers: the frame on the records that did not claim the reference is stated only under `Coherent`. The records of released claimants at their `_old_` paths are stated by `ManualOverride.Retire`, not here.
- ManualOverride.ClaimAndRename: the candidate's record at its new path and the frame are stated only under `Coherent`, as for `ManualOverride.Confirm` and `ManualOverride.ManualMatch`.
- ManualOverride.ManualMatch: group B's list after the rename is stated up to order, with the reported moves applied. Its order is the display order that the refresh gives, stated separately. The same holds for `RenameEngine.ApplyMatchedRenames`, `Workflow.AutoMatchAndRename`, `Handlers.OnDeleteA` and `Handlers.OnDeleteB`.

## Findings

| source | as written | input that shows it | evidently intended | confidence | as-written member | corrected member |
|---|---|---|---|---|---|---|
| main.py:2270 | `Matcher.AutoMatch`: each run of the matcher starts with an empty claimed set and never consults the persisted `used` flags, so a run after an earlier pass can give an already claimed reference to another candidate. | Group A = [a with text "x"], group B = [b1 with text "x", b2 with text "x"], exact-match similarity, threshold 80. The first pass matches b1 to a. A second pass skips b1 and matches b2 to a as well. | A reference already used by a match should stay claimed: seed the claimed set with the used references (`Matcher.CorrectedAutoMatch`). Then a second pass changes nothing. `Workflow.AutoMatchAndRename` uses this corrected pass. | not executed | MatcherFacts.RerunReassignsClaimedReference | MatcherFacts.CorrectedAutoMatchIsIdempotent |

=== FILE: collection.dfy ===
/** Bookkeeping of the two collections outside matching and renaming: adding
    images, merging recognised text, deleting one image, clearing, and
    choosing a new folder. */
module Collections {
  import opened Options
  import opened Paths
  import opened OrderedDicts
  import opened Records
  import opened Matcher

  /** Neither image list names a path twice. Adding, deleting, merging and
      clearing keep this. */
  predicate Distinct(st: State) {
    NoDuplicates(st.aImages) && NoDuplicates(st.bImages)
  }

  /** The record a newly added B image gets: no text or size yet, not
      matched, and its current name as both the shown and the original name. */
  function FreshBInfo(p: Path): BInfo {
    BInfo("", 0, 0, false, 0, None, Some(p.name), Some(p.name), false)
  }

  // ---------------------------------------------------------------------
  // Adding images
  // ---------------------------------------------------------------------

  /** `for x in files: if x not in s: s.append(x)`. */
  function AppendNew(s: seq<Path>, files: seq<Path>): (r: seq<Path>)
    ensures |s| <= |r| && r[..|s|] == s
    ensures forall p :: p in r <==> p in s || p in files
    ensures forall i | |s| <= i < |r| :: r[i] in files && r[i] !in s
    ensures NoDuplicates(s) ==> NoDuplicates(r)
  {
    if |files| == 0 then s
    else
      var init := files[..|files| - 1];
      var last := files[|files| - 1];
      var before := AppendNew(s, init);
      assert files == init + [last];
      if last in before then before
      else
        var r := before + [last];
        assert r[..|s|] == before[..|s|];
        r
  }

  /** Adding paths that are all present already changes nothing. */
  lemma {:induction false} AppendNewPresent(s: seq<Path>, files: seq<Path>)
    requires forall p | p in files :: p in s
    ensures AppendNew(s, files) == s
  {
    if |files| > 0 {
      AppendNewPresent(s, files[..|files| - 1]);
      assert files[|files| - 1] in files;
    }
  }

  /** `if p not in info: info[p] = fresh(p)`. */
  function AddRecord(d: BInfos, p: Path): (r: BInfos)
    ensures forall q :: q in r.vals <==> q in d.vals || q == p
    ensures forall q | q in d.vals :: r.vals[q] == d.vals[q]
    ensures p !in d.vals ==> r.vals[p] == FreshBInfo(p)
    ensures |d.order| <= |r.order| && r.order[..|d.order|] == d.order
  {
    if p in d.vals then d else Put(d, p, FreshBInfo(p))
  }

  /** `for p in files: if p not in info: info[p] = fresh(p)` on the ordered
      B records. */
  function AddRecords(d: BInfos, files: seq<Path>): BInfos {
    if |files| == 0 then d
    else AddRecord(AddRecords(d, files[..|files| - 1]), files[|files| - 1])
  }

  /** The records after adding are the old ones and one per added path. */
  lemma {:induction false} AddRecordsKeys(d: BInfos, files: seq<Path>)
    ensures forall p :: p in AddRecords(d, files).vals <==> p in d.vals || p in files
  {
    if |files| > 0 {
      var init := files[..|files| - 1];
      AddRecordsKeys(d, init);
      assert files == init + [files[|files| - 1]];
    }
  }

  /** Existing records are left as they were. */
  lemma {:induction false} AddRecordsKeep(d: BInfos, files: seq<Path>)
    ensures forall p | p in d.vals :: p in AddRecords(d, files).vals && AddRecords(d, files).vals[p] == d.vals[p]
  {
    if |files| > 0 {
      AddRecordsKeep(d, files[..|files| - 1]);
    }
  }

  /** Records that were missing are fresh. */
  lemma {:induction false} AddRecordsFresh(d: BInfos, files: seq<Path>)
    ensures forall p | p in AddRecords(d, files).vals && p !in d.vals :: AddRecords(d, files).vals[p] == FreshBInfo(p)
  {
    if |files| > 0 {
      var init := files[..|files| - 1];
      AddRecordsFresh(d, init);
      AddRecordsKeep(d, init);
    }
  }

  /** `[p for p in files if p not in texts]`: what is sent to text
      recognition, in order. */
  function AwaitingText(files: seq<Path>, texts: map<Path, string>): (r: seq<Path>)
    ensures forall p :: p in r <==> p in files && p !in texts
    ensures |r| <= |files|
  {
    if |files| == 0 then []
    else
      var rest := AwaitingText(files[..|files| - 1], texts);
      var last := files[|files| - 1];
      assert forall p :: p in files <==> p in files[..|files| - 1] || p == last;
      if last !in texts then rest + [last] else rest
  }

  /** The collections after an addition, and the images queued for text
      recognition. */
  datatype Added = Added(st: State, awaiting: seq<Path>)

  /** `add_images_to_group_a`: new paths are appended once each, a path
      without a record gets an empty one, existing records and texts stay,
      and the paths without text are queued. */
  function AddA(st: State, files: seq<Path>): (r: Added)
    ensures |st.aImages| <= |r.st.aImages| && r.st.aImages[..|st.aImages|] == st.aImages
    ensures forall p :: p in r.st.aImages <==> p in st.aImages || p in files
    ensures forall p :: p in r.st.aInfo <==> p in st.aInfo || p in files
    ensures forall p | p in r.st.aInfo :: r.st.aInfo[p] == AInfoOf(st, p)
    ensures r.st.aTexts == st.aTexts
    ensures r.st.bImages == st.bImages && r.st.bTexts == st.bTexts && r.st.bInfo == st.bInfo
    ensures forall p :: p in r.awaiting <==> p in files && p !in st.aTexts
  {
    var info := map p | p in st.aInfo.Keys + (set f | f in files) :: AInfoOf(st, p);
    Added(st.(aImages := AppendNew(st.aImages, files), aInfo := info), AwaitingText(files, st.aTexts))
  }

  /** `add_images_to_group_b`: as for group A, with the B record's shown and
      original name set to the file's current name. */
  function AddB(st: State, files: seq<Path>): (r: Added)
    ensures |st.bImages| <= |r.st.bImages| && r.st.bImages[..|st.bImages|] == st.bImages
    ensures forall p :: p in r.st.bImages <==> p in st.bImages || p in files
    ensures forall p :: p in r.st.bInfo.vals <==> p in st.bInfo.vals || p in files
    ensures forall p | p in st.bInfo.vals :: r.st.bInfo.vals[p] == st.bInfo.vals[p]
    ensures forall p | p in r.st.bInfo.vals && p !in st.bInfo.vals ::
              var info := r.st.bInfo.vals[p];
              !info.matched && info.newName == Some(p.name) && info.originalName == Some(p.name) && !info.renamed
    ensures r.st.bTexts == st.bTexts
    ensures r.st.aImages == st.aImages && r.st.aTexts == st.aTexts && r.st.aInfo == st.aInfo
    ensures forall p :: p in r.awaiting <==> p in files && p !in st.bTexts
  {
    AddRecordsKeys(st.bInfo, files);
    AddRecordsKeep(st.bInfo, files);
    AddRecordsFresh(st.bInfo, files);
    Added(st.(bImages := AppendNew(st.bImages, files), bInfo := AddRecords(st.bInfo, files)),
          AwaitingText(files, st.bTexts))
  }

  lemma {:induction false} AddRecordsPresent(d: BInfos, files: seq<Path>)
    requires forall p | p in files :: p in d.vals
    ensures AddRecords(d, files) == d
  {
    if |files| > 0 {
      AddRecordsPresent(d, files[..|files| - 1]);
      assert files[|files| - 1] in files;
    }
  }

  /** Adding the same files twice is adding them once, and the second
      addition queues nothing that the first did not. */
  lemma AddAIdempotent(st: State, files: seq<Path>)
    ensures AddA(AddA(st, files).st, files).st == AddA(st, files).st
  {
    var once := AddA(st, files).st;
    AppendNewPresent(once.aImages, files);
    var twice := AddA(once, files).st;
    assert twice.aInfo.Keys == once.aInfo.Keys;
    forall p | p in twice.aInfo
      ensures twice.aInfo[p] == once.aInfo[p]
    {
      assert twice.aInfo[p] == AInfoOf(once, p);
    }
    assert twice.aInfo == once.aInfo;
  }

  lemma AddBIdempotent(st: State, files: seq<Path>)
    ensures AddB(AddB(st, files).st, files).st == AddB(st, files).st
  {
    var once := AddB(st, files).st;
    AppendNewPresent(once.bImages, files);
    AddRecordsPresent(once.bInfo, files);
  }

  // ---------------------------------------------------------------------
  // Merging recognised text
  // ---------------------------------------------------------------------

  /** The image size, or `(0, 0)` when the image cannot be opened. */
  function SizeOr(size: Option<(nat, nat)>): (nat, nat) {
    if size.Some? then size.value else (0, 0)
  }

  /** `on_ocr_a_progress`: an empty result is ignored; otherwise the text is
      stored and the record is replaced by text and size, which drops the
      `used` flag. */
  function MergeTextA(st: State, p: Path, text: string, size: Option<(nat, nat)>): (r: State)
    ensures text == "" ==> r == st
    ensures text != "" ==>
      && TextOf(r.aTexts, p) == text
      && AInfoOf(r, p) == AInfo(text, SizeOr(size).0, SizeOr(size).1, false)
      && (forall q | q != p :: TextOf(r.aTexts, q) == TextOf(st.aTexts, q) && AInfoOf(r, q) == AInfoOf(st, q))
    ensures r.aImages == st.aImages
    ensures r.bImages == st.bImages && r.bTexts == st.bTexts && r.bInfo == st.bInfo
  {
    if text == "" then st
    else
      var (w, h) := SizeOr(size);
      st.(aTexts := st.aTexts[p := text], aInfo := st.aInfo[p := AInfo(text, w, h, false)])
  }

  /** `on_ocr_b_progress`: an empty result is ignored; otherwise the text is
      stored, a missing record is created fresh with text and size, and an
      existing record gets text and size while its match, shown name and
      rename state stay and its original name is written only if absent. */
  function MergeTextB(st: State, p: Path, text: string, size: Option<(nat, nat)>): (r: State)
    ensures text == "" ==> r == st
    ensures text != "" ==>
      var (w, h) := SizeOr(size);
      var before := BInfoOf(st, p);
      var after := BInfoOf(r, p);
      && TextOf(r.bTexts, p) == text
      && p in r.bInfo.vals
      && after.text == text && after.width == w && after.height == h
      && (p !in st.bInfo.vals ==> after == FreshBInfo(p).(text := text, width := w, height := h))
      && (p in st.bInfo.vals ==>
            && after.matched == before.matched && after.similarity == before.similarity
            && after.matchedA == before.matchedA && after.newName == before.newName
            && after.renamed == before.renamed
            && after.originalName == (if before.originalName.Some? then before.originalName else Some(p.name)))
      && (forall q | q != p :: TextOf(r.bTexts, q) == TextOf(st.bTexts, q) && BInfoOf(r, q) == BInfoOf(st, q))
      && r.bInfo.order == (if p in st.bInfo.vals then st.bInfo.order else st.bInfo.order + [p])
    ensures r.bImages == st.bImages
    ensures r.aImages == st.aImages && r.aTexts == st.aTexts && r.aInfo == st.aInfo
  {
    if text == "" then st
    else
      var (w, h) := SizeOr(size);
      st.(bTexts := st.bTexts[p := text], bInfo := Put(st.bInfo, p, MergedRecord(Get(st.bInfo, p), p, text, w, h)))
  }

  /** The record `on_ocr_b_progress` leaves for `p`, given the one it had. */
  function MergedRecord(before: Option<BInfo>, p: Path, text: string, w: nat, h: nat): BInfo {
    if before.None? then FreshBInfo(p).(text := text, width := w, height := h)
    else
      var updated := before.value.(text := text, width := w, height := h);
      if updated.originalName.None? then updated.(originalName := Some(p.name)) else updated
  }

  lemma MergedRecordTwice(before: Option<BInfo>, p: Path, text: string, w: nat, h: nat)
    ensures MergedRecord(Some(MergedRecord(before, p, text, w, h)), p, text, w, h) == MergedRecord(before, p, text, w, h)
  {
  }

  /** Putting the same value twice is putting it once. */
  lemma PutTwice(d: BInfos, k: Path, v: BInfo)
    ensures Put(Put(d, k, v), k, v) == Put(d, k, v)
  {
  }

  /** A result delivered twice has the effect of one delivery. */
  lemma MergeTextAIdempotent(st: State, p: Path, text: string, size: Option<(nat, nat)>)
    ensures MergeTextA(MergeTextA(st, p, text, size), p, text, size) == MergeTextA(st, p, text, size)
  {
  }

  lemma MergeTextBIdempotent(st: State, p: Path, text: string, size: Option<(nat, nat)>)
    ensures MergeTextB(MergeTextB(st, p, text, size), p, text, size) == MergeTextB(st, p, text, size)
  {
    if text != "" {
      var (w, h) := SizeOr(size);
      var once := MergeTextB(st, p, text, size);
      var info := MergedRecord(Get(st.bInfo, p), p, text, w, h);
      assert once.bInfo == Put(st.bInfo, p, info);
      MergedRecordTwice(Get(st.bInfo, p), p, text, w, h);
      assert Get(once.bInfo, p) == Some(info);
      PutTwice(st.bInfo, p, info);
    }
  }

  // ---------------------------------------------------------------------
  // Deleting one image
  // ---------------------------------------------------------------------

  /** `if x in s: s.remove(x)`: drops the first occurrence only. */
  function RemoveFirst(s: seq<Path>, x: Path): (r: seq<Path>)
    ensures x !in s ==> r == s
    ensures x in s ==> |r| == |s| - 1
  {
    var i := IndexOf(s, x);
    if i < |s| then s[..i] + s[i + 1..] else s
  }

  /** The first occurrence goes and everything else keeps its order. */
  lemma RemoveFirstOrder(s: seq<Path>, x: Path)
    ensures forall j | 0 <= j < |RemoveFirst(s, x)| ::
              RemoveFirst(s, x)[j] == (if j < IndexOf(s, x) then s[j] else s[j + 1])
  {
    var i := IndexOf(s, x);
    if i < |s| {
      var r := RemoveFirst(s, x);
      forall j | 0 <= j < |r|
        ensures r[j] == (if j < i then s[j] else s[j + 1])
      {
        if j < i {
          assert r[j] == s[..i][j];
        } else {
          assert r[j] == s[i + 1..][j - i];
        }
      }
    }
  }

  /** Exactly one copy of the path leaves. */
  lemma RemoveFirstCount(s: seq<Path>, x: Path)
    ensures multiset(RemoveFirst(s, x)) == multiset(s) - multiset{x}
  {
    var i := IndexOf(s, x);
    if i < |s| {
      assert s == s[..i] + [x] + s[i + 1..];
      assert multiset(s) == multiset(s[..i]) + multiset{x} + multiset(s[i + 1..]);
    } else {
      assert x !in multiset(s);
    }
  }

  /** Under distinctness the path is gone entirely. */
  lemma RemoveFirstDistinct(s: seq<Path>, x: Path)
    requires NoDuplicates(s)
    ensures x !in RemoveFirst(s, x) && NoDuplicates(RemoveFirst(s, x))
  {
    var i := IndexOf(s, x);
    var r := RemoveFirst(s, x);
    RemoveFirstOrder(s, x);
    if i < |s| {
      forall j | 0 <= j < |r|
        ensures r[j] != x
      {
        if j >= i {
          assert r[j] == s[j + 1];
        }
      }
      forall j, k | 0 <= j < k < |r|
        ensures r[j] != r[k]
      {
        var j' := if j < i then j else j + 1;
        var k' := if k < i then k else k + 1;
        assert r[j] == s[j'] && r[k] == s[k'];
      }
    }
  }

  /** `on_a_card_delete`: the path leaves the list, its text and its
      record. B records that claim it keep their claim. */
  function DeleteA(st: State, p: Path): (r: State)
    ensures r.aImages == RemoveFirst(st.aImages, p)
    ensures p !in r.aTexts && p !in r.aInfo
    ensures forall q | q != p :: TextOf(r.aTexts, q) == TextOf(st.aTexts, q) && AInfoOf(r, q) == AInfoOf(st, q)
    ensures r.bImages == st.bImages && r.bTexts == st.bTexts && r.bInfo == st.bInfo
  {
    st.(aImages := RemoveFirst(st.aImages, p), aTexts := st.aTexts - {p}, aInfo := st.aInfo - {p})
  }

  /** `on_b_card_delete`: the path leaves the list, its text and its
      record. The reference it claimed keeps its `used` flag. */
  function DeleteB(st: State, p: Path): (r: State)
    ensures r.bImages == RemoveFirst(st.bImages, p)
    ensures p !in r.bTexts && p !in r.bInfo.vals
    ensures forall q | q != p :: TextOf(r.bTexts, q) == TextOf(st.bTexts, q) && BInfoOf(r, q) == BInfoOf(st, q)
    ensures r.aImages == st.aImages && r.aTexts == st.aTexts && r.aInfo == st.aInfo
  {
    st.(bImages := RemoveFirst(st.bImages, p), bTexts := st.bTexts - {p}, bInfo := Pop(st.bInfo, p))
  }

  lemma AppendNewSingle(s: seq<Path>, x: Path)
    requires x !in s
    ensures AppendNew(s, [x]) == s + [x]
  {
    assert [x][..0] == [];
  }

  lemma AddRecordsSingle(d: BInfos, x: Path)
    requires x !in d.vals
    ensures AddRecords(d, [x]) == Put(d, x, FreshBInfo(x))
  {
    assert [x][..0] == [];
    assert AddRecords(d, [x]) == AddRecord(AddRecords(d, []), x);
  }

  lemma RemoveFirstOfAppended(s: seq<Path>, x: Path)
    requires x !in s
    ensures RemoveFirst(s + [x], x) == s
  {
    var i := IndexOf(s + [x], x);
    assert (s + [x])[|s|] == x;
    assert i == |s|;
    assert (s + [x])[..|s|] == s;
  }

  lemma RemoveOfAppended(s: seq<Path>, x: Path)
    requires x !in s
    ensures Remove(s + [x], x) == s
  {
    assert (s + [x])[..|s|] == s;
    RemoveAbsent(s, x);
  }

  /** Popping a key that was just put in fresh gives the old dictionary. */
  lemma PopUndoesPut(d: BInfos, k: Path, v: BInfo)
    requires k !in d.vals
    ensures Pop(Put(d, k, v), k) == d
  {
    var put := Put(d, k, v);
    assert k !in d.order;
    assert put.order == d.order + [k];
    RemoveOfAppended(d.order, k);
    assert put.vals - {k} == d.vals;
  }

  lemma AddAInfoSingle(st: State, p: Path)
    requires p !in st.aInfo
    ensures AddA(st, [p]).st.aInfo == st.aInfo[p := NoAInfo]
  {
    var added := AddA(st, [p]).st.aInfo;
    forall q | q in added
      ensures q in st.aInfo[p := NoAInfo] && added[q] == st.aInfo[p := NoAInfo][q]
    {
      assert added[q] == AInfoOf(st, q);
    }
  }

  /** Deleting an image that was just added to group A, and was unknown
      before, restores the collections. */
  lemma DeleteUndoesAddA(st: State, p: Path)
    requires p !in st.aImages && p !in st.aInfo && p !in st.aTexts
    ensures DeleteA(AddA(st, [p]).st, p) == st
  {
    var added := AddA(st, [p]).st;
    AppendNewSingle(st.aImages, p);
    RemoveFirstOfAppended(st.aImages, p);
    AddAInfoSingle(st, p);
    assert st.aInfo[p := NoAInfo] - {p} == st.aInfo;
  }

  /** The same for group B. */
  lemma DeleteUndoesAddB(st: State, p: Path)
    requires p !in st.bImages && p !in st.bInfo.vals && p !in st.bTexts
    ensures DeleteB(AddB(st, [p]).st, p) == st
  {
    AddBSingle(st, p);
    var added := st.(bImages := st.bImages + [p], bInfo := Put(st.bInfo, p, FreshBInfo(p)));
    RemoveFirstOfAppended(st.bImages, p);
    PopUndoesPut(st.bInfo, p, FreshBInfo(p));
    assert st.bTexts - {p} == st.bTexts;
    assert DeleteB(added, p) == st;
  }

  lemma AddBSingle(st: State, p: Path)
    requires p !in st.bImages && p !in st.bInfo.vals
    ensures AddB(st, [p]).st == st.(bImages := st.bImages + [p], bInfo := Put(st.bInfo, p, FreshBInfo(p)))
  {
    AppendNewSingle(st.bImages, p);
    AddRecordsSingle(st.bInfo, p);
  }

  // ---------------------------------------------------------------------
  // Clearing and choosing a folder
  // ---------------------------------------------------------------------

  /** The loop that clears every reference's `used` flag. */
  function ResetUsed(info: map<Path, AInfo>): (r: map<Path, AInfo>)
    ensures r.Keys == info.Keys
    ensures forall p | p in r :: !r[p].used
    ensures forall p | p in r :: r[p].text == info[p].text && r[p].width == info[p].width && r[p].height == info[p].height
  {
    map p | p in info :: info[p].(used := false)
  }

  /** `clear_b_images`: group B is emptied and every reference is free
      again; group A's images and texts stay. */
  function ClearB(st: State): (r: State)
    ensures r.bImages == [] && r.bTexts == map[] && r.bInfo.vals == map[]
    ensures r.aImages == st.aImages && r.aTexts == st.aTexts
    ensures r.aInfo == ResetUsed(st.aInfo)
  {
    st.(bImages := [], bTexts := map[], bInfo := Empty(), aInfo := ResetUsed(st.aInfo))
  }

  /** `clear_all_images`: everything back to the initial state. It does all
      that `clear_b_images` does and more, so clearing group B afterwards
      changes nothing; and no reference is left marked used. */
  function ClearAll(st: State): (r: State)
    ensures r.aImages == [] && r.bImages == []
    ensures r.aInfo == map[] && r.bInfo.vals == map[] && r.aTexts == map[] && r.bTexts == map[]
    ensures ClearB(r) == r
    ensures UsedRefs(r) == {}
  {
    EmptyState
  }

  /** `select_folder_b_internal`: group B becomes the scanned images, with
      the texts cached for that folder if any and no records; every
      reference is free again. */
  function SelectFolderB(st: State, scanned: seq<Path>, cached: Option<map<Path, string>>): (r: State)
    ensures r.bImages == scanned && r.bInfo.vals == map[]
    ensures r.bTexts == (if cached.Some? then cached.value else map[])
    ensures r.aImages == st.aImages && r.aTexts == st.aTexts
    ensures r.aInfo == ResetUsed(st.aInfo)
  {
    st.(bImages := scanned, bTexts := cached.GetOr(map[]), bInfo := Empty(), aInfo := ResetUsed(st.aInfo))
  }

  /** `select_folder_a_internal`: group A becomes the scanned images, with
      the texts cached for that folder if any and no records. Group B,
      including its claims, is left alone. */
  function SelectFolderA(st: State, scanned: seq<Path>, cached: Option<map<Path, string>>): (r: State)
    ensures r.aImages == scanned && r.aInfo == map[]
    ensures r.aTexts == (if cached.Some? then cached.value else map[])
    ensures r.bImages == st.bImages && r.bTexts == st.bTexts && r.bInfo == st.bInfo
  {
    st.(aImages := scanned, aTexts := cached.GetOr(map[]), aInfo := map[])
  }

  /** After a reset no reference counts as used, so a fresh matching pass
      seeds nothing: on a newly chosen or cleared group B the corrected
      matcher and the application's matcher agree. */
  lemma FreshGroupBMatchesAsWritten(cfg: Settings, st: State, scanned: seq<Path>, cached: Option<map<Path, string>>)
    ensures UsedRefs(ClearB(st)) == {}
    ensures UsedRefs(SelectFolderB(st, scanned, cached)) == {}
    ensures CorrectedAutoMatch(cfg, SelectFolderB(st, scanned, cached)) == AutoMatch(cfg, SelectFolderB(st, scanned, cached))
  {
    var chosen := SelectFolderB(st, scanned, cached);
    assert UsedRefs(chosen) == {} by {
      forall p | p in chosen.aInfo
        ensures !chosen.aInfo[p].used
      {
      }
    }
  }

  /** Every bookkeeping operation keeps the lists free of repetitions
      (choosing a folder given a scan without repetitions). */
  lemma DistinctPreserved(st: State, files: seq<Path>, p: Path, text: string,
                          size: Option<(nat, nat)>, scanned: seq<Path>, cached: Option<map<Path, string>>)
    requires Distinct(st)
    ensures Distinct(AddA(st, files).st) && Distinct(AddB(st, files).st)
    ensures Distinct(MergeTextA(st, p, text, size)) && Distinct(MergeTextB(st, p, text, size))
    ensures Distinct(DeleteA(st, p)) && Distinct(DeleteB(st, p))
    ensures Distinct(ClearB(st)) && Distinct(ClearAll(st))
    ensures NoDuplicates(scanned) ==> Distinct(SelectFolderA(st, scanned, cached)) && Distinct(SelectFolderB(st, scanned, cached))
  {
    RemoveFirstDistinct(st.aImages, p);
    RemoveFirstDistinct(st.bImages, p);
  }

  /** Under that invariant a deleted image is gone from its list. */
  lemma DeleteRemovesEntirely(st: State, p: Path)
    requires Distinct(st)
    ensures p !in DeleteA(st, p).aImages && p !in DeleteB(st, p).bImages
  {
    RemoveFirstDistinct(st.aImages, p);
    RemoveFirstDistinct(st.bImages, p);
  }
}

=== FILE: display.dfy ===
/** What the card grids show: the order of each group, the filter, the grid
    cell of each card, the progress line and the three-word text summary on
    a card. The drawing itself is not modelled; these are the computations
    that decide what is drawn where. */
module Display {
  import opened Options
  import opened Paths
  import opened OrderedDicts
  import opened Sorting
  import opened Records
  import opened Suggestions

  // ---------------------------------------------------------------------
  // Display order
  // ---------------------------------------------------------------------

  /** A string as the code points Python compares it by. */
  function Codes(s: string): (r: seq<int>)
    ensures |r| == |s|
    ensures forall i | 0 <= i < |s| :: r[i] == s[i] as int
  {
    seq(|s|, i requires 0 <= i < |s| => s[i] as int)
  }

  /** The rank `b_suggestions.get(path, 9999)` gives a path that is not
      suggested. */
  const Unranked := 9999

  function Area(w: nat, h: nat): nat {
    w * h
  }

  /** `sort_key_a`: unused first, then larger images, then by lower-cased
      file name. */
  function AKey(st: State): Path -> seq<int> {
    (p: Path) =>
      var info := AInfoOf(st, p);
      [if info.used then 1 else 0, -(Area(info.width, info.height) as int)] + Codes(LowerAscii(p.name))
  }

  /** `update_a_table`'s reordering of group A. */
  function ArrangeA(st: State): State {
    st.(aImages := SortBy(st.aImages, AKey(st)))
  }

  /** The rank a B image sorts by: matched images all share 0, unmatched
      ones use their suggestion rank or `Unranked`. */
  function RankOf(st: State, ranks: map<Path, nat>, p: Path): nat {
    if BInfoOf(st, p).matched then 0 else if p in ranks then ranks[p] else Unranked
  }

  /** `sort_key_b`: unmatched first, then by suggestion rank, then larger
      images, then by lower-cased shown name. */
  function BKey(st: State, ranks: map<Path, nat>): Path -> seq<int> {
    (p: Path) =>
      var info := BInfoOf(st, p);
      [if info.matched then 1 else 0, RankOf(st, ranks, p), -(Area(info.width, info.height) as int)]
        + Codes(LowerAscii(DisplayName(info, p)))
  }

  /** `update_b_table`'s reordering of group B. */
  function ArrangeB(st: State, ranks: map<Path, nat>): State {
    st.(bImages := SortBy(st.bImages, BKey(st, ranks)))
  }

  lemma KeyHead(x: int, rest: seq<int>, y: int, rest2: seq<int>)
    requires LexLe([x] + rest, [y] + rest2)
    ensures x <= y && (x == y ==> LexLe(rest, rest2))
  {
    LexCons(x, rest, y, rest2);
  }

  lemma AKeyShape(st: State, p: Path)
    ensures var info := AInfoOf(st, p);
      AKey(st)(p) == [if info.used then 1 else 0] + ([-(Area(info.width, info.height) as int)] + Codes(LowerAscii(p.name)))
  {
  }

  lemma BKeyShape(st: State, ranks: map<Path, nat>, p: Path)
    ensures var info := BInfoOf(st, p);
      BKey(st, ranks)(p) == [if info.matched then 1 else 0] + ([RankOf(st, ranks, p)]
        + ([-(Area(info.width, info.height) as int)] + Codes(LowerAscii(DisplayName(info, p)))))
  {
  }

  /** What one comparison of A keys says about the two references. */
  lemma AKeyOrder(st: State, p: Path, q: Path)
    requires LexLe(AKey(st)(p), AKey(st)(q))
    ensures var x := AInfoOf(st, p);
      var y := AInfoOf(st, q);
      && (x.used ==> y.used)
      && (x.used == y.used ==> Area(x.width, x.height) >= Area(y.width, y.height))
      && (x.used == y.used && Area(x.width, x.height) == Area(y.width, y.height) ==>
            LexLe(Codes(LowerAscii(p.name)), Codes(LowerAscii(q.name))))
  {
    var x := AInfoOf(st, p);
    var y := AInfoOf(st, q);
    var nx := Codes(LowerAscii(p.name));
    var ny := Codes(LowerAscii(q.name));
    var ax := -(Area(x.width, x.height) as int);
    var ay := -(Area(y.width, y.height) as int);
    var ux := if x.used then 1 else 0;
    var uy := if y.used then 1 else 0;
    AKeyShape(st, p);
    AKeyShape(st, q);
    KeyHead(ux, [ax] + nx, uy, [ay] + ny);
    if ux == uy {
      KeyHead(ax, nx, ay, ny);
    }
  }

  /** Group A is rearranged, not changed, and in the new order no used
      reference comes before an unused one, among equally used ones larger
      images come first, and among those the names are in order. */
  lemma ArrangeAOrder(st: State)
    ensures multiset(ArrangeA(st).aImages) == multiset(st.aImages)
    ensures ArrangeA(st).aInfo == st.aInfo && ArrangeA(st).bImages == st.bImages
    ensures var r := ArrangeA(st).aImages;
      forall i, j | 0 <= i < j < |r| ::
        var x := AInfoOf(st, r[i]);
        var y := AInfoOf(st, r[j]);
        && (x.used ==> y.used)
        && (x.used == y.used ==> Area(x.width, x.height) >= Area(y.width, y.height))
        && (x.used == y.used && Area(x.width, x.height) == Area(y.width, y.height) ==>
              LexLe(Codes(LowerAscii(r[i].name)), Codes(LowerAscii(r[j].name))))
  {
    SortByCorrect(st.aImages, AKey(st));
    var r := ArrangeA(st).aImages;
    forall i, j | 0 <= i < j < |r|
      ensures var x := AInfoOf(st, r[i]);
        var y := AInfoOf(st, r[j]);
        && (x.used ==> y.used)
        && (x.used == y.used ==> Area(x.width, x.height) >= Area(y.width, y.height))
        && (x.used == y.used && Area(x.width, x.height) == Area(y.width, y.height) ==>
              LexLe(Codes(LowerAscii(r[i].name)), Codes(LowerAscii(r[j].name))))
    {
      AKeyOrder(st, r[i], r[j]);
    }
  }

  /** What one comparison of B keys says about the two images. */
  lemma BKeyOrder(st: State, ranks: map<Path, nat>, p: Path, q: Path)
    requires LexLe(BKey(st, ranks)(p), BKey(st, ranks)(q))
    ensures var x := BInfoOf(st, p);
      var y := BInfoOf(st, q);
      && (x.matched ==> y.matched)
      && (x.matched == y.matched ==> RankOf(st, ranks, p) <= RankOf(st, ranks, q))
      && (x.matched == y.matched && RankOf(st, ranks, p) == RankOf(st, ranks, q) ==>
            Area(x.width, x.height) >= Area(y.width, y.height))
      && (x.matched == y.matched && RankOf(st, ranks, p) == RankOf(st, ranks, q)
          && Area(x.width, x.height) == Area(y.width, y.height) ==>
            LexLe(Codes(LowerAscii(DisplayName(x, p))), Codes(LowerAscii(DisplayName(y, q)))))
  {
    var x := BInfoOf(st, p);
    var y := BInfoOf(st, q);
    var nx := Codes(LowerAscii(DisplayName(x, p)));
    var ny := Codes(LowerAscii(DisplayName(y, q)));
    var ax := -(Area(x.width, x.height) as int);
    var ay := -(Area(y.width, y.height) as int);
    var kx := RankOf(st, ranks, p);
    var ky := RankOf(st, ranks, q);
    var mx := if x.matched then 1 else 0;
    var my := if y.matched then 1 else 0;
    BKeyShape(st, ranks, p);
    BKeyShape(st, ranks, q);
    KeyHead(mx, [kx] + ([ax] + nx), my, [ky] + ([ay] + ny));
    if mx == my {
      KeyHead(kx, [ax] + nx, ky, [ay] + ny);
      if kx == ky {
        KeyHead(ax, nx, ay, ny);
      }
    }
  }

  /** Group B is rearranged, not changed, and in the new order no matched
      image comes before an unmatched one, unmatched images follow their
      suggestion ranks, among equal ranks larger images come first, and among
      those the shown names are in order. */
  lemma ArrangeBOrder(st: State, ranks: map<Path, nat>)
    ensures multiset(ArrangeB(st, ranks).bImages) == multiset(st.bImages)
    ensures ArrangeB(st, ranks).bInfo == st.bInfo && ArrangeB(st, ranks).aImages == st.aImages
    ensures var r := ArrangeB(st, ranks).bImages;
      forall i, j | 0 <= i < j < |r| ::
        var x := BInfoOf(st, r[i]);
        var y := BInfoOf(st, r[j]);
        && (x.matched ==> y.matched)
        && (x.matched == y.matched ==> RankOf(st, ranks, r[i]) <= RankOf(st, ranks, r[j]))
        && (x.matched == y.matched && RankOf(st, ranks, r[i]) == RankOf(st, ranks, r[j]) ==>
              Area(x.width, x.height) >= Area(y.width, y.height))
        && (x.matched == y.matched && RankOf(st, ranks, r[i]) == RankOf(st, ranks, r[j])
            && Area(x.width, x.height) == Area(y.width, y.height) ==>
              LexLe(Codes(LowerAscii(DisplayName(x, r[i]))), Codes(LowerAscii(DisplayName(y, r[j])))))
  {
    SortByCorrect(st.bImages, BKey(st, ranks));
    var r := ArrangeB(st, ranks).bImages;
    forall i, j | 0 <= i < j < |r|
      ensures var x := BInfoOf(st, r[i]);
        var y := BInfoOf(st, r[j]);
        && (x.matched ==> y.matched)
        && (x.matched == y.matched ==> RankOf(st, ranks, r[i]) <= RankOf(st, ranks, r[j]))
        && (x.matched == y.matched && RankOf(st, ranks, r[i]) == RankOf(st, ranks, r[j]) ==>
              Area(x.width, x.height) >= Area(y.width, y.height))
        && (x.matched == y.matched && RankOf(st, ranks, r[i]) == RankOf(st, ranks, r[j])
            && Area(x.width, x.height) == Area(y.width, y.height) ==>
              LexLe(Codes(LowerAscii(DisplayName(x, r[i]))), Codes(LowerAscii(DisplayName(y, r[j])))))
    {
      BKeyOrder(st, ranks, r[i], r[j]);
    }
  }

  /** Group A is in `update_a_table`'s order for its current records. */
  predicate ArrangedA(st: State) {
    SortedBy(st.aImages, AKey(st))
  }

  /** Group B is in `update_b_table`'s order for its current records and the
      given suggestion ranks. */
  predicate ArrangedB(st: State, ranks: map<Path, nat>) {
    SortedBy(st.bImages, BKey(st, ranks))
  }

  lemma AKeySame(st: State, st2: State, p: Path)
    requires st2.aInfo == st.aInfo
    ensures AKey(st2)(p) == AKey(st)(p)
  {
    assert AInfoOf(st2, p) == AInfoOf(st, p);
    AKeyShape(st, p);
    AKeyShape(st2, p);
  }

  lemma BKeySame(st: State, st2: State, ranks: map<Path, nat>, p: Path)
    requires st2.bInfo == st.bInfo
    ensures BKey(st2, ranks)(p) == BKey(st, ranks)(p)
  {
    assert BInfoOf(st2, p) == BInfoOf(st, p);
    assert RankOf(st2, ranks, p) == RankOf(st, ranks, p);
    BKeyShape(st, ranks, p);
    BKeyShape(st2, ranks, p);
  }

  /** The A order depends only on the A records. */
  lemma SortedByAKeyAgain(s: seq<Path>, st: State, st2: State)
    requires SortedBy(s, AKey(st))
    requires st2.aInfo == st.aInfo
    ensures SortedBy(s, AKey(st2))
  {
    forall i, j | 0 <= i < j < |s|
      ensures LexLe(AKey(st2)(s[i]), AKey(st2)(s[j]))
    {
      AKeySame(st, st2, s[i]);
      AKeySame(st, st2, s[j]);
    }
  }

  /** The B order depends only on the B records and the ranks. */
  lemma SortedByBKeyAgain(s: seq<Path>, st: State, st2: State, ranks: map<Path, nat>)
    requires SortedBy(s, BKey(st, ranks))
    requires st2.bInfo == st.bInfo
    ensures SortedBy(s, BKey(st2, ranks))
  {
    forall i, j | 0 <= i < j < |s|
      ensures LexLe(BKey(st2, ranks)(s[i]), BKey(st2, ranks)(s[j]))
    {
      BKeySame(st, st2, ranks, s[i]);
      BKeySame(st, st2, ranks, s[j]);
    }
  }

  /** Refreshing the A table leaves it in order, and refreshing it a second
      time changes nothing. */
  lemma ArrangeAIdempotent(st: State)
    ensures ArrangedA(ArrangeA(st))
    ensures ArrangeA(ArrangeA(st)) == ArrangeA(st)
  {
    var a := ArrangeA(st);
    SortByOrdered(st.aImages, AKey(st));
    SortedByAKeyAgain(a.aImages, st, a);
    SortBySorted(a.aImages, AKey(a));
  }

  /** Refreshing the B table leaves it in order, and refreshing it a second
      time with the same ranks changes nothing. */
  lemma ArrangeBIdempotent(st: State, ranks: map<Path, nat>)
    ensures ArrangedB(ArrangeB(st, ranks), ranks)
    ensures ArrangeB(ArrangeB(st, ranks), ranks) == ArrangeB(st, ranks)
  {
    var b := ArrangeB(st, ranks);
    SortByOrdered(st.bImages, BKey(st, ranks));
    SortedByBKeyAgain(b.bImages, st, b, ranks);
    SortBySorted(b.bImages, BKey(b, ranks));
  }

  /** `update_a_table` followed by `update_b_table`: both groups end up in
      display order and only the order changed. */
  function Refresh(st: State, ranks: map<Path, nat>): (r: State)
    ensures ArrangedA(r) && ArrangedB(r, ranks)
    ensures multiset(r.aImages) == multiset(st.aImages) && multiset(r.bImages) == multiset(st.bImages)
    ensures |r.aImages| == |st.aImages| && |r.bImages| == |st.bImages|
    ensures r.aTexts == st.aTexts && r.aInfo == st.aInfo && r.bTexts == st.bTexts && r.bInfo == st.bInfo
  {
    var a := ArrangeA(st);
    var r := ArrangeB(a, ranks);
    ArrangeAIdempotent(st);
    ArrangeAOrder(st);
    ArrangeBIdempotent(a, ranks);
    ArrangeBOrder(a, ranks);
    SortedByAKeyAgain(r.aImages, a, r);
    assert |r.bImages| == |multiset(r.bImages)| == |multiset(st.bImages)| == |st.bImages|;
    assert |r.aImages| == |multiset(r.aImages)| == |multiset(st.aImages)| == |st.aImages|;
    r
  }

  /** With the ranks the suggestion ranker produced, an unmatched suggested
      image is shown before every unmatched image that is not suggested, and
      suggested ones in rank order. */
  lemma SuggestedShownFirst(st: State, sim: (string, string) -> Percent, focus: Option<Path>)
    ensures var ranks := SuggestionsFor(st, sim, focus);
      var r := ArrangeB(st, ranks).bImages;
      forall i, j | 0 <= i < j < |r| && !BInfoOf(st, r[i]).matched && !BInfoOf(st, r[j]).matched && r[j] in ranks ::
        r[i] in ranks && ranks[r[i]] <= ranks[r[j]]
  {
    var ranks := SuggestionsFor(st, sim, focus);
    var r := ArrangeB(st, ranks).bImages;
    ArrangeBOrder(st, ranks);
    SuggestionsDomain(st, sim, focus);
    forall i, j | 0 <= i < j < |r| && !BInfoOf(st, r[i]).matched && !BInfoOf(st, r[j]).matched && r[j] in ranks
      ensures r[i] in ranks && ranks[r[i]] <= ranks[r[j]]
    {
      assert RankOf(st, ranks, r[i]) <= RankOf(st, ranks, r[j]);
    }
  }

  // ---------------------------------------------------------------------
  // Filter
  // ---------------------------------------------------------------------

  /** The `all` / `unmatched` / `matched` filter of either grid. */
  datatype FilterMode = All | Unmatched | Matched

  function ModeName(m: FilterMode): string {
    match m
    case All => "all"
    case Unmatched => "unmatched"
    case Matched => "matched"
  }

  /** The accepted mode names; anything else is rejected. */
  function ParseMode(s: string): (r: Option<FilterMode>)
    ensures r.Some? ==> ModeName(r.value) == s
    ensures r.None? <==> s != "all" && s != "unmatched" && s != "matched"
  {
    if s == "all" then Some(All)
    else if s == "unmatched" then Some(Unmatched)
    else if s == "matched" then Some(Matched)
    else None
  }

  lemma ParseModeName(m: FilterMode)
    ensures ParseMode(ModeName(m)) == Some(m)
  {
  }

  /** `set_a_filter_mode` / `set_b_filter_mode`: an unknown name leaves the
      mode as it was. */
  function SetMode(current: FilterMode, s: string): (r: FilterMode)
    ensures ParseMode(s).None? ==> r == current
    ensures ParseMode(s).Some? ==> ModeName(r) == s
  {
    ParseMode(s).GetOr(current)
  }

  /** Whether a card with the given flag (`used` for A, `matched` for B)
      passes the filter. */
  predicate Shows(mode: FilterMode, flag: bool) {
    match mode
    case All => true
    case Unmatched => !flag
    case Matched => flag
  }

  /** The cards a grid draws, in display order. */
  function Visible(paths: seq<Path>, flag: Path -> bool, mode: FilterMode): (r: seq<Path>)
    ensures forall p :: p in r <==> p in paths && Shows(mode, flag(p))
    ensures |r| <= |paths|
  {
    if |paths| == 0 then []
    else
      var rest := Visible(paths[..|paths| - 1], flag, mode);
      var last := paths[|paths| - 1];
      assert forall p :: p in paths <==> p in paths[..|paths| - 1] || p == last;
      if Shows(mode, flag(last)) then rest + [last] else rest
  }

  /** `all` shows everything. */
  lemma {:induction false} ShowAll(paths: seq<Path>, flag: Path -> bool)
    ensures Visible(paths, flag, All) == paths
  {
    if |paths| > 0 {
      ShowAll(paths[..|paths| - 1], flag);
      assert paths == paths[..|paths| - 1] + [paths[|paths| - 1]];
    }
  }

  /** `unmatched` and `matched` split the grid between them. */
  lemma {:induction false} FilterPartition(paths: seq<Path>, flag: Path -> bool)
    ensures |Visible(paths, flag, Unmatched)| + |Visible(paths, flag, Matched)| == |paths|
  {
    if |paths| > 0 {
      FilterPartition(paths[..|paths| - 1], flag);
    }
  }

  function UsedFlag(st: State): Path -> bool {
    (p: Path) => AInfoOf(st, p).used
  }

  function MatchedFlag(st: State): Path -> bool {
    (p: Path) => BInfoOf(st, p).matched
  }

  // ---------------------------------------------------------------------
  // Grid
  // ---------------------------------------------------------------------

  /** The estimated width of one card, margins included. */
  const CardWidth := 320
  const MaxColumns := 6

  /** `viewport_width or max(self.width() // 2, 1)`. */
  function AvailableWidth(viewport: nat, window: nat): nat {
    if viewport != 0 then viewport else if window / 2 >= 1 then window / 2 else 1
  }

  /** `max(1, min(6, available // 320))`: as many cards as fit, at least one
      and at most six. */
  function CardsPerRow(available: nat): (c: nat)
    ensures 1 <= c <= MaxColumns
    ensures c == 1 || c * CardWidth <= available
    ensures c < MaxColumns ==> available < (c + 1) * CardWidth
  {
    var fit := available / CardWidth;
    if fit < 1 then 1 else if fit > MaxColumns then MaxColumns else fit
  }

  /** `row = i // cards_per_row; col = i % cards_per_row` for the i-th
      visible card. */
  function Cell(i: nat, columns: nat): (c: (nat, nat))
    requires columns >= 1
    ensures c.1 < columns
    ensures c.0 * columns + c.1 == i
  {
    (i / columns, i % columns)
  }

  lemma MulMonotone(a: int, b: int, c: nat)
    ensures a <= b ==> a * c <= b * c
  {
    if a <= b {
      assert b * c == a * c + (b - a) * c;
    }
  }

  /** Different cards get different cells, and the cells fill the grid row
      by row in display order. */
  lemma CellsRowMajor(i: nat, j: nat, columns: nat)
    requires columns >= 1 && i < j
    ensures Cell(i, columns) != Cell(j, columns)
    ensures Cell(i, columns).0 < Cell(j, columns).0
            || (Cell(i, columns).0 == Cell(j, columns).0 && Cell(i, columns).1 < Cell(j, columns).1)
  {
    var (ri, ci) := Cell(i, columns);
    var (rj, cj) := Cell(j, columns);
    MulMonotone(rj + 1, ri, columns);
    assert (rj + 1) * columns == rj * columns + columns;
    MulMonotone(ri, rj, columns);
  }

  /** The grid: every visible card with its row and column. */
  function Layout(visible: seq<Path>, columns: nat): (r: seq<(Path, nat, nat)>)
    requires columns >= 1
    ensures |r| == |visible|
    ensures forall i | 0 <= i < |r| :: r[i].0 == visible[i] && r[i].2 < columns && r[i].1 * columns + r[i].2 == i
  {
    seq(|visible|, i requires 0 <= i < |visible| => (visible[i], Cell(i, columns).0, Cell(i, columns).1))
  }

  // ---------------------------------------------------------------------
  // Progress
  // ---------------------------------------------------------------------

  /** How many of `bs` have a matched record. */
  function CountMatched(st: State, bs: seq<Path>): (n: nat)
    ensures n <= |bs|
  {
    if |bs| == 0 then 0
    else CountMatched(st, bs[..|bs| - 1]) + (if BInfoOf(st, bs[|bs| - 1]).matched then 1 else 0)
  }

  /** The progress line: no data for an empty group B, otherwise matched,
      total and a whole percentage. */
  datatype Progress = NoData | Progress(matched: nat, total: nat, percent: nat)

  /** `update_summary`. `int(matched * 100 / total)` is floor division here:
      both operands are non-negative and well within float precision. */
  function ProgressOf(st: State): (r: Progress)
    ensures r.NoData? <==> |st.bImages| == 0
    ensures r.Progress? ==>
      && r.total == |st.bImages| && r.matched <= r.total
      && r.percent <= 100
      && r.percent * r.total <= r.matched * 100 < (r.percent + 1) * r.total
      && (r.percent == 100 <==> r.matched == r.total)
  {
    var total := |st.bImages|;
    if total == 0 then NoData
    else
      var matched := CountMatched(st, st.bImages);
      PercentBounds(matched, total);
      Progress(matched, total, matched * 100 / total)
  }

  /** Floor division of `100 * part` by `whole`: a whole percentage, 100
      exactly when the part is the whole. */
  lemma PercentBounds(part: nat, whole: nat)
    requires 0 < whole && part <= whole
    ensures var p := part * 100 / whole;
      && p <= 100
      && p * whole <= part * 100 < (p + 1) * whole
      && (p == 100 <==> part == whole)
  {
    var p := part * 100 / whole;
    var rem := part * 100 % whole;
    assert part * 100 == p * whole + rem && 0 <= rem < whole;
    assert (p + 1) * whole == p * whole + whole;
    MulMonotone(101, p, whole);
    MulMonotone(part, whole, 100);
    MulMonotone(part + 1, whole, 100);
    MulMonotone(p, 99, whole);
  }

  /** The matched count is what the `matched` filter shows. */
  lemma {:induction false} CountIsMatchedFilter(st: State, bs: seq<Path>)
    ensures CountMatched(st, bs) == |Visible(bs, MatchedFlag(st), Matched)|
  {
    if |bs| > 0 {
      CountIsMatchedFilter(st, bs[..|bs| - 1]);
    }
  }

  // ---------------------------------------------------------------------
  // Text summary on a card
  // ---------------------------------------------------------------------

  /** A character the summary splits at once newlines became spaces. */
  predicate IsBreak(c: char) {
    c == ' ' || c == '\n'
  }

  predicate NoBreak(w: string) {
    forall i | 0 <= i < |w| :: !IsBreak(w[i])
  }

  /** `text.replace("\n", " ").split(" ")`: the fields between breaks,
      empty ones included, so there is always at least one. */
  function Fields(s: string): (r: seq<string>)
    ensures |r| >= 1
    ensures forall i | 0 <= i < |r| :: NoBreak(r[i])
  {
    if |s| == 0 then [""]
    else
      var r := Fields(s[..|s| - 1]);
      var c := s[|s| - 1];
      if IsBreak(c) then r + [""] else r[..|r| - 1] + [r[|r| - 1] + [c]]
  }

  /** `" ".join(ws)`. */
  function Join(ws: seq<string>): string {
    if |ws| == 0 then ""
    else if |ws| == 1 then ws[0]
    else Join(ws[..|ws| - 1]) + " " + ws[|ws| - 1]
  }

  /** The text with each newline turned into a space. */
  function Spaced(s: string): (r: string)
    ensures |r| == |s|
    ensures forall i | 0 <= i < |s| :: r[i] == (if s[i] == '\n' then ' ' else s[i])
  {
    if |s| == 0 then "" else Spaced(s[..|s| - 1]) + [if s[|s| - 1] == '\n' then ' ' else s[|s| - 1]]
  }

  lemma {:induction false} JoinSnoc(ws: seq<string>, w: string)
    requires |ws| >= 1
    ensures Join(ws + [w]) == Join(ws) + " " + w
  {
    assert (ws + [w])[..|ws|] == ws;
  }

  /** One more character: a break opens a new field, anything else extends
      the last one. */
  lemma FieldsSnoc(s: string, c: char)
    ensures var f := Fields(s);
      Fields(s + [c]) == (if IsBreak(c) then f + [""] else f[..|f| - 1] + [f[|f| - 1] + [c]])
  {
    assert (s + [c])[..|s|] == s;
    assert (s + [c])[|s|] == c;
  }

  /** Splitting and joining again gives the text back, with newlines as
      spaces. */
  lemma {:induction false} JoinFields(s: string)
    ensures Join(Fields(s)) == Spaced(s)
    decreases |s|
  {
    if |s| > 0 {
      var init := s[..|s| - 1];
      var c := s[|s| - 1];
      assert s == init + [c];
      JoinFields(init);
      JoinFieldsSnoc(init, c);
    }
  }

  lemma SpacedSnoc(s: string, c: char)
    ensures Spaced(s + [c]) == Spaced(s) + [if c == '\n' then ' ' else c]
  {
    assert (s + [c])[..|s|] == s;
  }

  lemma JoinFieldsSnoc(s: string, c: char)
    requires Join(Fields(s)) == Spaced(s)
    ensures Join(Fields(s + [c])) == Spaced(s + [c])
  {
    SpacedSnoc(s, c);
    FieldsSnoc(s, c);
    var r := Fields(s);
    if IsBreak(c) {
      JoinSnoc(r, "");
    } else {
      var front := r[..|r| - 1];
      var last := r[|r| - 1];
      assert r == front + [last];
      JoinExtendWord(front, last, c);
    }
  }

  /** Extending the last word extends the joined text. */
  lemma JoinExtendWord(front: seq<string>, last: string, c: char)
    ensures Join(front + [last + [c]]) == Join(front + [last]) + [c]
  {
    if |front| == 0 {
      assert front + [last + [c]] == [last + [c]];
      assert front + [last] == [last];
    } else {
      JoinSnoc(front, last);
      JoinSnoc(front, last + [c]);
      assert Join(front) + " " + (last + [c]) == (Join(front) + " " + last) + [c];
    }
  }

  /** Appending break-free characters extends the last field. */
  lemma {:induction false} FieldsExtend(a: string, w: string)
    requires NoBreak(w)
    ensures var f := Fields(a);
      Fields(a + w) == f[..|f| - 1] + [f[|f| - 1] + w]
    decreases |w|
  {
    var f := Fields(a);
    if |w| == 0 {
      assert a + w == a;
      assert f == f[..|f| - 1] + [f[|f| - 1]];
      assert f[|f| - 1] + w == f[|f| - 1];
    } else {
      var w0 := w[..|w| - 1];
      var c := w[|w| - 1];
      assert !IsBreak(c);
      assert NoBreak(w0) by {
        forall i | 0 <= i < |w0|
          ensures !IsBreak(w0[i])
        {
          assert w0[i] == w[i];
        }
      }
      FieldsExtend(a, w0);
      assert a + w == (a + w0) + [c];
      FieldsExtendStep(a, w0, c);
      assert w0 + [c] == w;
    }
  }

  lemma FieldsExtendStep(a: string, w0: string, c: char)
    requires !IsBreak(c)
    requires var f := Fields(a);
      Fields(a + w0) == f[..|f| - 1] + [f[|f| - 1] + w0]
    ensures var f := Fields(a);
      Fields((a + w0) + [c]) == f[..|f| - 1] + [f[|f| - 1] + (w0 + [c])]
  {
    FieldsSnoc(a + w0, c);
    ExtendLastTwice(Fields(a), Fields(a + w0), w0, c);
  }

  lemma ExtendLastTwice(f: seq<string>, g: seq<string>, w0: string, c: char)
    requires |f| >= 1
    requires g == f[..|f| - 1] + [f[|f| - 1] + w0]
    ensures g[..|g| - 1] + [g[|g| - 1] + [c]] == f[..|f| - 1] + [f[|f| - 1] + (w0 + [c])]
  {
    assert g[..|g| - 1] == f[..|f| - 1];
    assert (f[|f| - 1] + w0) + [c] == f[|f| - 1] + (w0 + [c]);
  }

  lemma FieldsOfWord(w: string)
    requires NoBreak(w)
    ensures Fields(w) == [w]
  {
    FieldsExtend("", w);
    assert "" + w == w;
    assert Fields("") == [""];
  }

  lemma FieldsOfJoinSnoc(init: seq<string>, w: string)
    requires |init| >= 1 && NoBreak(w)
    requires Fields(Join(init)) == init
    ensures Fields(Join(init + [w])) == init + [w]
  {
    JoinSnoc(init, w);
    FieldsSnoc(Join(init), ' ');
    var spaced := Join(init) + [' '];
    assert Fields(spaced) == init + [""];
    FieldsExtend(spaced, w);
    assert (init + [""])[..|init|] == init;
    assert "" + w == w;
    assert Join(init) + " " + w == spaced + w;
  }

  /** Joining break-free words and splitting again gives the words back. */
  lemma {:induction false} FieldsJoin(ws: seq<string>)
    requires |ws| >= 1
    requires forall i | 0 <= i < |ws| :: NoBreak(ws[i])
    ensures Fields(Join(ws)) == ws
    decreases |ws|
  {
    if |ws| == 1 {
      FieldsOfWord(ws[0]);
    } else {
      var init := ws[..|ws| - 1];
      var last := ws[|ws| - 1];
      NoBreakInit(ws, init);
      FieldsJoin(init);
      FieldsOfJoinSnoc(init, last);
      assert ws == init + [last];
    }
  }

  lemma NoBreakInit(ws: seq<string>, init: seq<string>)
    requires |ws| >= 1 && init == ws[..|ws| - 1]
    requires forall i | 0 <= i < |ws| :: NoBreak(ws[i])
    ensures forall i | 0 <= i < |init| :: NoBreak(init[i])
    ensures NoBreak(ws[|ws| - 1])
  {
    forall i | 0 <= i < |init|
      ensures NoBreak(init[i])
    {
      assert init[i] == ws[i];
    }
  }

  /** `[w for w in fields if w.strip()]`. */
  function NonBlank(fs: seq<string>): (r: seq<string>)
    ensures forall i | 0 <= i < |r| :: !IsBlank(r[i])
    ensures (forall i | 0 <= i < |fs| :: NoBreak(fs[i])) ==> forall i | 0 <= i < |r| :: NoBreak(r[i])
    ensures |r| <= |fs|
  {
    if |fs| == 0 then []
    else
      var rest := NonBlank(fs[..|fs| - 1]);
      if IsBlank(fs[|fs| - 1]) then rest else rest + [fs[|fs| - 1]]
  }

  lemma {:induction false} NonBlankKeepsAll(fs: seq<string>)
    requires forall i | 0 <= i < |fs| :: !IsBlank(fs[i])
    ensures NonBlank(fs) == fs
  {
    if |fs| > 0 {
      NonBlankKeepsAll(fs[..|fs| - 1]);
      assert fs == fs[..|fs| - 1] + [fs[|fs| - 1]];
    }
  }

  /** The words of a card's text. */
  function Words(text: string): (r: seq<string>)
    ensures forall i | 0 <= i < |r| :: !IsBlank(r[i]) && NoBreak(r[i])
  {
    NonBlank(Fields(text))
  }

  /** How many words a card shows. */
  const SummaryWords := 3

  /** The shown words, joined by spaces. */
  function SummaryHead(text: string): string {
    var ws := Words(text);
    Join(if |ws| <= SummaryWords then ws else ws[..SummaryWords])
  }

  /** `update_text`: the first three words, followed by ` ...` when there
      are more; nothing for an empty text. */
  function Summary(text: string): string {
    if text == "" then ""
    else SummaryHead(text) + (if |Words(text)| > SummaryWords then " ..." else "")
  }

  /** The summary shows exactly the first (at most) three words of the
      text, and marks with ` ...` that some were left out. */
  lemma SummaryShowsFirstWords(text: string)
    requires text != ""
    ensures var ws := Words(text);
      var shown := if |ws| <= SummaryWords then ws else ws[..SummaryWords];
      && Words(SummaryHead(text)) == shown
      && Summary(text) == SummaryHead(text) + (if |ws| > SummaryWords then " ..." else "")
  {
    var ws := Words(text);
    var shown := if |ws| <= SummaryWords then ws else ws[..SummaryWords];
    assert forall i | 0 <= i < |shown| :: !IsBlank(shown[i]) && NoBreak(shown[i]) by {
      forall i | 0 <= i < |shown|
        ensures !IsBlank(shown[i]) && NoBreak(shown[i])
      {
        assert shown[i] == ws[i];
      }
    }
    if |shown| == 0 {
      assert Join(shown) == "";
      assert Fields("") == [""];
      assert IsBlank("");
    } else {
      FieldsJoin(shown);
      NonBlankKeepsAll(shown);
    }
  }
}

=== FILE: filesystem.dfy ===
/** The directory tree as the rename engine sees it: a finite set of existing
    paths. `os.path.exists` is membership and `os.rename` removes the source
    and adds the destination. Which renames the operating system refuses
    (a locked or read-only file) is an input, the set `locked`. */
module FileSystem {
  import opened Options
  import opened Paths

  type Fs = set<Path>

  /** `os.rename(src, dst)`: `None` when it raises. It raises when the source
      is missing, when the source is locked, and when the destination exists
      (the behaviour on Windows, where the application runs). */
  function Rename(fs: Fs, locked: set<Path>, src: Path, dst: Path): (r: Option<Fs>)
    ensures r.Some? <==> src in fs && src !in locked && dst !in fs
    ensures r.Some? ==> dst in r.value && src !in r.value && |r.value| == |fs|
    ensures r.Some? ==> forall p :: p != src && p != dst ==> (p in r.value <==> p in fs)
  {
    if src in fs && src !in locked && dst !in fs then Some(fs - {src} + {dst}) else None
  }

  /** A path the searching file may take: free, or the file's own path. */
  predicate Vacant(fs: Fs, self: Path, p: Path) {
    p !in fs || p == self
  }

  /** The k-th name a collision search tries in `dir`: the preferred name
      first, then `stem_1ext`, `stem_2ext`, ... */
  function Candidate(dir: string, first: string, stem: string, ext: string, k: nat): Path {
    if k == 0 then Path(dir, first) else Path(dir, Numbered(stem, k, ext))
  }

  /** `k` is where the search stops: the first vacant candidate. */
  predicate FirstVacant(fs: Fs, self: Path, dir: string, first: string, stem: string, ext: string, k: nat) {
    && Vacant(fs, self, Candidate(dir, first, stem, ext, k))
    && forall j :: 0 <= j < k ==> !Vacant(fs, self, Candidate(dir, first, stem, ext, j))
  }

  /** At most one position is the first vacant one. */
  lemma FirstVacantUnique(fs: Fs, self: Path, dir: string, first: string, stem: string, ext: string, k: nat, m: nat)
    requires FirstVacant(fs, self, dir, first, stem, ext, k)
    requires FirstVacant(fs, self, dir, first, stem, ext, m)
    ensures k == m
  {
  }

  /** The loop `while os.path.exists(p) and p != self: p = stem_k + ext; k += 1`:
      the first candidate that is free or is the caller's own path. It
      always stops, because the numbered names are pairwise distinct and
      only finitely many paths exist. */
  method FindVacant(fs: Fs, self: Path, dir: string, first: string, stem: string, ext: string)
    returns (p: Path, k: nat)
    ensures p == Candidate(dir, first, stem, ext, k)
    ensures FirstVacant(fs, self, dir, first, stem, ext, k)
    ensures p.dir == dir
    ensures p != self ==> p !in fs
  {
    k := 0;
    p := Path(dir, first);
    ghost var seen: set<Path> := {};
    ghost var position: map<Path, nat> := map[];
    while p in fs && p != self
      invariant p == Candidate(dir, first, stem, ext, k)
      invariant forall j :: 0 <= j < k ==> !Vacant(fs, self, Candidate(dir, first, stem, ext, j))
      invariant forall q | q in seen :: q in position && 1 <= position[q] < k && q == Candidate(dir, first, stem, ext, position[q])
      invariant seen <= fs
      invariant k == 0 ==> seen == {}
      decreases |fs - seen|, if k == 0 then 1 else 0
    {
      if k > 0 {
        if p in seen {
          NumberedInjective(stem, ext, position[p], k);
        }
        assert fs - (seen + {p}) < fs - seen;
        seen := seen + {p};
        position := position[p := k];
      }
      ghost var blocked := p;
      k := k + 1;
      p := Path(dir, Numbered(stem, k, ext));
      forall j | 0 <= j < k
        ensures !Vacant(fs, self, Candidate(dir, first, stem, ext, j))
      {
        if j == k - 1 {
          assert Candidate(dir, first, stem, ext, j) == blocked;
        }
      }
    }
  }
}

=== FILE: handlers.dfy ===
/** The window's event handlers around the bookkeeping operations: each one
    performs the data step of `Collections` and then refreshes the tables it
    touches, which puts the group back in display order; a delete then
    gives the automatic match-and-rename its chance to run. Whether a card
    is already on screen, which decides whether a recognition result
    rebuilds the grid, is an input. */
module Handlers {
  import opened Options
  import opened Paths
  import opened OrderedDicts
  import opened Sorting
  import opened FileSystem
  import opened Records
  import opened Matcher
  import opened RenameEngine
  import opened Display
  import opened Collections
  import opened Workflow

  // ---------------------------------------------------------------------
  // Adding images
  // ---------------------------------------------------------------------

  /** `add_images_to_group_a` with its table refresh: group A holds the old
      and the new paths, each new one once, in display order; only the
      order differs from the data step. */
  function OnAddA(st: State, files: seq<Path>): (r: Added)
    ensures forall p :: p in r.st.aImages <==> p in st.aImages || p in files
    ensures multiset(r.st.aImages) == multiset(AddA(st, files).st.aImages)
    ensures ArrangedA(r.st)
    ensures r.st == AddA(st, files).st.(aImages := r.st.aImages)
    ensures r.awaiting == AddA(st, files).awaiting
  {
    var added := AddA(st, files);
    ArrangeAIdempotent(added.st);
    ArrangeAOrder(added.st);
    var r := Added(ArrangeA(added.st), added.awaiting);
    assert forall p :: p in r.st.aImages <==> p in multiset(added.st.aImages);
    r
  }

  /** `add_images_to_group_b` with its table refresh, ordered with the
      current suggestion ranks. */
  function OnAddB(st: State, files: seq<Path>, ranks: map<Path, nat>): (r: Added)
    ensures forall p :: p in r.st.bImages <==> p in st.bImages || p in files
    ensures multiset(r.st.bImages) == multiset(AddB(st, files).st.bImages)
    ensures ArrangedB(r.st, ranks)
    ensures r.st == AddB(st, files).st.(bImages := r.st.bImages)
    ensures r.awaiting == AddB(st, files).awaiting
  {
    var added := AddB(st, files);
    ArrangeBIdempotent(added.st, ranks);
    ArrangeBOrder(added.st, ranks);
    var r := Added(ArrangeB(added.st, ranks), added.awaiting);
    assert forall p :: p in r.st.bImages <==> p in multiset(added.st.bImages);
    r
  }

  /** Adding paths that are all listed and recorded already changes
      nothing. */
  lemma AddAPresent(st: State, files: seq<Path>)
    requires forall p | p in files :: p in st.aImages && p in st.aInfo
    ensures AddA(st, files).st == st
  {
    AppendNewPresent(st.aImages, files);
    var after := AddA(st, files).st;
    assert after.aInfo.Keys == st.aInfo.Keys;
    assert after.aInfo == st.aInfo;
  }

  lemma AddBPresent(st: State, files: seq<Path>)
    requires forall p | p in files :: p in st.bImages && p in st.bInfo.vals
    ensures AddB(st, files).st == st
  {
    AppendNewPresent(st.bImages, files);
    AddRecordsPresent(st.bInfo, files);
  }

  /** Dropping the same files onto group A a second time changes nothing. */
  lemma OnAddAIdempotent(st: State, files: seq<Path>)
    ensures OnAddA(OnAddA(st, files).st, files).st == OnAddA(st, files).st
  {
    var once := OnAddA(st, files).st;
    AddAPresent(once, files);
    ArrangeAIdempotent(AddA(st, files).st);
  }

  /** Dropping the same files onto group B a second time, with the same
      ranks, changes nothing. */
  lemma OnAddBIdempotent(st: State, files: seq<Path>, ranks: map<Path, nat>)
    ensures OnAddB(OnAddB(st, files, ranks).st, files, ranks).st == OnAddB(st, files, ranks).st
  {
    var once := OnAddB(st, files, ranks).st;
    AddBPresent(once, files);
    ArrangeBIdempotent(AddB(st, files).st, ranks);
  }

  // ---------------------------------------------------------------------
  // Recognition results
  // ---------------------------------------------------------------------

  /** `on_ocr_a_progress` with `update_a_card`: a non-empty result is
      merged, and the grid is rebuilt, re-sorting group A, only when the
      image has no card yet (`shown` false). */
  function OnTextA(st: State, p: Path, text: string, size: Option<(nat, nat)>, shown: bool): (r: State)
    ensures text == "" ==> r == st
    ensures text != "" && shown ==> r == MergeTextA(st, p, text, size)
    ensures text != "" && !shown ==> ArrangedA(r)
    ensures multiset(r.aImages) == multiset(st.aImages)
    ensures r == MergeTextA(st, p, text, size).(aImages := r.aImages)
  {
    var merged := MergeTextA(st, p, text, size);
    if text == "" || shown then merged
    else
      ArrangeAIdempotent(merged);
      ArrangeAOrder(merged);
      ArrangeA(merged)
  }

  /** `on_ocr_b_progress` with `update_b_card`, ordered with the current
      suggestion ranks. */
  function OnTextB(st: State, p: Path, text: string, size: Option<(nat, nat)>, shown: bool,
                   ranks: map<Path, nat>): (r: State)
    ensures text == "" ==> r == st
    ensures text != "" && shown ==> r == MergeTextB(st, p, text, size)
    ensures text != "" && !shown ==> ArrangedB(r, ranks)
    ensures multiset(r.bImages) == multiset(st.bImages)
    ensures r == MergeTextB(st, p, text, size).(bImages := r.bImages)
  {
    var merged := MergeTextB(st, p, text, size);
    if text == "" || shown then merged
    else
      ArrangeBIdempotent(merged, ranks);
      ArrangeBOrder(merged, ranks);
      ArrangeB(merged, ranks)
  }

  // ---------------------------------------------------------------------
  // Clearing and choosing folders
  // ---------------------------------------------------------------------

  /** Group A is shown largest image first. */
  predicate LargestFirst(st: State) {
    forall i, j | 0 <= i < j < |st.aImages| ::
      Area(AInfoOf(st, st.aImages[i]).width, AInfoOf(st, st.aImages[i]).height)
        >= Area(AInfoOf(st, st.aImages[j]).width, AInfoOf(st, st.aImages[j]).height)
  }

  /** The paths are in lower-cased name order. */
  predicate NameOrdered(s: seq<Path>) {
    forall i, j | 0 <= i < j < |s| :: LexLe(Codes(LowerAscii(s[i].name)), Codes(LowerAscii(s[j].name)))
  }

  /** With every `used` flag clear, display order in group A is by size,
      largest first, and among equal sizes by lower-cased name. */
  lemma ArrangedUnused(st: State)
    requires ArrangedA(st)
    requires forall p | p in st.aInfo :: !st.aInfo[p].used
    ensures LargestFirst(st)
    ensures forall i, j | 0 <= i < j < |st.aImages| ::
              Area(AInfoOf(st, st.aImages[i]).width, AInfoOf(st, st.aImages[i]).height)
                == Area(AInfoOf(st, st.aImages[j]).width, AInfoOf(st, st.aImages[j]).height) ==>
              LexLe(Codes(LowerAscii(st.aImages[i].name)), Codes(LowerAscii(st.aImages[j].name)))
  {
    forall i, j | 0 <= i < j < |st.aImages|
      ensures var x := AInfoOf(st, st.aImages[i]);
              var y := AInfoOf(st, st.aImages[j]);
              && Area(x.width, x.height) >= Area(y.width, y.height)
              && (Area(x.width, x.height) == Area(y.width, y.height) ==>
                    LexLe(Codes(LowerAscii(st.aImages[i].name)), Codes(LowerAscii(st.aImages[j].name))))
    {
      AKeyOrder(st, st.aImages[i], st.aImages[j]);
    }
  }

  /** With no records at all, display order in group A is name order. */
  lemma ArrangedWithoutRecords(st: State)
    requires ArrangedA(st) && st.aInfo == map[]
    ensures NameOrdered(st.aImages)
  {
    ArrangedUnused(st);
    forall i, j | 0 <= i < j < |st.aImages|
      ensures LexLe(Codes(LowerAscii(st.aImages[i].name)), Codes(LowerAscii(st.aImages[j].name)))
    {
      assert AInfoOf(st, st.aImages[i]) == AInfoOf(st, st.aImages[j]);
    }
  }

  /** `clear_b_images` with its refresh of group A: group B is empty and,
      every reference being free again, group A is shown by size and then
      by name. */
  function OnClearB(st: State): (r: State)
    ensures r.bImages == [] && r.bTexts == map[] && r.bInfo.vals == map[]
    ensures multiset(r.aImages) == multiset(st.aImages) && r.aTexts == st.aTexts
    ensures r.aInfo == ResetUsed(st.aInfo)
    ensures ArrangedA(r) && LargestFirst(r)
  {
    var cleared := ClearB(st);
    ArrangeAIdempotent(cleared);
    ArrangeAOrder(cleared);
    var r := ArrangeA(cleared);
    ArrangedUnused(r);
    r
  }

  /** `select_folder_a_internal`: with texts cached for the folder the
      table is refreshed, and with no records yet the scan is shown in
      lower-cased name order; otherwise the list stays in scan order until
      the first recognition result rebuilds the grid. */
  function OnSelectFolderA(st: State, scanned: seq<Path>, cached: Option<map<Path, string>>): (r: State)
    ensures multiset(r.aImages) == multiset(scanned)
    ensures cached.None? ==> r.aImages == scanned
    ensures cached.Some? ==> NameOrdered(r.aImages)
    ensures r == SelectFolderA(st, scanned, cached).(aImages := r.aImages)
  {
    var chosen := SelectFolderA(st, scanned, cached);
    if cached.None? then chosen
    else
      ArrangeAIdempotent(chosen);
      ArrangeAOrder(chosen);
      var r := ArrangeA(chosen);
      ArrangedWithoutRecords(r);
      r
  }

  /** `select_folder_b_internal`: group A is refreshed at once (every
      reference being free again, by size and then by name); group B is
      refreshed only when texts are cached for the folder. */
  function OnSelectFolderB(st: State, scanned: seq<Path>, cached: Option<map<Path, string>>,
                           ranks: map<Path, nat>): (r: State)
    ensures multiset(r.aImages) == multiset(st.aImages) && ArrangedA(r) && LargestFirst(r)
    ensures multiset(r.bImages) == multiset(scanned)
    ensures cached.None? ==> r.bImages == scanned
    ensures cached.Some? ==> ArrangedB(r, ranks)
    ensures r == SelectFolderB(st, scanned, cached).(aImages := r.aImages, bImages := r.bImages)
  {
    var chosen := SelectFolderB(st, scanned, cached);
    ArrangeAIdempotent(chosen);
    ArrangeAOrder(chosen);
    var a := ArrangeA(chosen);
    ArrangedUnused(a);
    if cached.None? then a
    else
      ArrangeBIdempotent(a, ranks);
      ArrangeBOrder(a, ranks);
      ArrangeBKeepsA(a, ranks);
      ArrangeB(a, ranks)
  }

  /** Refreshing group B leaves group A's order as it was. */
  lemma ArrangeBKeepsA(st: State, ranks: map<Path, nat>)
    requires ArrangedA(st) && LargestFirst(st)
    ensures ArrangedA(ArrangeB(st, ranks)) && LargestFirst(ArrangeB(st, ranks))
  {
    var r := ArrangeB(st, ranks);
    SortedByAKeyAgain(r.aImages, st, r);
  }

  // ---------------------------------------------------------------------
  // Deleting an image
  // ---------------------------------------------------------------------

  /** `on_a_card_delete`: the image leaves group A, the table is refreshed,
      and `trigger_auto_match_if_ready` runs the automatic match-and-rename
      when both groups still have recognised text. */
  method OnDeleteA(cfg: Settings, st: State, fs: Fs, locked: set<Path>, token: string, ranks: map<Path, nat>, p: Path)
    returns (st': State, fs': Fs, outcomes: seq<Outcome>, moves: seq<Move>)
    ensures p !in st'.aTexts
    ensures multiset(st'.aImages) == multiset(st.aImages) - multiset{p}
    ensures ArrangedA(st')
    ensures |st.aTexts - {p}| == 0 || |st.bTexts| == 0 ==> st' == ArrangeA(DeleteA(st, p)) && fs' == fs && outcomes == [] && moves == []
    ensures |st.aTexts - {p}| > 0 && |st.bTexts| > 0 ==>
              var ps := CorrectedAutoMatch(cfg, ArrangeA(DeleteA(st, p))).st;
              && ArrangedB(st', ranks)
              && |outcomes| == |Pending(ps.bInfo)|
              && (OnDisk(st, fs) ==>
                    && (forall k | 0 <= k < |outcomes| ::
                          && (outcomes[k].Renamed? <==> !IsPending(st'.bInfo, Pending(ps.bInfo)[k]))
                          && (outcomes[k].Failed? ==> Pending(ps.bInfo)[k] in locked))
                    && RenamedKept(ps.bInfo, st'.bInfo, Pending(ps.bInfo), |outcomes|, outcomes)
                    && OthersKept(ps.bInfo, st'.bInfo, Pending(ps.bInfo), |outcomes|)
                    && EntriesFollow(ps, st', Pending(ps.bInfo), |outcomes|, outcomes))
    ensures multiset(st'.bImages) == multiset(MovePaths(st.bImages, moves)) && st'.bTexts == MoveTexts(st.bTexts, moves)
    ensures |fs'| == |fs|
  {
    var shown := ArrangeA(DeleteA(st, p));
    DeleteAShown(st, fs, p);
    var success, warning, renamedCount, errorCount;
    st', fs', success, warning, outcomes, renamedCount, errorCount, moves := AutoMatchAndRename(cfg, shown, fs, locked, token, ranks);
    MovePathsReordered(shown.bImages, st.bImages, moves);
  }

  /** What deleting from group A and re-sorting leaves behind. */
  lemma DeleteAShown(st: State, fs: Fs, p: Path)
    ensures var shown := ArrangeA(DeleteA(st, p));
      && ArrangedA(shown) && shown == ArrangeA(shown)
      && multiset(shown.aImages) == multiset(st.aImages) - multiset{p}
      && shown.aTexts == st.aTexts - {p} && shown.bTexts == st.bTexts
      && |shown.bImages| == |st.bImages| && multiset(shown.bImages) == multiset(st.bImages)
      && (OnDisk(st, fs) ==> OnDisk(shown, fs))
  {
    ArrangeAIdempotent(DeleteA(st, p));
    ArrangeAOrder(DeleteA(st, p));
    RemoveFirstCount(st.aImages, p);
  }

  /** `on_b_card_delete`: the image leaves group B, the table is refreshed
      with the current suggestion ranks, and the automatic match-and-rename
      runs when both groups still have recognised text. */
  method OnDeleteB(cfg: Settings, st: State, fs: Fs, locked: set<Path>, token: string, ranks: map<Path, nat>, p: Path)
    returns (st': State, fs': Fs, outcomes: seq<Outcome>, moves: seq<Move>)
    ensures multiset(st'.aImages) == multiset(st.aImages)
    ensures |st'.bImages| == |st.bImages| - (if p in st.bImages then 1 else 0)
    ensures ArrangedB(st', ranks)
    ensures |st.aTexts| == 0 || |st.bTexts - {p}| == 0 ==> st' == ArrangeB(DeleteB(st, p), ranks) && fs' == fs && outcomes == [] && moves == []
    ensures |st.aTexts| > 0 && |st.bTexts - {p}| > 0 ==>
              var ps := CorrectedAutoMatch(cfg, ArrangeB(DeleteB(st, p), ranks)).st;
              && ArrangedA(st')
              && |outcomes| == |Pending(ps.bInfo)|
              && (OnDisk(st, fs) ==>
                    && (forall k | 0 <= k < |outcomes| ::
                          && (outcomes[k].Renamed? <==> !IsPending(st'.bInfo, Pending(ps.bInfo)[k]))
                          && (outcomes[k].Failed? ==> Pending(ps.bInfo)[k] in locked))
                    && RenamedKept(ps.bInfo, st'.bInfo, Pending(ps.bInfo), |outcomes|, outcomes)
                    && OthersKept(ps.bInfo, st'.bInfo, Pending(ps.bInfo), |outcomes|)
                    && EntriesFollow(ps, st', Pending(ps.bInfo), |outcomes|, outcomes))
    ensures multiset(st'.bImages) == multiset(MovePaths(RemoveFirst(st.bImages, p), moves))
    ensures st'.bTexts == MoveTexts(st.bTexts - {p}, moves)
    ensures |fs'| == |fs|
  {
    var shown := ArrangeB(DeleteB(st, p), ranks);
    DeleteBShown(st, fs, p, ranks);
    var success, warning, renamedCount, errorCount;
    st', fs', success, warning, outcomes, renamedCount, errorCount, moves := AutoMatchAndRename(cfg, shown, fs, locked, token, ranks);
    MovePathsReordered(shown.bImages, RemoveFirst(st.bImages, p), moves);
  }

  /** What deleting from group B and re-sorting leaves behind. */
  lemma DeleteBShown(st: State, fs: Fs, p: Path, ranks: map<Path, nat>)
    ensures var shown := ArrangeB(DeleteB(st, p), ranks);
      && ArrangedB(shown, ranks) && shown == ArrangeB(shown, ranks)
      && shown.aImages == st.aImages
      && |shown.bImages| == |st.bImages| - (if p in st.bImages then 1 else 0)
      && shown.aTexts == st.aTexts && shown.bTexts == st.bTexts - {p}
      && multiset(shown.bImages) == multiset(RemoveFirst(st.bImages, p))
      && (OnDisk(st, fs) ==> OnDisk(shown, fs))
  {
    var deleted := DeleteB(st, p);
    var shown := ArrangeB(deleted, ranks);
    ArrangeBIdempotent(deleted, ranks);
    ArrangeBOrder(deleted, ranks);
    RemoveFirstCount(st.bImages, p);
    assert |shown.bImages| == |multiset(shown.bImages)| == |multiset(deleted.bImages)|;
    if OnDisk(st, fs) {
      DeleteBOnDisk(st, fs, p, ranks);
    }
  }

  lemma DeleteBOnDisk(st: State, fs: Fs, p: Path, ranks: map<Path, nat>)
    requires OnDisk(st, fs)
    ensures OnDisk(ArrangeB(DeleteB(st, p), ranks), fs)
  {
    var deleted := DeleteB(st, p);
    var shown := ArrangeB(deleted, ranks);
    ArrangeBOrder(deleted, ranks);
    RemoveFirstCount(st.bImages, p);
    forall q | q in shown.bImages
      ensures q in fs
    {
      assert q in multiset(shown.bImages);
      assert q in multiset(st.bImages);
    }
  }
}

=== FILE: manual.dfy ===
/** The manual confirmation (`manual_match`): the selected B image takes the
    selected reference's stem with its own extension, through the same
    eviction and free-name search as the batch, and is marked renamed and
    matched to the reference. Afterwards every other B image still matched
    to that reference is released: a renamed one is moved to
    `stem_old_token ext` (or the first free `stem_old_token_k ext`), an
    un-renamed one only has its match cleared. */
module ManualOverride {
  import opened Options
  import opened Paths
  import opened OrderedDicts
  import opened FileSystem
  import opened Records
  import opened RenameEngine
  import opened Display

  /** The name a released, renamed claimant moves to. */
  function OldName(name: string, token: string): string {
    Stem(name) + "_old_" + token + Suffix(name)
  }

  /** The record of a released claimant that was never renamed: only the
      match is cleared, and it shows its current name again. */
  function ResetInfo(info: BInfo, holder: Path): BInfo {
    info.(matched := false, matchedA := None, newName := Some(holder.name))
  }

  /** What releasing `holder` leaves alone: the records and list entries
      and texts of the others. */
  ghost predicate LeavesOthers(st: State, fs: Fs, holder: Path, st': State, fs': Fs) {
    OtherRecordsKept(st, fs, holder, st', fs') && OtherEntriesKept(st, fs, holder, st')
  }

  ghost predicate OtherRecordsKept(st: State, fs: Fs, holder: Path, st': State, fs': Fs) {
    && ShapeKept(st, fs, st', fs')
    && RecordsFramed(st, fs, holder, st')
    && (forall p | p in fs && p != holder :: p in fs')
  }

  /** Group A and the sizes are kept, and records stay backed by files. */
  ghost predicate ShapeKept(st: State, fs: Fs, st': State, fs': Fs) {
    && st'.aImages == st.aImages && st'.aTexts == st.aTexts && st'.aInfo == st.aInfo
    && |st'.bImages| == |st.bImages| && |fs'| == |fs|
    && (Coherent(st, fs) ==> Coherent(st', fs') && |st'.bInfo.vals.Keys| == |st.bInfo.vals.Keys|)
  }

  /** Every record other than `holder`'s stays, and that of an existing
      file is unchanged; no record gains a match. */
  ghost predicate RecordsFramed(st: State, fs: Fs, holder: Path, st': State) {
    && (forall p | p in st.bInfo.vals && p != holder :: p in st'.bInfo.vals)
    && (forall p | p in st.bInfo.vals && p != holder && p in fs ::
          p in st'.bInfo.vals && st'.bInfo.vals[p] == st.bInfo.vals[p])
    && (forall p | p in st'.bInfo.vals ::
          (p in st.bInfo.vals && st'.bInfo.vals[p] == st.bInfo.vals[p]) || !st'.bInfo.vals[p].matched)
  }

  /** Every other existing file keeps its list entries and its text. */
  ghost predicate OtherEntriesKept(st: State, fs: Fs, holder: Path, st': State) {
    forall q | q != holder && q in fs :: EntryKept(st, st', q)
  }

  lemma LeavesAll(st: State, fs: Fs, holder: Path)
    ensures LeavesOthers(st, fs, holder, st, fs)
  {
  }

  /** Clearing the match of an un-renamed claimant leaves the others alone. */
  lemma ResetLeaves(st: State, fs: Fs, holder: Path, snap: BInfo)
    requires holder in st.bInfo.vals
    ensures LeavesOthers(st, fs, holder, st.(bInfo := Put(st.bInfo, holder, ResetInfo(snap, holder))), fs)
  {
  }

  /** Moving a renamed claimant aside leaves the others alone. */
  lemma RekeyLeaves(st: State, fs: Fs, holder: Path, alt: Path, fs': Fs)
    requires holder in st.bInfo.vals
    requires alt == holder || alt !in fs
    requires fs' == if holder in fs && holder != alt then fs - {holder} + {alt} else fs
    ensures LeavesOthers(st, fs, holder, Rekey(st, holder, alt, ReleasedInfo(st.bInfo.vals[holder], alt)), fs')
  {
    RekeyRecords(st, fs, holder, alt, fs');
    RekeyEntries(st, fs, holder, alt);
  }

  lemma RekeyRecords(st: State, fs: Fs, holder: Path, alt: Path, fs': Fs)
    requires holder in st.bInfo.vals
    requires alt == holder || alt !in fs
    requires fs' == if holder in fs && holder != alt then fs - {holder} + {alt} else fs
    ensures OtherRecordsKept(st, fs, holder, Rekey(st, holder, alt, ReleasedInfo(st.bInfo.vals[holder], alt)), fs')
  {
    RekeyShape(st, fs, holder, alt, fs');
    RekeyFramed(st, fs, holder, alt);
  }

  lemma RekeyShape(st: State, fs: Fs, holder: Path, alt: Path, fs': Fs)
    requires holder in st.bInfo.vals
    requires alt == holder || alt !in fs
    requires fs' == if holder in fs && holder != alt then fs - {holder} + {alt} else fs
    ensures ShapeKept(st, fs, Rekey(st, holder, alt, ReleasedInfo(st.bInfo.vals[holder], alt)), fs')
  {
    assert |fs'| == |fs| by {
      if holder in fs && holder != alt {
        assert alt !in fs - {holder};
      }
    }
    if Coherent(st, fs) {
      ReleaseCoherent(st, fs, holder, alt, fs');
    }
  }

  lemma RekeyFramed(st: State, fs: Fs, holder: Path, alt: Path)
    requires holder in st.bInfo.vals
    requires alt == holder || alt !in fs
    ensures RecordsFramed(st, fs, holder, Rekey(st, holder, alt, ReleasedInfo(st.bInfo.vals[holder], alt)))
  {
    var st' := Rekey(st, holder, alt, ReleasedInfo(st.bInfo.vals[holder], alt));
    forall p | p in st.bInfo.vals && p != holder && p in fs
      ensures p in st'.bInfo.vals && st'.bInfo.vals[p] == st.bInfo.vals[p]
    {
      assert p != alt;
    }
    forall p | p in st'.bInfo.vals
      ensures (p in st.bInfo.vals && st'.bInfo.vals[p] == st.bInfo.vals[p]) || !st'.bInfo.vals[p].matched
    {
      if p != alt {
        assert p != holder;
      }
    }
  }

  lemma RekeyEntries(st: State, fs: Fs, holder: Path, alt: Path)
    requires holder in st.bInfo.vals
    requires alt == holder || alt !in fs
    ensures OtherEntriesKept(st, fs, holder, Rekey(st, holder, alt, ReleasedInfo(st.bInfo.vals[holder], alt)))
  {
    CarriesOne(st, Rekey(st, holder, alt, ReleasedInfo(st.bInfo.vals[holder], alt)), holder, alt);
  }

  /** Releases the claimant `holder`, whose record read `snap` when the sweep
      started. A renamed claimant is moved to its `_old_` name; `refused`
      says the operating system refused that move, and then nothing
      changes. `moves` is the move made, if any. */
  method Retire(st: State, fs: Fs, locked: set<Path>, token: string, holder: Path, snap: BInfo)
    returns (st': State, fs': Fs, alt: Path, refused: bool, moves: seq<Move>)
    requires holder in st.bInfo.vals
    ensures moves == if snap.renamed && !refused then [Move(holder, alt)] else []
    ensures Carries(st, st', moves)
    ensures LeavesOthers(st, fs, holder, st', fs')
    ensures refused ==> snap.renamed && holder in fs && holder in locked && st' == st && fs' == fs
    ensures !snap.renamed ==> !refused && fs' == fs
                              && st' == st.(bInfo := Put(st.bInfo, holder, ResetInfo(snap, holder)))
    ensures snap.renamed ==> alt.dir == holder.dir && (alt == holder || alt !in fs)
    ensures snap.renamed ==>
      var oldName := OldName(holder.name, token);
      exists k :: FirstVacant(fs, holder, holder.dir, oldName, Stem(oldName), Suffix(holder.name), k)
               && alt == Candidate(holder.dir, oldName, Stem(oldName), Suffix(holder.name), k)
    ensures snap.renamed && !refused ==> st' == Rekey(st, holder, alt, ReleasedInfo(st.bInfo.vals[holder], alt))
    ensures snap.renamed && !refused ==> fs' == if holder in fs && holder != alt then fs - {holder} + {alt} else fs
    ensures !refused && holder in st'.bInfo.vals ==> !st'.bInfo.vals[holder].matched
  {
    st', fs', alt, refused, moves := st, fs, holder, false, [];
    if !snap.renamed {
      st' := st.(bInfo := Put(st.bInfo, holder, ResetInfo(snap, holder)));
      ResetLeaves(st, fs, holder, snap);
      return;
    }
    var oldName := OldName(holder.name, token);
    var k;
    alt, k := FindVacant(fs, holder, holder.dir, oldName, Stem(oldName), Suffix(holder.name));
    if holder in fs && holder != alt {
      var moved := Rename(fs, locked, holder, alt);
      if moved.None? {
        refused := true;
        LeavesAll(st, fs, holder);
        return;
      }
      fs' := moved.value;
    }
    st' := Rekey(st, holder, alt, ReleasedInfo(st.bInfo.vals[holder], alt));
    moves := [Move(holder, alt)];
    CarriesOne(st, st', holder, alt);
    RekeyLeaves(st, fs, holder, alt, fs');
  }

  /** One visit of the release sweep: `holder` is released when it is not
      the confirmed image and its record claimed `a` when the sweep
      started. */
  method ReleaseStep(st: State, fs: Fs, locked: set<Path>, token: string, a: Path, keep: Path, holder: Path, snap: BInfo)
    returns (st': State, fs': Fs, refused: bool, moves: seq<Move>)
    requires holder in st.bInfo.vals
    ensures !(holder != keep && Claims(snap, a)) ==> st' == st && fs' == fs && !refused && moves == []
    ensures Carries(st, st', moves)
    ensures forall m | m in moves :: m.src == holder && holder != keep && Claims(snap, a)
    ensures LeavesOthers(st, fs, holder, st', fs')
    ensures refused ==> holder != keep && Claims(snap, a) && snap.renamed && holder in locked
    ensures holder != keep && Claims(snap, a) ==> refused || holder !in st'.bInfo.vals || !st'.bInfo.vals[holder].matched
  {
    if holder != keep && Claims(snap, a) {
      var alt;
      st', fs', alt, refused, moves := Retire(st, fs, locked, token, holder, snap);
    } else {
      st', fs', refused, moves := st, fs, false, [];
      LeavesAll(st, fs, holder);
    }
  }

  /** The claims on `a` left after the sweep visited `snapshot[..j]`: those
      of refused claimants and of entries not yet visited, each as `before`
      read it; the entries not yet visited still have records. */
  ghost predicate ClaimsLeft(before: map<Path, BInfo>, snapshot: seq<Path>, j: nat, a: Path, keep: Path,
                             d: map<Path, BInfo>, refused: set<Path>) {
    && j <= |snapshot|
    && (forall i | j <= i < |snapshot| :: snapshot[i] in d)
    && (forall p | p in d && p != keep && Claims(d[p], a) ::
          p in refused || (p in snapshot[j..] && p in before && d[p] == before[p]))
    && (forall p | p in d && Claims(d[p], a) :: p in before && d[p] == before[p])
  }

  /** Every refused claimant claimed `a`, was renamed, and is locked. */
  ghost predicate RefusedClaimants(before: map<Path, BInfo>, a: Path, locked: set<Path>, refused: set<Path>) {
    forall p | p in refused :: p in before && Claims(before[p], a) && before[p].renamed && p in locked
  }

  /** Every move is that of a claimant of `a` other than `keep`. */
  ghost predicate ClaimantMoves(before: map<Path, BInfo>, a: Path, keep: Path, moves: seq<Move>) {
    forall m | m in moves :: m.src in before && m.src != keep && Claims(before[m.src], a)
  }

  /** No record other than `keep`'s claims `a`. */
  ghost predicate NoClaimant(before: map<Path, BInfo>, a: Path, keep: Path) {
    forall p | p in before && p != keep :: !Claims(before[p], a)
  }

  /** `keep`, when it has a record and a file, keeps both, its list entries
      and its text. */
  ghost predicate KeepKept(st0: State, fs0: Fs, keep: Path, st: State, fs: Fs) {
    keep in st0.bInfo.vals && keep in fs0 ==>
      keep in st.bInfo.vals && st.bInfo.vals[keep] == st0.bInfo.vals[keep] && keep in fs && EntryKept(st0, st, keep)
  }

  /** Every record that did not claim `a` is unchanged, and so are its list
      entries and its text. */
  ghost predicate UnclaimedKept(st0: State, a: Path, st: State) {
    forall p | p in st0.bInfo.vals && !Claims(st0.bInfo.vals[p], a) ::
      p in st.bInfo.vals && st.bInfo.vals[p] == st0.bInfo.vals[p] && EntryKept(st0, st, p)
  }

  /** The release sweep after visiting the first `j` keys of `st0`. */
  ghost predicate ReleasedSoFar(st0: State, fs0: Fs, locked: set<Path>, a: Path, keep: Path, j: nat,
                                st: State, fs: Fs, refused: set<Path>, moves: seq<Move>) {
    && ShapeKept(st0, fs0, st, fs)
    && ClaimsLeft(st0.bInfo.vals, st0.bInfo.order, j, a, keep, st.bInfo.vals, refused)
    && RefusedClaimants(st0.bInfo.vals, a, locked, refused)
    && Carries(st0, st, moves)
    && ClaimantMoves(st0.bInfo.vals, a, keep, moves)
    && (NoClaimant(st0.bInfo.vals, a, keep) ==> st == st0 && fs == fs0 && moves == [])
    && KeepKept(st0, fs0, keep, st, fs)
    && (Coherent(st0, fs0) ==> UnclaimedKept(st0, a, st))
  }

  lemma ReleaseStart(st: State, fs: Fs, locked: set<Path>, a: Path, keep: Path)
    ensures ReleasedSoFar(st, fs, locked, a, keep, 0, st, fs, {}, [])
  {
    assert st.bInfo.order[0..] == st.bInfo.order;
    assert Carries(st, st, []);
  }

  /** One step of the release sweep, seen from the claims on `a`. */
  lemma ClaimsStep(before: map<Path, BInfo>, snapshot: seq<Path>, j: nat, a: Path, keep: Path,
                   prev: map<Path, BInfo>, next: map<Path, BInfo>, refused: set<Path>, refused': set<Path>)
    requires j < |snapshot| && NoDuplicates(snapshot)
    requires ClaimsLeft(before, snapshot, j, a, keep, prev, refused)
    requires forall p | p in prev && p != snapshot[j] :: p in next
    requires forall p | p in next :: (p in prev && next[p] == prev[p]) || !next[p].matched
    requires snapshot[j] in before
    requires snapshot[j] != keep && Claims(before[snapshot[j]], a) ==>
               snapshot[j] in refused' || snapshot[j] !in next || !next[snapshot[j]].matched
    requires !(snapshot[j] != keep && Claims(before[snapshot[j]], a)) ==> next == prev
    requires refused <= refused'
    ensures ClaimsLeft(before, snapshot, j + 1, a, keep, next, refused')
  {
    assert snapshot[j..] == [snapshot[j]] + snapshot[j + 1..];
    forall i | j + 1 <= i < |snapshot|
      ensures snapshot[i] in next
    {
      assert snapshot[i] in prev && snapshot[i] != snapshot[j];
    }
  }

  lemma ShapeThen(s1: State, f1: Fs, s2: State, f2: Fs, s3: State, f3: Fs)
    requires ShapeKept(s1, f1, s2, f2) && ShapeKept(s2, f2, s3, f3)
    ensures ShapeKept(s1, f1, s3, f3)
  {
  }

  lemma KeepStep(st0: State, fs0: Fs, keep: Path, holder: Path, st: State, fs: Fs, st': State, fs': Fs)
    requires KeepKept(st0, fs0, keep, st, fs)
    requires holder == keep ==> st' == st && fs' == fs
    requires LeavesOthers(st, fs, holder, st', fs')
    ensures KeepKept(st0, fs0, keep, st', fs')
  {
    if keep in st0.bInfo.vals && keep in fs0 && holder != keep {
      assert keep in st.bInfo.vals && keep in fs;
      assert EntryKept(st, st', keep);
      EntryKeptThen(st0, st, st', keep);
    }
  }

  lemma UnclaimedStep(st0: State, a: Path, holder: Path, st: State, fs: Fs, st': State, fs': Fs)
    requires UnclaimedKept(st0, a, st) && Coherent(st, fs)
    requires holder in st0.bInfo.vals
    requires !Claims(st0.bInfo.vals[holder], a) ==> st' == st
    requires LeavesOthers(st, fs, holder, st', fs')
    ensures UnclaimedKept(st0, a, st')
  {
    forall p | p in st0.bInfo.vals && !Claims(st0.bInfo.vals[p], a)
      ensures p in st'.bInfo.vals && st'.bInfo.vals[p] == st0.bInfo.vals[p] && EntryKept(st0, st', p)
    {
      if p != holder {
        assert p in st.bInfo.vals && p in fs;
        EntryKeptThen(st0, st, st', p);
      }
    }
  }

  /** Visits the `j`-th key of `st0`. */
  method ReleaseNext(st0: State, fs0: Fs, locked: set<Path>, token: string, a: Path, keep: Path, j: nat,
                     st: State, fs: Fs, refused: set<Path>, moves: seq<Move>)
    returns (st': State, fs': Fs, refused': set<Path>, moves': seq<Move>)
    requires j < |st0.bInfo.order|
    requires ReleasedSoFar(st0, fs0, locked, a, keep, j, st, fs, refused, moves)
    ensures ReleasedSoFar(st0, fs0, locked, a, keep, j + 1, st', fs', refused', moves')
  {
    var holder := st0.bInfo.order[j];
    var info := st0.bInfo.vals[holder];
    var no, step;
    st', fs', no, step := ReleaseStep(st, fs, locked, token, a, keep, holder, info);
    moves' := moves + step;
    refused' := if no then refused + {holder} else refused;
    ShapeThen(st0, fs0, st, fs, st', fs');
    ClaimsStep(st0.bInfo.vals, st0.bInfo.order, j, a, keep, st.bInfo.vals, st'.bInfo.vals, refused, refused');
    CarriesThen(st0, st, st', moves, step);
    forall m | m in moves'
      ensures m.src in st0.bInfo.vals && m.src != keep && Claims(st0.bInfo.vals[m.src], a)
    {
      if m !in moves {
        assert m in step;
      }
    }
    if NoClaimant(st0.bInfo.vals, a, keep) {
      assert moves' == moves;
    }
    KeepStep(st0, fs0, keep, holder, st, fs, st', fs');
    if Coherent(st0, fs0) {
      UnclaimedStep(st0, a, holder, st, fs, st', fs');
    }
  }

  lemma ReleaseDone(st: State, fs: Fs, locked: set<Path>, a: Path, keep: Path,
                    st': State, fs': Fs, refused: set<Path>, moves: seq<Move>)
    requires ReleasedSoFar(st, fs, locked, a, keep, |st.bInfo.order|, st', fs', refused, moves)
    ensures forall p | p in st'.bInfo.vals && p != keep && Claims(st'.bInfo.vals[p], a) :: p in refused
    ensures forall p | p in refused :: p in st.bInfo.vals && Claims(st.bInfo.vals[p], a) && st.bInfo.vals[p].renamed && p in locked
    ensures keep in st.bInfo.vals && keep in fs ==>
              keep in st'.bInfo.vals && st'.bInfo.vals[keep] == st.bInfo.vals[keep] && keep in fs' && EntryKept(st, st', keep)
    ensures (forall p | p in st.bInfo.vals && p != keep :: !Claims(st.bInfo.vals[p], a)) ==> st' == st && fs' == fs && moves == []
    ensures Carries(st, st', moves)
    ensures forall m | m in moves :: m.src in st.bInfo.vals && m.src != keep && Claims(st.bInfo.vals[m.src], a)
    ensures Coherent(st, fs) ==>
              forall p | p in st.bInfo.vals && !Claims(st.bInfo.vals[p], a) ::
                p in st'.bInfo.vals && st'.bInfo.vals[p] == st.bInfo.vals[p] && EntryKept(st, st', p)
    ensures st'.aImages == st.aImages && st'.aTexts == st.aTexts && st'.aInfo == st.aInfo
    ensures |st'.bImages| == |st.bImages| && |fs'| == |fs|
    ensures Coherent(st, fs) ==> Coherent(st', fs')
  {
    assert st.bInfo.order[|st.bInfo.order|..] == [];
  }

  /** The sweep after a confirmed match of `keep` to reference `a`: every
      other record that claimed `a` when the sweep started is released.
      Afterwards no record other than `keep`'s claims `a`, except those of
      the claimants whose move was refused; a record that did not claim `a`
      is left as it was, and so are its list entries and its text. Every
      move is that of a released claimant. */
  method ReleaseOthers(st: State, fs: Fs, locked: set<Path>, token: string, a: Path, keep: Path)
    returns (st': State, fs': Fs, refused: set<Path>, moves: seq<Move>)
    ensures forall p | p in st'.bInfo.vals && p != keep && Claims(st'.bInfo.vals[p], a) :: p in refused
    ensures forall p | p in refused :: p in st.bInfo.vals && Claims(st.bInfo.vals[p], a) && st.bInfo.vals[p].renamed && p in locked
    ensures keep in st.bInfo.vals && keep in fs ==>
              keep in st'.bInfo.vals && st'.bInfo.vals[keep] == st.bInfo.vals[keep] && keep in fs' && EntryKept(st, st', keep)
    ensures (forall p | p in st.bInfo.vals && p != keep :: !Claims(st.bInfo.vals[p], a)) ==> st' == st && fs' == fs && moves == []
    ensures Carries(st, st', moves)
    ensures forall m | m in moves :: m.src in st.bInfo.vals && m.src != keep && Claims(st.bInfo.vals[m.src], a)
    ensures Coherent(st, fs) ==>
              forall p | p in st.bInfo.vals && !Claims(st.bInfo.vals[p], a) ::
                p in st'.bInfo.vals && st'.bInfo.vals[p] == st.bInfo.vals[p] && EntryKept(st, st', p)
    ensures st'.aImages == st.aImages && st'.aTexts == st.aTexts && st'.aInfo == st.aInfo
    ensures |st'.bImages| == |st.bImages| && |fs'| == |fs|
    ensures Coherent(st, fs) ==> Coherent(st', fs')
  {
    st', fs', refused, moves := st, fs, {}, [];
    ReleaseStart(st, fs, locked, a, keep);
    for j := 0 to |st.bInfo.order|
      invariant ReleasedSoFar(st, fs, locked, a, keep, j, st', fs', refused, moves)
    {
      st', fs', refused, moves := ReleaseNext(st, fs, locked, token, a, keep, j, st', fs', refused, moves);
    }
    ReleaseDone(st, fs, locked, a, keep, st', fs', refused, moves);
  }

  /** The first half of a confirmation: the eviction sweep for the new
      name, the rename of `b` (recording the match to `a`), and the `used`
      mark on `a`. No record but `b`'s and those of the holders the sweep
      evicts changes, and `b`'s only when it is renamed; the same goes for
      the list entries and the texts. `b`'s text goes with it. */
  method ClaimAndRename(st: State, fs: Fs, locked: set<Path>, token: string, a: Path, b: Path)
    returns (st': State, fs': Fs, outcome: Outcome, moves: seq<Move>)
    ensures outcome.Renamed? ==>
      var target := TargetName(a.name, b.name);
      && (exists k :: outcome.dest == Candidate(b.dir, target, Stem(target), Suffix(target), k))
      && outcome.dest in fs'
      && AInfoOf(st', a).used
      && (forall x :: x != a ==> AInfoOf(st', x) == AInfoOf(st, x))
    ensures outcome.Renamed? && Coherent(st, fs) && b in st.bInfo.vals ==>
      && outcome.dest in st'.bInfo.vals
      && st'.bInfo.vals[outcome.dest] == RenamedInfo(st.bInfo.vals[b], b, outcome.dest, Some(a))
    ensures outcome.Renamed? && Coherent(st, fs) && b in st.bInfo.vals ==> TextMoved(st.bTexts, b, st'.bTexts, outcome.dest)
    ensures Coherent(st, fs) ==>
              forall p | p in st.bInfo.vals && (p != b || !outcome.Renamed?)
                         && !Evicts(st.bInfo.vals[p], p, b, TargetName(a.name, b.name)) ::
                p in st'.bInfo.vals && st'.bInfo.vals[p] == st.bInfo.vals[p]
    ensures Coherent(st, fs) ==>
              forall p | p in st.bInfo.vals && (p != b || !outcome.Renamed?)
                         && !Evicts(st.bInfo.vals[p], p, b, TargetName(a.name, b.name)) ::
                EntryKept(st, st', p)
    ensures Carries(st, st', moves)
    ensures outcome.Renamed? ==> |moves| > 0 && moves[|moves| - 1] == Move(b, outcome.dest)
    ensures forall m | m in moves ::
              || (outcome.Renamed? && m.src == b)
              || (m.src in st.bInfo.vals && Evicts(st.bInfo.vals[m.src], m.src, b, TargetName(a.name, b.name)))
    ensures !outcome.Renamed? ==> st'.aInfo == st.aInfo
    ensures st'.aImages == st.aImages && st'.aTexts == st.aTexts
    ensures |st'.bImages| == |st.bImages| && |fs'| == |fs|
    ensures Coherent(st, fs) ==> Coherent(st', fs')
  {
    st', fs', outcome, moves := RenameOne(st, fs, locked, token, b, TargetName(a.name, b.name), Some(a));
    if outcome.Renamed? {
      st' := st'.(aInfo := st'.aInfo[a := AInfoOf(st', a).(used := true)]);
    }
  }

  /** What a confirmation of `a`, `b` leaves alone: a record that is not
      evicted from `b`'s new name stays as it was, with its list entries and
      its text, unless the rename happened (`renamed`) and it is `b`'s or
      claims `a`. */
  ghost predicate ConfirmFrame(st: State, st': State, a: Path, b: Path, renamed: bool) {
    forall p | p in st.bInfo.vals && !Evicts(st.bInfo.vals[p], p, b, TargetName(a.name, b.name))
               && (renamed ==> p != b && !Claims(st.bInfo.vals[p], a)) ::
      p in st'.bInfo.vals && st'.bInfo.vals[p] == st.bInfo.vals[p] && EntryKept(st, st', p)
  }

  /** A confirmed pair `a`, `b`: the claim and rename of `b`, then, when
      it was renamed, the release of every other claimant of `a`. A record
      that is not evicted from the new name is left as it was, with its list
      entries and its text, unless the rename happened and it is `b`'s or
      claims `a`. */
  method Confirm(st: State, fs: Fs, locked: set<Path>, token: string, a: Path, b: Path)
    returns (st': State, fs': Fs, outcome: Outcome, refused: set<Path>, moves: seq<Move>)
    ensures outcome.Renamed? ==>
      var target := TargetName(a.name, b.name);
      && (exists k :: outcome.dest == Candidate(b.dir, target, Stem(target), Suffix(target), k))
      && AInfoOf(st', a).used
      && (forall x :: x != a ==> AInfoOf(st', x) == AInfoOf(st, x))
      && (forall p | p in st'.bInfo.vals && p != outcome.dest && Claims(st'.bInfo.vals[p], a) :: p in refused)
    ensures outcome.Renamed? && Coherent(st, fs) && b in st.bInfo.vals ==>
      && outcome.dest in st'.bInfo.vals
      && st'.bInfo.vals[outcome.dest] == RenamedInfo(st.bInfo.vals[b], b, outcome.dest, Some(a))
      && TextMoved(st.bTexts, b, st'.bTexts, outcome.dest)
    ensures Coherent(st, fs) ==> ConfirmFrame(st, st', a, b, outcome.Renamed?)
    ensures Carries(st, st', moves)
    ensures !outcome.Renamed? ==> st'.aInfo == st.aInfo && refused == {}
    ensures st'.aImages == st.aImages && st'.aTexts == st.aTexts
    ensures |st'.bImages| == |st.bImages| && |fs'| == |fs|
    ensures Coherent(st, fs) ==> Coherent(st', fs')
  {
    refused := {};
    st', fs', outcome, moves := ClaimAndRename(st, fs, locked, token, a, b);
    if outcome.Renamed? {
      ghost var claimed, claimedFs, claimMoves := st', fs', moves;
      var released;
      st', fs', refused, released := ReleaseOthers(st', fs', locked, token, a, outcome.dest);
      moves := moves + released;
      CarriesThen(st, claimed, st', claimMoves, released);
      if Coherent(st, fs) {
        forall p | p in st.bInfo.vals && p != b && !Claims(st.bInfo.vals[p], a)
                   && !Evicts(st.bInfo.vals[p], p, b, TargetName(a.name, b.name))
          ensures p in st'.bInfo.vals && st'.bInfo.vals[p] == st.bInfo.vals[p] && EntryKept(st, st', p)
        {
          assert p in claimed.bInfo.vals && claimed.bInfo.vals[p] == st.bInfo.vals[p];
        }
        if b in st.bInfo.vals {
          assert outcome.dest in claimed.bInfo.vals && outcome.dest in claimedFs;
        }
      }
    }
  }

  /** `manual_match` on the selected reference `selA` and candidate `selB`
      (nothing happens unless both are selected). `refused` lists the other
      claimants whose release the operating system refused. After a rename
      both tables are refreshed with the current suggestion ranks `ranks`.
      A record that is not evicted from the new name is left as it was,
      with its list entries and its text, unless the rename happened and it
      is `selB`'s or claims `selA`. */
  method ManualMatch(st: State, fs: Fs, locked: set<Path>, token: string, ranks: map<Path, nat>,
                     selA: Option<Path>, selB: Option<Path>)
    returns (st': State, fs': Fs, outcome: Outcome, refused: set<Path>, moves: seq<Move>)
    ensures selA.None? || selB.None? ==> st' == st && fs' == fs && outcome == Skipped && moves == []
    ensures outcome.Renamed? ==> selA.Some? && selB.Some?
    ensures outcome.Renamed? ==>
      var a, b := selA.value, selB.value;
      var target := TargetName(a.name, b.name);
      && (exists k :: outcome.dest == Candidate(b.dir, target, Stem(target), Suffix(target), k))
      && AInfoOf(st', a).used
      && (forall x :: x != a ==> AInfoOf(st', x) == AInfoOf(st, x))
      && (forall p | p in st'.bInfo.vals && p != outcome.dest && Claims(st'.bInfo.vals[p], a) :: p in refused)
    ensures outcome.Renamed? && Coherent(st, fs) && selB.value in st.bInfo.vals ==>
      var a, b := selA.value, selB.value;
      && outcome.dest in st'.bInfo.vals
      && st'.bInfo.vals[outcome.dest] == RenamedInfo(st.bInfo.vals[b], b, outcome.dest, Some(a))
      && TextMoved(st.bTexts, b, st'.bTexts, outcome.dest)
    ensures !outcome.Renamed? ==> st'.aInfo == st.aInfo && refused == {}
    ensures !outcome.Renamed? ==> st'.aImages == st.aImages
    ensures Coherent(st, fs) && selA.Some? && selB.Some? ==>
              ConfirmFrame(st, st', selA.value, selB.value, outcome.Renamed?)
    ensures multiset(st'.bImages) == multiset(MovePaths(st.bImages, moves)) && st'.bTexts == MoveTexts(st.bTexts, moves)
    ensures Coherent(st, fs) ==> Coherent(st', fs')
    ensures outcome.Renamed? ==> ArrangedA(st') && ArrangedB(st', ranks)
    ensures multiset(st'.aImages) == multiset(st.aImages) && st'.aTexts == st.aTexts
    ensures |st'.bImages| == |st.bImages| && |fs'| == |fs|
  {
    st', fs', outcome, refused, moves := st, fs, Skipped, {}, [];
    if selA.None? || selB.None? {
      return;
    }
    st', fs', outcome, refused, moves := Confirm(st, fs, locked, token, selA.value, selB.value);
    if outcome.Renamed? {
      ghost var confirmed := st';
      st' := Refresh(st', ranks);
      RefreshKeepsRecords(confirmed, st', ranks);
      if Coherent(st, fs) {
        RefreshKeepsFrame(st, confirmed, st', ranks, selA.value, selB.value);
      }
    }
  }

  lemma RefreshKeepsFrame(st: State, confirmed: State, st': State, ranks: map<Path, nat>, a: Path, b: Path)
    requires ConfirmFrame(st, confirmed, a, b, true)
    requires st' == Refresh(confirmed, ranks)
    ensures ConfirmFrame(st, st', a, b, true)
  {
    forall p | p in st.bInfo.vals && !Evicts(st.bInfo.vals[p], p, b, TargetName(a.name, b.name))
               && p != b && !Claims(st.bInfo.vals[p], a)
      ensures EntryKept(st, st', p)
    {
      assert EntryKept(st, confirmed, p);
    }
  }

  /** A refresh changes the order of the lists and nothing that the
      records say. */
  lemma RefreshKeepsRecords(st: State, st': State, ranks: map<Path, nat>)
    requires st' == Refresh(st, ranks)
    ensures forall x :: AInfoOf(st', x) == AInfoOf(st, x)
    ensures st'.bInfo == st.bInfo
  {
  }
}

=== FILE: matcher.dfy ===
/** The automatic matcher (`auto_match_and_rename`, first half): one greedy
    pass over group B in display order. For each unmatched B with text it
    picks, among the A images not claimed earlier in the same pass, the first
    one whose similarity is highest and at least the threshold, records the
    match on the B record and marks the A record as used. It never touches
    the filesystem; the renames follow in `RenameEngine`. */
module Matcher {
  import opened Options
  import opened Paths
  import opened OrderedDicts
  import opened Records

  /** The threshold slider's range (50..100 percent). */
  type Threshold = t: int | 50 <= t <= 100 witness 80

  /** The matcher's inputs besides the state: the threshold, the "match only
      equal sizes" check box (unchecked = `ignoreSize`), and the similarity
      measure, an arbitrary function into 0..100. */
  datatype Settings = Settings(threshold: Threshold, ignoreSize: bool, sim: (string, string) -> Percent)

  /** The optional size check: it only applies when the box is checked and
      all four dimensions are known (non-zero). */
  predicate SizeCompatible(ignoreSize: bool, a: AInfo, b: BInfo) {
    || ignoreSize
    || a.width == 0 || a.height == 0 || b.width == 0 || b.height == 0
    || (a.width == b.width && a.height == b.height)
  }

  /** Reference `a` may be considered for candidate `b`: not claimed in this
      pass, with recognised text, and of a compatible size. */
  predicate Eligible(cfg: Settings, st: State, claimed: set<Path>, a: Path, b: Path) {
    && a !in claimed
    && !IsBlank(TextOf(st.aTexts, a))
    && SizeCompatible(cfg.ignoreSize, AInfoOf(st, a), BInfoOf(st, b))
  }

  function Score(cfg: Settings, st: State, a: Path, b: Path): Percent {
    cfg.sim(TextOf(st.aTexts, a), TextOf(st.bTexts, b))
  }

  /** The reference chosen for a candidate: its position in group A. */
  datatype Pick = Pick(index: nat, a: Path, similarity: Percent)

  function BestSoFar(p: Option<Pick>): int {
    if p.Some? then p.value.similarity else 0
  }

  /** The inner scan over the first `n` A images: a later reference replaces
      the current best only with a strictly higher similarity. */
  function BestAmong(cfg: Settings, st: State, claimed: set<Path>, b: Path, n: nat): Option<Pick>
    requires n <= |st.aImages|
  {
    if n == 0 then None
    else
      var prev := BestAmong(cfg, st, claimed, b, n - 1);
      var a := st.aImages[n - 1];
      var s := Score(cfg, st, a, b);
      if Eligible(cfg, st, claimed, a, b) && s >= cfg.threshold && s > BestSoFar(prev)
      then Some(Pick(n - 1, a, s))
      else prev
  }

  /** What the pass decides for one B image. */
  datatype Verdict = AlreadyMatched | BlankText | NoReference | Accepted(b: Path, pick: Pick)

  /** The B record after an accepted match: matched, not yet renamed, its
      target name the reference's stem plus its own extension. */
  function MatchedInfo(info: BInfo, b: Path, p: Pick): BInfo {
    info.(matched := true, similarity := p.similarity, matchedA := Some(p.a),
          newName := Some(TargetName(p.a.name, b.name)), renamed := false)
  }

  function Accept(st: State, b: Path, p: Pick): State {
    st.(bInfo := Put(st.bInfo, b, MatchedInfo(BInfoOf(st, b), b, p)),
        aInfo := st.aInfo[p.a := AInfoOf(st, p.a).(used := true)])
  }

  function Judge(cfg: Settings, st: State, claimed: set<Path>, b: Path): Verdict {
    if BInfoOf(st, b).matched then AlreadyMatched
    else if IsBlank(TextOf(st.bTexts, b)) then BlankText
    else match BestAmong(cfg, st, claimed, b, |st.aImages|)
      case None => NoReference
      case Some(p) => Accepted(b, p)
  }

  function Apply(st: State, v: Verdict): State {
    if v.Accepted? then Accept(st, v.b, v.pick) else st
  }

  /** The pass so far: the state, one verdict per B image visited, and the
      references claimed (the local `used_a_matches`). */
  datatype PassState = PassState(st: State, verdicts: seq<Verdict>, claimed: set<Path>)

  function Step(cfg: Settings, ps: PassState, b: Path): PassState {
    var v := Judge(cfg, ps.st, ps.claimed, b);
    PassState(Apply(ps.st, v), ps.verdicts + [v],
              if v.Accepted? then ps.claimed + {v.pick.a} else ps.claimed)
  }

  lemma AcceptKeepsLists(st: State, b: Path, p: Pick)
    ensures Accept(st, b, p).aImages == st.aImages && Accept(st, b, p).bImages == st.bImages
  {
  }

  /** The pass over the first `n` B images, starting from the claimed set
      `claimed0` (empty in the application). */
  function PassUpTo(cfg: Settings, st0: State, claimed0: set<Path>, n: nat): (ps: PassState)
    requires n <= |st0.bImages|
    ensures ps.st.aImages == st0.aImages && ps.st.bImages == st0.bImages
    ensures |ps.verdicts| == n
  {
    if n == 0 then PassState(st0, [], claimed0)
    else Step(cfg, PassUpTo(cfg, st0, claimed0, n - 1), st0.bImages[n - 1])
  }

  /** `auto_match_and_rename` as written: every call starts with an empty
      claimed set. */
  function AutoMatch(cfg: Settings, st: State): PassState {
    PassUpTo(cfg, st, {}, |st.bImages|)
  }

  /** The references whose records say `used`. */
  function UsedRefs(st: State): set<Path> {
    set p | p in st.aInfo && st.aInfo[p].used
  }

  /** The pass with the claimed set seeded from the `used` flags, so that a
      reference claimed by an earlier pass stays claimed. */
  function CorrectedAutoMatch(cfg: Settings, st: State): PassState {
    PassUpTo(cfg, st, UsedRefs(st), |st.bImages|)
  }

  /** The accepted verdicts, in pass order. */
  function Decisions(vs: seq<Verdict>): seq<Verdict> {
    if |vs| == 0 then []
    else Decisions(vs[..|vs| - 1]) + (if vs[|vs| - 1].Accepted? then [vs[|vs| - 1]] else [])
  }

  /** Accepted matches logged as confident (at least five points above the
      threshold). */
  function Successes(vs: seq<Verdict>, t: int): nat {
    if |vs| == 0 then 0
    else
      var v := vs[|vs| - 1];
      Successes(vs[..|vs| - 1], t) + (if v.Accepted? && v.pick.similarity >= t + 5 then 1 else 0)
  }

  /** Accepted matches logged as "needs checking". */
  function Warnings(vs: seq<Verdict>, t: int): nat {
    if |vs| == 0 then 0
    else
      var v := vs[|vs| - 1];
      Warnings(vs[..|vs| - 1], t) + (if v.Accepted? && v.pick.similarity < t + 5 then 1 else 0)
  }

  lemma {:induction false} CountsAddUp(vs: seq<Verdict>, t: int)
    ensures Successes(vs, t) + Warnings(vs, t) == |Decisions(vs)|
  {
    if |vs| > 0 {
      CountsAddUp(vs[..|vs| - 1], t);
    }
  }

  /** The inner loop over group A. */
  method ScanReferences(cfg: Settings, st: State, claimed: set<Path>, b: Path) returns (best: Option<Pick>)
    ensures best == BestAmong(cfg, st, claimed, b, |st.aImages|)
  {
    best := None;
    var bestSimilarity := 0;
    var bInfo := BInfoOf(st, b);
    var i := 0;
    while i < |st.aImages|
      invariant i <= |st.aImages|
      invariant best == BestAmong(cfg, st, claimed, b, i)
      invariant bestSimilarity == BestSoFar(best)
    {
      var a := st.aImages[i];
      if a !in claimed && !IsBlank(TextOf(st.aTexts, a)) && SizeCompatible(cfg.ignoreSize, AInfoOf(st, a), bInfo) {
        var similarity := cfg.sim(TextOf(st.aTexts, a), TextOf(st.bTexts, b));
        if similarity >= cfg.threshold && similarity > bestSimilarity {
          best := Some(Pick(i, a, similarity));
          bestSimilarity := similarity;
        }
      }
      i := i + 1;
    }
  }

  /** The outer loop over group B with its success/warning tally, starting
      from the claimed set `claimed0`: `{}` is the application's
      `auto_match_and_rename`, `UsedRefs(st)` the corrected pass. */
  /** The verdict the loop body reaches for one candidate. */
  method JudgeOne(cfg: Settings, st: State, claimed: set<Path>, b: Path) returns (v: Verdict)
    ensures v == Judge(cfg, st, claimed, b)
  {
    if BInfoOf(st, b).matched {
      v := AlreadyMatched;
    } else if IsBlank(TextOf(st.bTexts, b)) {
      v := BlankText;
    } else {
      var best := ScanReferences(cfg, st, claimed, b);
      v := if best.None? then NoReference else Accepted(b, best.value);
    }
  }

  /** One more candidate is one more step, whose verdict is `v`. */
  lemma PassUpToStep(cfg: Settings, st0: State, claimed0: set<Path>, n: nat, v: Verdict)
    requires 0 < n <= |st0.bImages|
    requires var prev := PassUpTo(cfg, st0, claimed0, n - 1);
             v == Judge(cfg, prev.st, prev.claimed, st0.bImages[n - 1])
    ensures var prev := PassUpTo(cfg, st0, claimed0, n - 1);
            PassUpTo(cfg, st0, claimed0, n)
              == PassState(Apply(prev.st, v), prev.verdicts + [v],
                           if v.Accepted? then prev.claimed + {v.pick.a} else prev.claimed)
  {
  }

  lemma CountsSnoc(vs: seq<Verdict>, v: Verdict, t: int)
    ensures Successes(vs + [v], t) == Successes(vs, t) + (if v.Accepted? && v.pick.similarity >= t + 5 then 1 else 0)
    ensures Warnings(vs + [v], t) == Warnings(vs, t) + (if v.Accepted? && v.pick.similarity < t + 5 then 1 else 0)
  {
    assert (vs + [v])[..|vs|] == vs;
  }

  method RunPass(cfg: Settings, st: State, claimed0: set<Path>)
    returns (result: State, verdicts: seq<Verdict>, success: nat, warning: nat)
    ensures result == PassUpTo(cfg, st, claimed0, |st.bImages|).st
    ensures verdicts == PassUpTo(cfg, st, claimed0, |st.bImages|).verdicts
    ensures success == Successes(verdicts, cfg.threshold) && warning == Warnings(verdicts, cfg.threshold)
    ensures success + warning == |Decisions(verdicts)|
  {
    result := st;
    verdicts := [];
    var usedThisPass: set<Path> := claimed0;
    success, warning := 0, 0;
    for j := 0 to |st.bImages|
      invariant PassUpTo(cfg, st, claimed0, j) == PassState(result, verdicts, usedThisPass)
      invariant success == Successes(verdicts, cfg.threshold) && warning == Warnings(verdicts, cfg.threshold)
    {
      var b := st.bImages[j];
      var v := JudgeOne(cfg, result, usedThisPass, b);
      var next := verdicts + [v];
      var nextClaimed := if v.Accepted? then usedThisPass + {v.pick.a} else usedThisPass;
      CountsSnoc(verdicts, v, cfg.threshold);
      PassUpToStep(cfg, st, claimed0, j + 1, v);
      if v.Accepted? {
        if v.pick.similarity >= cfg.threshold + 5 {
          success := success + 1;
        } else {
          warning := warning + 1;
        }
      }
      result, verdicts, usedThisPass := Apply(result, v), next, nextClaimed;
    }
    CountsAddUp(verdicts, cfg.threshold);
  }
}

=== FILE: matcher_facts.dfy ===
/** What the greedy pass guarantees, proved about `Matcher.PassUpTo`:
    eligibility and tie-break of every accepted match, exclusivity within a
    pass, the exact effect on the records, and what happens when the pass
    runs again. */
module MatcherFacts {
  import opened Options
  import opened Paths
  import opened OrderedDicts
  import opened Records
  import opened Matcher

  // ---------------------------------------------------------------------
  // The inner scan
  // ---------------------------------------------------------------------

  /** The scan returns the first reference of highest similarity among the
      eligible ones, provided it reaches the threshold; it returns nothing
      exactly when no eligible reference reaches the threshold. */
  lemma {:induction false} BestAmongSpec(cfg: Settings, st: State, claimed: set<Path>, b: Path, n: nat)
    requires n <= |st.aImages|
    ensures BestAmong(cfg, st, claimed, b, n).None? <==>
      forall j :: 0 <= j < n && Eligible(cfg, st, claimed, st.aImages[j], b) ==> Score(cfg, st, st.aImages[j], b) < cfg.threshold
    ensures BestAmong(cfg, st, claimed, b, n).Some? ==>
      var p := BestAmong(cfg, st, claimed, b, n).value;
      && p.index < n && st.aImages[p.index] == p.a
      && Eligible(cfg, st, claimed, p.a, b)
      && p.similarity == Score(cfg, st, p.a, b) >= cfg.threshold
      && (forall j :: 0 <= j < n && Eligible(cfg, st, claimed, st.aImages[j], b) ==> Score(cfg, st, st.aImages[j], b) <= p.similarity)
      && (forall j :: 0 <= j < p.index && Eligible(cfg, st, claimed, st.aImages[j], b) ==> Score(cfg, st, st.aImages[j], b) < p.similarity)
  {
    if n > 0 {
      BestAmongSpec(cfg, st, claimed, b, n - 1);
    }
  }

  /** Claiming more references never lets a candidate find a reference. */
  lemma BestAmongNoneMonotone(cfg: Settings, st: State, c1: set<Path>, c2: set<Path>, b: Path)
    requires c1 <= c2
    requires BestAmong(cfg, st, c1, b, |st.aImages|).None?
    ensures BestAmong(cfg, st, c2, b, |st.aImages|).None?
  {
    BestAmongSpec(cfg, st, c1, b, |st.aImages|);
    BestAmongSpec(cfg, st, c2, b, |st.aImages|);
  }

  // ---------------------------------------------------------------------
  // What the pass reads is what it never writes
  // ---------------------------------------------------------------------

  ghost predicate SameInputs(st0: State, st: State) {
    && st.aImages == st0.aImages && st.aTexts == st0.aTexts
    && st.bImages == st0.bImages && st.bTexts == st0.bTexts
    && (forall p :: AInfoOf(st, p).width == AInfoOf(st0, p).width && AInfoOf(st, p).height == AInfoOf(st0, p).height)
    && (forall p :: BInfoOf(st, p).width == BInfoOf(st0, p).width && BInfoOf(st, p).height == BInfoOf(st0, p).height)
  }

  lemma {:induction false} BestAmongFrame(cfg: Settings, st0: State, st: State, claimed: set<Path>, b: Path, n: nat)
    requires SameInputs(st0, st)
    requires n <= |st0.aImages|
    ensures BestAmong(cfg, st, claimed, b, n) == BestAmong(cfg, st0, claimed, b, n)
  {
    if n > 0 {
      BestAmongFrame(cfg, st0, st, claimed, b, n - 1);
      var a := st0.aImages[n - 1];
      assert Eligible(cfg, st, claimed, a, b) == Eligible(cfg, st0, claimed, a, b);
    }
  }

  // ---------------------------------------------------------------------
  // Bookkeeping over the verdict sequence
  // ---------------------------------------------------------------------

  /** The references accepted by a sequence of verdicts. */
  function AcceptedRefs(vs: seq<Verdict>): set<Path> {
    set i | 0 <= i < |vs| && vs[i].Accepted? :: vs[i].pick.a
  }

  /** The reference accepted for candidate `b`, if any (the last one). */
  function PickFor(vs: seq<Verdict>, b: Path): Option<Pick> {
    if |vs| == 0 then None
    else if vs[|vs| - 1].Accepted? && vs[|vs| - 1].b == b then Some(vs[|vs| - 1].pick)
    else PickFor(vs[..|vs| - 1], b)
  }

  /** The record of `b` after the verdicts `vs`. */
  function BAfter(st0: State, vs: seq<Verdict>, b: Path): BInfo {
    match PickFor(vs, b)
    case None => BInfoOf(st0, b)
    case Some(p) => MatchedInfo(BInfoOf(st0, b), b, p)
  }

  /** The record of `a` after the verdicts `vs`. */
  function AAfter(st0: State, vs: seq<Verdict>, a: Path): AInfo {
    if a in AcceptedRefs(vs) then AInfoOf(st0, a).(used := true) else AInfoOf(st0, a)
  }

  lemma {:induction false} PickForPrefix(vs: seq<Verdict>, j: nat, b: Path)
    requires j <= |vs|
    requires PickFor(vs[..j], b).Some?
    ensures PickFor(vs, b).Some?
    decreases |vs|
  {
    if j < |vs| {
      assert vs[..|vs| - 1][..j] == vs[..j];
      if !(vs[|vs| - 1].Accepted? && vs[|vs| - 1].b == b) {
        PickForPrefix(vs[..|vs| - 1], j, b);
      }
    } else {
      assert vs[..j] == vs;
    }
  }

  lemma AcceptedRefsPrefix(vs: seq<Verdict>, j: nat)
    requires j <= |vs|
    ensures AcceptedRefs(vs[..j]) <= AcceptedRefs(vs)
  {
    forall a | a in AcceptedRefs(vs[..j])
      ensures a in AcceptedRefs(vs)
    {
      var i :| 0 <= i < j && vs[..j][i].Accepted? && vs[..j][i].pick.a == a;
      assert vs[i] == vs[..j][i];
    }
  }

  /** The pass so far, summarised: what it read is untouched, the claimed
      set is the seed plus the accepted references, and every record is
      exactly its initial record with the accepted matches applied. */
  ghost predicate PassSummary(st0: State, claimed0: set<Path>, ps: PassState) {
    && SameInputs(st0, ps.st)
    && ps.claimed == claimed0 + AcceptedRefs(ps.verdicts)
    && (forall p :: BInfoOf(ps.st, p) == BAfter(st0, ps.verdicts, p))
    && (forall p :: p in ps.st.bInfo.vals <==> p in st0.bInfo.vals || PickFor(ps.verdicts, p).Some?)
    && (forall a :: AInfoOf(ps.st, a) == AAfter(st0, ps.verdicts, a))
    && (forall a :: a in ps.st.aInfo <==> a in st0.aInfo || a in AcceptedRefs(ps.verdicts))
  }

  lemma StepAccepted(vs: seq<Verdict>, v: Verdict)
    ensures AcceptedRefs(vs + [v]) == AcceptedRefs(vs) + (if v.Accepted? then {v.pick.a} else {})
  {
    var ws := vs + [v];
    forall a
      ensures a in AcceptedRefs(ws) <==> a in AcceptedRefs(vs) + (if v.Accepted? then {v.pick.a} else {})
    {
      if a in AcceptedRefs(ws) {
        var i :| 0 <= i < |ws| && ws[i].Accepted? && ws[i].pick.a == a;
        if i < |vs| {
          assert vs[i] == ws[i];
        }
      }
      if a in AcceptedRefs(vs) {
        var i :| 0 <= i < |vs| && vs[i].Accepted? && vs[i].pick.a == a;
        assert ws[i] == vs[i];
      }
      if v.Accepted? && a == v.pick.a {
        assert ws[|vs|] == v;
      }
    }
  }

  lemma StepPickFor(vs: seq<Verdict>, v: Verdict, p: Path)
    ensures PickFor(vs + [v], p) == if v.Accepted? && v.b == p then Some(v.pick) else PickFor(vs, p)
  {
    assert (vs + [v])[..|vs|] == vs;
  }

  lemma StepInputs(cfg: Settings, st0: State, ps: PassState, b: Path)
    requires SameInputs(st0, ps.st)
    ensures SameInputs(st0, Step(cfg, ps, b).st)
  {
    var v := Judge(cfg, ps.st, ps.claimed, b);
    if v.Accepted? {
      var st := Step(cfg, ps, b).st;
      forall p
        ensures BInfoOf(st, p).width == BInfoOf(st0, p).width && BInfoOf(st, p).height == BInfoOf(st0, p).height
      {
        assert BInfoOf(st, p).width == BInfoOf(ps.st, p).width;
      }
    }
  }

  lemma StepRecords(cfg: Settings, st0: State, claimed0: set<Path>, ps: PassState, b: Path)
    requires PassSummary(st0, claimed0, ps)
    ensures var next := Step(cfg, ps, b);
            && (forall p :: BInfoOf(next.st, p) == BAfter(st0, next.verdicts, p))
            && (forall p :: p in next.st.bInfo.vals <==> p in st0.bInfo.vals || PickFor(next.verdicts, p).Some?)
  {
    var v := Judge(cfg, ps.st, ps.claimed, b);
    var next := Step(cfg, ps, b);
    forall p
      ensures BInfoOf(next.st, p) == BAfter(st0, next.verdicts, p)
      ensures p in next.st.bInfo.vals <==> p in st0.bInfo.vals || PickFor(next.verdicts, p).Some?
    {
      StepPickFor(ps.verdicts, v, p);
      if v.Accepted? && p == b {
        assert PickFor(ps.verdicts, b).None? by {
          assert !BAfter(st0, ps.verdicts, b).matched;
        }
      }
    }
  }

  lemma StepRefs(cfg: Settings, st0: State, claimed0: set<Path>, ps: PassState, b: Path)
    requires PassSummary(st0, claimed0, ps)
    ensures var next := Step(cfg, ps, b);
            && next.claimed == claimed0 + AcceptedRefs(next.verdicts)
            && (forall a :: AInfoOf(next.st, a) == AAfter(st0, next.verdicts, a))
            && (forall a :: a in next.st.aInfo <==> a in st0.aInfo || a in AcceptedRefs(next.verdicts))
  {
    var v := Judge(cfg, ps.st, ps.claimed, b);
    StepAccepted(ps.verdicts, v);
  }

  lemma StepSummary(cfg: Settings, st0: State, claimed0: set<Path>, ps: PassState, b: Path)
    requires PassSummary(st0, claimed0, ps)
    ensures PassSummary(st0, claimed0, Step(cfg, ps, b))
  {
    StepInputs(cfg, st0, ps, b);
    StepRecords(cfg, st0, claimed0, ps, b);
    StepRefs(cfg, st0, claimed0, ps, b);
  }

  lemma {:induction false} PassSummaryHolds(cfg: Settings, st0: State, claimed0: set<Path>, n: nat)
    requires n <= |st0.bImages|
    ensures PassSummary(st0, claimed0, PassUpTo(cfg, st0, claimed0, n))
  {
    if n == 0 {
      assert PassUpTo(cfg, st0, claimed0, 0).verdicts == [];
      assert AcceptedRefs([]) == {};
    } else {
      PassSummaryHolds(cfg, st0, claimed0, n - 1);
      StepSummary(cfg, st0, claimed0, PassUpTo(cfg, st0, claimed0, n - 1), st0.bImages[n - 1]);
    }
  }

  /** The verdict on the j-th candidate is the one `Judge` gives on the state
      and claimed set left by the first j candidates. */
  lemma PassPrefix(cfg: Settings, st0: State, claimed0: set<Path>, n: nat, j: nat)
    requires j < n <= |st0.bImages|
    ensures PassUpTo(cfg, st0, claimed0, n).verdicts[..j] == PassUpTo(cfg, st0, claimed0, j).verdicts
    ensures PassUpTo(cfg, st0, claimed0, n).verdicts[j]
         == Judge(cfg, PassUpTo(cfg, st0, claimed0, j).st, PassUpTo(cfg, st0, claimed0, j).claimed, st0.bImages[j])
  {
    VerdictsPrefix(cfg, st0, claimed0, n, j);
    VerdictsPrefix(cfg, st0, claimed0, n, j + 1);
    PassUpToSnoc(cfg, st0, claimed0, j + 1);
    var prev := PassUpTo(cfg, st0, claimed0, j);
    IndexOfPrefix(PassUpTo(cfg, st0, claimed0, n).verdicts, prev.verdicts,
                  Judge(cfg, prev.st, prev.claimed, st0.bImages[j]));
  }

  /** One more candidate appends its verdict. */
  lemma PassUpToSnoc(cfg: Settings, st0: State, claimed0: set<Path>, n: nat)
    requires 0 < n <= |st0.bImages|
    ensures var prev := PassUpTo(cfg, st0, claimed0, n - 1);
            PassUpTo(cfg, st0, claimed0, n).verdicts
              == prev.verdicts + [Judge(cfg, prev.st, prev.claimed, st0.bImages[n - 1])]
  {
  }

  /** The pass over the first n candidates starts with the pass over the
      first j. */
  lemma {:induction false} VerdictsPrefix(cfg: Settings, st0: State, claimed0: set<Path>, n: nat, j: nat)
    requires j <= n <= |st0.bImages|
    ensures PassUpTo(cfg, st0, claimed0, n).verdicts[..j] == PassUpTo(cfg, st0, claimed0, j).verdicts
    decreases n
  {
    if j < n {
      PassUpToSnoc(cfg, st0, claimed0, n);
      VerdictsPrefix(cfg, st0, claimed0, n - 1, j);
      var prev := PassUpTo(cfg, st0, claimed0, n - 1);
      SnocPrefixChain(PassUpTo(cfg, st0, claimed0, n).verdicts, prev.verdicts,
                      Judge(cfg, prev.st, prev.claimed, st0.bImages[n - 1]),
                      PassUpTo(cfg, st0, claimed0, j).verdicts, j);
    } else {
      assert PassUpTo(cfg, st0, claimed0, n).verdicts[..n] == PassUpTo(cfg, st0, claimed0, n).verdicts;
    }
  }

  lemma SnocPrefixChain<T>(a: seq<T>, b: seq<T>, x: T, c: seq<T>, j: nat)
    requires a == b + [x] && j <= |b| && b[..j] == c
    ensures a[..j] == c
  {
    assert a[..j] == b[..j];
  }

  lemma IndexOfPrefix<T>(a: seq<T>, p: seq<T>, x: T)
    requires |p| < |a| && a[..|p| + 1] == p + [x]
    ensures a[|p|] == x
  {
    assert a[|p|] == a[..|p| + 1][|p|];
  }

  /** The verdict on the j-th candidate, stated against the initial state:
      the candidate was unmatched and not matched earlier in the pass, has
      text, and the scan over the references not claimed before it chose
      the accepted reference (or found none). */
  lemma VerdictFacts(cfg: Settings, st0: State, claimed0: set<Path>, n: nat, j: nat)
    requires j < n <= |st0.bImages|
    ensures var vs := PassUpTo(cfg, st0, claimed0, n).verdicts;
            var b := st0.bImages[j];
            var before := claimed0 + AcceptedRefs(vs[..j]);
            && (vs[j].Accepted? || vs[j] == NoReference ==>
                  && !BInfoOf(st0, b).matched && PickFor(vs[..j], b).None?
                  && !IsBlank(TextOf(st0.bTexts, b)))
            && (vs[j].Accepted? ==> vs[j].b == b && BestAmong(cfg, st0, before, b, |st0.aImages|) == Some(vs[j].pick))
            && (vs[j] == NoReference ==> BestAmong(cfg, st0, before, b, |st0.aImages|).None?)
            && (PickFor(vs[..j], b).None? && !BInfoOf(st0, b).matched && !IsBlank(TextOf(st0.bTexts, b)) ==>
                  vs[j].Accepted? || vs[j] == NoReference)
  {
    PassPrefix(cfg, st0, claimed0, n, j);
    PassSummaryHolds(cfg, st0, claimed0, j);
    var ps := PassUpTo(cfg, st0, claimed0, j);
    BestAmongFrame(cfg, st0, ps.st, ps.claimed, st0.bImages[j], |st0.aImages|);
  }

  // ---------------------------------------------------------------------
  // The promises of one pass
  // ---------------------------------------------------------------------

  /** Every accepted match pairs a candidate that was unmatched and had text
      with a listed reference that has text, is not in the seed set, passes
      the size check and reaches the threshold. */
  lemma AcceptedMatchIsEligible(cfg: Settings, st0: State, claimed0: set<Path>, j: nat)
    requires j < |st0.bImages|
    requires PassUpTo(cfg, st0, claimed0, |st0.bImages|).verdicts[j].Accepted?
    ensures var v := PassUpTo(cfg, st0, claimed0, |st0.bImages|).verdicts[j];
            && v.b == st0.bImages[j]
            && !BInfoOf(st0, v.b).matched
            && !IsBlank(TextOf(st0.bTexts, v.b))
            && v.pick.index < |st0.aImages| && st0.aImages[v.pick.index] == v.pick.a
            && !IsBlank(TextOf(st0.aTexts, v.pick.a))
            && v.pick.a !in claimed0
            && SizeCompatible(cfg.ignoreSize, AInfoOf(st0, v.pick.a), BInfoOf(st0, v.b))
            && v.pick.similarity == Score(cfg, st0, v.pick.a, v.b) >= cfg.threshold
  {
    var n := |st0.bImages|;
    VerdictFacts(cfg, st0, claimed0, n, j);
    var vs := PassUpTo(cfg, st0, claimed0, n).verdicts;
    BestAmongSpec(cfg, st0, claimed0 + AcceptedRefs(vs[..j]), st0.bImages[j], |st0.aImages|);
  }

  /** The accepted reference is, among the references eligible at that point
      of the pass, one of highest similarity, and no earlier reference in
      group A is as similar (the comparison is a strict `>`). */
  lemma AcceptedMatchIsFirstBest(cfg: Settings, st0: State, claimed0: set<Path>, j: nat, k: nat)
    requires j < |st0.bImages| && k < |st0.aImages|
    requires PassUpTo(cfg, st0, claimed0, |st0.bImages|).verdicts[j].Accepted?
    ensures var vs := PassUpTo(cfg, st0, claimed0, |st0.bImages|).verdicts;
            var v := vs[j];
            var before := claimed0 + AcceptedRefs(vs[..j]);
            Eligible(cfg, st0, before, st0.aImages[k], v.b) ==>
              && Score(cfg, st0, st0.aImages[k], v.b) <= v.pick.similarity
              && (k < v.pick.index ==> Score(cfg, st0, st0.aImages[k], v.b) < v.pick.similarity)
  {
    var n := |st0.bImages|;
    VerdictFacts(cfg, st0, claimed0, n, j);
    var vs := PassUpTo(cfg, st0, claimed0, n).verdicts;
    BestAmongSpec(cfg, st0, claimed0 + AcceptedRefs(vs[..j]), st0.bImages[j], |st0.aImages|);
  }

  /** A candidate left without a match although it was unmatched and had
      text: no reference still available to it reached the threshold. */
  lemma NoReferenceMeansNoneQualified(cfg: Settings, st0: State, claimed0: set<Path>, j: nat, k: nat)
    requires j < |st0.bImages| && k < |st0.aImages|
    requires PassUpTo(cfg, st0, claimed0, |st0.bImages|).verdicts[j] == NoReference
    ensures var vs := PassUpTo(cfg, st0, claimed0, |st0.bImages|).verdicts;
            var before := claimed0 + AcceptedRefs(vs[..j]);
            Eligible(cfg, st0, before, st0.aImages[k], st0.bImages[j]) ==>
              Score(cfg, st0, st0.aImages[k], st0.bImages[j]) < cfg.threshold
  {
    var n := |st0.bImages|;
    VerdictFacts(cfg, st0, claimed0, n, j);
    var vs := PassUpTo(cfg, st0, claimed0, n).verdicts;
    BestAmongSpec(cfg, st0, claimed0 + AcceptedRefs(vs[..j]), st0.bImages[j], |st0.aImages|);
  }

  /** Within one pass no reference is accepted twice and no candidate is
      matched twice. */
  lemma PassIsExclusive(cfg: Settings, st0: State, claimed0: set<Path>, i: nat, j: nat)
    requires i < j < |st0.bImages|
    requires PassUpTo(cfg, st0, claimed0, |st0.bImages|).verdicts[i].Accepted?
    requires PassUpTo(cfg, st0, claimed0, |st0.bImages|).verdicts[j].Accepted?
    ensures var vs := PassUpTo(cfg, st0, claimed0, |st0.bImages|).verdicts;
            vs[i].pick.a != vs[j].pick.a && vs[i].b != vs[j].b
  {
    var n := |st0.bImages|;
    var vs := PassUpTo(cfg, st0, claimed0, n).verdicts;
    VerdictFacts(cfg, st0, claimed0, n, j);
    var before := claimed0 + AcceptedRefs(vs[..j]);
    BestAmongSpec(cfg, st0, before, st0.bImages[j], |st0.aImages|);
    assert vs[..j][i] == vs[i];
    assert vs[i].pick.a in AcceptedRefs(vs[..j]);
    if vs[i].b == vs[j].b {
      VerdictFacts(cfg, st0, claimed0, n, i);
      assert vs[..j][..i + 1] == vs[..i + 1];
      assert PickFor(vs[..j][..i + 1], vs[i].b).Some?;
      PickForPrefix(vs[..j], i + 1, vs[i].b);
    }
  }

  /** The effect of a pass on the records: each accepted candidate's record
      becomes matched to its reference with the reference's stem as target
      name and `renamed` false, each accepted reference's record becomes
      `used`, and nothing else changes. */
  lemma PassEffect(cfg: Settings, st0: State, claimed0: set<Path>)
    ensures var ps := PassUpTo(cfg, st0, claimed0, |st0.bImages|);
            && ps.st.aImages == st0.aImages && ps.st.aTexts == st0.aTexts
            && ps.st.bImages == st0.bImages && ps.st.bTexts == st0.bTexts
            && (forall p :: BInfoOf(ps.st, p) == match PickFor(ps.verdicts, p)
                 case None => BInfoOf(st0, p)
                 case Some(k) => BInfoOf(st0, p).(matched := true, similarity := k.similarity, matchedA := Some(k.a),
                                                  newName := Some(Stem(k.a.name) + Suffix(p.name)), renamed := false))
            && (forall a :: AInfoOf(ps.st, a).used == (AInfoOf(st0, a).used || a in AcceptedRefs(ps.verdicts)))
            && (forall a :: AInfoOf(ps.st, a).(used := false) == AInfoOf(st0, a).(used := false))
  {
    PassSummaryHolds(cfg, st0, claimed0, |st0.bImages|);
  }

  // ---------------------------------------------------------------------
  // Running the pass again
  // ---------------------------------------------------------------------

  function Exact(x: string, y: string): Percent {
    if x == y then 100 else 0
  }

  // The counterexample: one reference, two candidates with the same text.
  const ExCfg := Settings(80, true, Exact)
  const ExRef := Path("A", "ref.png")
  const ExFirst := Path("B", "1.jpg")
  const ExSecond := Path("B", "2.jpg")
  const ExPick := Pick(0, ExRef, 100)
  const ExStart := State([ExRef], map[ExRef := "x"], map[], [ExFirst, ExSecond], map[ExFirst := "x", ExSecond := "x"], Empty())

  lemma ExampleFirstPass()
    ensures AutoMatch(ExCfg, ExStart) == PassState(Accept(ExStart, ExFirst, ExPick), [Accepted(ExFirst, ExPick), NoReference], {ExRef})
  {
    assert ExFirst != ExSecond by {
      assert ExFirst.name[0] != ExSecond.name[0];
    }
    assert !IsBlank("x") by {
      assert !IsSpace("x"[0]);
    }
    var st1 := Accept(ExStart, ExFirst, ExPick);
    assert BestAmong(ExCfg, ExStart, {}, ExFirst, 1) == Some(ExPick);
    assert Judge(ExCfg, ExStart, {}, ExFirst) == Accepted(ExFirst, ExPick);
    assert PassUpTo(ExCfg, ExStart, {}, 1) == PassState(st1, [Accepted(ExFirst, ExPick)], {ExRef});
    assert BInfoOf(st1, ExSecond) == NoBInfo;
    assert BestAmong(ExCfg, st1, {ExRef}, ExSecond, 1) == None;
    assert Judge(ExCfg, st1, {ExRef}, ExSecond) == NoReference;
  }

  lemma ExampleSecondPass()
    ensures var st1 := Accept(ExStart, ExFirst, ExPick);
            AutoMatch(ExCfg, st1) == PassState(Accept(st1, ExSecond, ExPick), [AlreadyMatched, Accepted(ExSecond, ExPick)], {ExRef})
  {
    assert ExFirst != ExSecond by {
      assert ExFirst.name[0] != ExSecond.name[0];
    }
    assert !IsBlank("x") by {
      assert !IsSpace("x"[0]);
    }
    var st1 := Accept(ExStart, ExFirst, ExPick);
    assert BInfoOf(st1, ExFirst).matched;
    assert Judge(ExCfg, st1, {}, ExFirst) == AlreadyMatched;
    assert PassUpTo(ExCfg, st1, {}, 1) == PassState(st1, [AlreadyMatched], {});
    assert BInfoOf(st1, ExSecond) == NoBInfo;
    assert BestAmong(ExCfg, st1, {}, ExSecond, 1) == Some(ExPick);
    assert Judge(ExCfg, st1, {}, ExSecond) == Accepted(ExSecond, ExPick);
  }

  /** As written, a second pass ignores the `used` flags: with one reference
      and two candidates of identical text, the first pass matches the first
      candidate and the second pass hands the same reference to the second
      candidate, so two candidates claim one reference. */
  lemma RerunReassignsClaimedReference()
    ensures var once := AutoMatch(ExCfg, ExStart).st;
            var twice := AutoMatch(ExCfg, once);
            && ExRef in UsedRefs(once)
            && Decisions(twice.verdicts) == [Accepted(ExSecond, ExPick)]
            && Claims(BInfoOf(twice.st, ExFirst), ExRef) && Claims(BInfoOf(twice.st, ExSecond), ExRef)
  {
    ExampleFirstPass();
    ExampleSecondPass();
    assert ExFirst != ExSecond by {
      assert ExFirst.name[0] != ExSecond.name[0];
    }
    var vs := [AlreadyMatched, Accepted(ExSecond, ExPick)];
    assert vs[..1] == [AlreadyMatched];
    assert [AlreadyMatched][..0] == [];
  }

  /** The corrected pass leaves the same example alone the second time. */
  lemma CorrectedRerunKeepsExample()
    ensures var once := Accept(ExStart, ExFirst, ExPick);
            CorrectedAutoMatch(ExCfg, once).st == once
  {
    var once := Accept(ExStart, ExFirst, ExPick);
    ExampleFirstPass();
    assert UsedRefs(ExStart) == {};
    CorrectedAutoMatchIsIdempotent(ExCfg, ExStart);
  }

  /** The used references after a corrected pass are the used references
      before it plus the ones it accepted. */
  lemma UsedRefsAfterPass(cfg: Settings, st0: State, claimed0: set<Path>)
    ensures var ps := PassUpTo(cfg, st0, claimed0, |st0.bImages|);
            UsedRefs(ps.st) == UsedRefs(st0) + AcceptedRefs(ps.verdicts)
  {
    var ps := PassUpTo(cfg, st0, claimed0, |st0.bImages|);
    PassSummaryHolds(cfg, st0, claimed0, |st0.bImages|);
    forall a
      ensures a in UsedRefs(ps.st) <==> a in UsedRefs(st0) + AcceptedRefs(ps.verdicts)
    {
      assert AInfoOf(ps.st, a) == AAfter(st0, ps.verdicts, a);
    }
  }

  /** With the claimed set seeded from the `used` flags, running the pass a
      second time accepts nothing and changes nothing. */
  lemma CorrectedAutoMatchIsIdempotent(cfg: Settings, st: State)
    ensures var once := CorrectedAutoMatch(cfg, st).st;
            var again := CorrectedAutoMatch(cfg, once);
            Decisions(again.verdicts) == [] && again.st == once
  {
    var n := |st.bImages|;
    var first := CorrectedAutoMatch(cfg, st);
    var once := first.st;
    PassSummaryHolds(cfg, st, UsedRefs(st), n);
    UsedRefsAfterPass(cfg, st, UsedRefs(st));
    SecondPassQuiet(cfg, st, n, n);
  }

  /** On the state a corrected pass leaves, no candidate is accepted again:
      a candidate still unmatched with text found nothing in the first pass,
      and the references claimed since have only shrunk its choice. */
  lemma SecondVerdictQuiet(cfg: Settings, st: State, j: nat)
    requires j < |st.bImages|
    ensures var once := CorrectedAutoMatch(cfg, st).st;
            !Judge(cfg, once, UsedRefs(once), st.bImages[j]).Accepted?
  {
    var once := CorrectedAutoMatch(cfg, st).st;
    var b := st.bImages[j];
    if !BInfoOf(once, b).matched && !IsBlank(TextOf(once.bTexts, b)) {
      FirstVerdictNone(cfg, st, j);
      NoReferenceStaysQuiet(cfg, st, j);
    }
  }

  /** A candidate left unmatched with text after the corrected pass got no
      reference in it. */
  lemma FirstVerdictNone(cfg: Settings, st: State, j: nat)
    requires j < |st.bImages|
    requires var once := CorrectedAutoMatch(cfg, st).st;
             !BInfoOf(once, st.bImages[j]).matched && !IsBlank(TextOf(once.bTexts, st.bImages[j]))
    ensures |CorrectedAutoMatch(cfg, st).verdicts| == |st.bImages|
    ensures CorrectedAutoMatch(cfg, st).verdicts[j] == NoReference
  {
    var n := |st.bImages|;
    var first := CorrectedAutoMatch(cfg, st);
    var once := first.st;
    var b := st.bImages[j];
    var vs := first.verdicts;
    PassSummaryHolds(cfg, st, UsedRefs(st), n);
    assert PickFor(vs, b).None? by {
      assert BInfoOf(once, b) == BAfter(st, vs, b);
    }
    if PickFor(vs[..j], b).Some? {
      PickForPrefix(vs, j, b);
    }
    VerdictFacts(cfg, st, UsedRefs(st), n, j);
    if vs[j].Accepted? {
      StepPickFor(vs[..j], vs[j], b);
      assert vs[..j + 1] == vs[..j] + [vs[j]];
      PickForPrefix(vs, j + 1, b);
    }
  }

  /** A candidate the corrected pass found no reference for finds none on
      the state it leaves either. */
  lemma NoReferenceStaysQuiet(cfg: Settings, st: State, j: nat)
    requires j < |st.bImages|
    requires |CorrectedAutoMatch(cfg, st).verdicts| == |st.bImages|
    requires CorrectedAutoMatch(cfg, st).verdicts[j] == NoReference
    ensures var once := CorrectedAutoMatch(cfg, st).st;
            !Judge(cfg, once, UsedRefs(once), st.bImages[j]).Accepted?
  {
    var n := |st.bImages|;
    var first := CorrectedAutoMatch(cfg, st);
    var once := first.st;
    var seed := UsedRefs(once);
    var b := st.bImages[j];
    var vs := first.verdicts;
    VerdictFacts(cfg, st, UsedRefs(st), n, j);
    UsedRefsAfterPass(cfg, st, UsedRefs(st));
    AcceptedRefsPrefix(vs, j);
    BestAmongNoneMonotone(cfg, st, UsedRefs(st) + AcceptedRefs(vs[..j]), seed, b);
    PassSummaryHolds(cfg, st, UsedRefs(st), n);
    BestAmongFrame(cfg, st, once, seed, b, |st.aImages|);
  }

  lemma {:induction false} SecondPassQuiet(cfg: Settings, st: State, n: nat, m: nat)
    requires n == |st.bImages| && m <= n
    ensures var once := CorrectedAutoMatch(cfg, st).st;
            var again := PassUpTo(cfg, once, UsedRefs(once), m);
            Decisions(again.verdicts) == [] && again.st == once && again.claimed == UsedRefs(once)
  {
    if m > 0 {
      var once := CorrectedAutoMatch(cfg, st).st;
      SecondPassQuiet(cfg, st, n, m - 1);
      SecondVerdictQuiet(cfg, st, m - 1);
      QuietStep(cfg, once, UsedRefs(once), m);
    }
  }

  /** A candidate the pass rejects leaves a quiet pass quiet. */
  lemma QuietStep(cfg: Settings, st0: State, claimed0: set<Path>, m: nat)
    requires 0 < m <= |st0.bImages|
    requires var ps := PassUpTo(cfg, st0, claimed0, m - 1);
             Decisions(ps.verdicts) == [] && ps.st == st0 && ps.claimed == claimed0
    requires !Judge(cfg, st0, claimed0, st0.bImages[m - 1]).Accepted?
    ensures var ps := PassUpTo(cfg, st0, claimed0, m);
            Decisions(ps.verdicts) == [] && ps.st == st0 && ps.claimed == claimed0
  {
    var prev := PassUpTo(cfg, st0, claimed0, m - 1);
    var v := Judge(cfg, st0, claimed0, st0.bImages[m - 1]);
    var vs := prev.verdicts + [v];
    assert PassUpTo(cfg, st0, claimed0, m).verdicts == vs;
    assert vs[..|vs| - 1] == prev.verdicts;
  }
}

=== FILE: odict.dfy ===
/** Insertion-ordered dictionaries, as Python's `dict`: assigning to a new key
    appends it, assigning to an existing key keeps its position, and `pop`
    removes the key so that a later assignment appends it again. */
module OrderedDicts {
  import opened Options

  predicate NoDuplicates<K(==)>(s: seq<K>) {
    forall i, j :: 0 <= i < j < |s| ==> s[i] != s[j]
  }

  datatype RawDict<K, V> = RawDict(order: seq<K>, vals: map<K, V>)

  /** The key order lists every key exactly once. */
  predicate Valid<K, V>(d: RawDict<K, V>) {
    NoDuplicates(d.order)
    && (forall k | k in d.order :: k in d.vals)
    && (forall k | k in d.vals :: k in d.order)
  }

  type Dict<K, V> = d: RawDict<K, V> | Valid(d) witness RawDict([], map[])

  function Empty<K, V>(): (d: Dict<K, V>)
    ensures d.vals == map[] && d.order == []
  {
    RawDict([], map[])
  }

  /** `d.get(k)`. */
  function Get<K, V>(d: Dict<K, V>, k: K): (r: Option<V>)
    ensures r.Some? <==> k in d.vals
    ensures r.Some? ==> r.value == d.vals[k]
  {
    if k in d.vals then Some(d.vals[k]) else None
  }

  /** `d[k] = v`. */
  function Put<K, V>(d: Dict<K, V>, k: K, v: V): (r: Dict<K, V>)
    ensures r.vals == d.vals[k := v]
    ensures k in d.vals ==> r.order == d.order
    ensures k !in d.vals ==> r.order == d.order + [k]
  {
    var r := RawDict(if k in d.vals then d.order else d.order + [k], d.vals[k := v]);
    assert Valid(r) by {
      if k !in d.vals {
        assert k !in d.order;
      }
    }
    r
  }

  /** `s` without the occurrences of `k`, order kept. */
  function Remove<K(==)>(s: seq<K>, k: K): (r: seq<K>)
    ensures forall x | x in r :: x in s && x != k
    ensures forall x | x in s && x != k :: x in r
    ensures |r| <= |s|
    ensures NoDuplicates(s) ==> NoDuplicates(r)
  {
    if |s| == 0 then []
    else if s[|s| - 1] == k then Remove(s[..|s| - 1], k)
    else
      var r := Remove(s[..|s| - 1], k) + [s[|s| - 1]];
      assert NoDuplicates(s) ==> NoDuplicates(r) by {
        if NoDuplicates(s) {
          assert s[|s| - 1] !in s[..|s| - 1];
        }
      }
      r
  }

  /** `d.pop(k, None)`: drops the key, if present. */
  function Pop<K, V>(d: Dict<K, V>, k: K): (r: Dict<K, V>)
    ensures r.vals == d.vals - {k}
    ensures k !in d.vals ==> r == d
  {
    if k !in d.vals then d
    else
      var r := RawDict(Remove(d.order, k), d.vals - {k});
      r
  }

  /** A key order that lists each key once is as long as the key set is big. */
  lemma {:induction false} OrderCardinality<K>(s: seq<K>, keys: set<K>)
    requires NoDuplicates(s)
    requires forall k | k in s :: k in keys
    requires forall k | k in keys :: k in s
    ensures |s| == |keys|
  {
    if |s| > 0 {
      var last := s[|s| - 1];
      assert last !in s[..|s| - 1];
      OrderCardinality(s[..|s| - 1], keys - {last});
    }
  }

  /** Renaming a key to one that is not in use keeps the number of entries. */
  lemma RekeySize<K, V>(d: Dict<K, V>, src: K, dst: K, v: V)
    requires src in d.vals
    requires dst == src || dst !in d.vals
    ensures |Put(Pop(d, src), dst, v).vals.Keys| == |d.vals.Keys|
  {
  }

  /** The multiset of `f` applied to the values of the keys `ks`. */
  function ProjectSeq<K, V, X(==)>(ks: seq<K>, vals: map<K, V>, f: V -> X): multiset<X>
    requires forall k | k in ks :: k in vals
  {
    if |ks| == 0 then multiset{}
    else ProjectSeq(ks[..|ks| - 1], vals, f) + multiset{f(vals[ks[|ks| - 1]])}
  }

  /** The multiset of `f` applied to every value of `d`. */
  function Project<K, V, X(==)>(d: Dict<K, V>, f: V -> X): multiset<X> {
    ProjectSeq(d.order, d.vals, f)
  }

  lemma {:induction false} ProjectSeqFrame<K, V, X>(ks: seq<K>, vals: map<K, V>, vals2: map<K, V>, f: V -> X)
    requires forall k | k in ks :: k in vals && k in vals2 && vals2[k] == vals[k]
    ensures ProjectSeq(ks, vals2, f) == ProjectSeq(ks, vals, f)
  {
    if |ks| > 0 {
      ProjectSeqFrame(ks[..|ks| - 1], vals, vals2, f);
    }
  }

  lemma {:induction false} RemoveAbsent<K>(s: seq<K>, k: K)
    requires k !in s
    ensures Remove(s, k) == s
  {
    if |s| > 0 {
      RemoveAbsent(s[..|s| - 1], k);
    }
  }

  lemma ProjectSeqSnoc<K, V, X>(ks: seq<K>, vals: map<K, V>, f: V -> X, x: K)
    requires forall y | y in ks :: y in vals
    requires x in vals
    ensures ProjectSeq(ks + [x], vals, f) == ProjectSeq(ks, vals, f) + multiset{f(vals[x])}
  {
    assert (ks + [x])[..|ks|] == ks;
  }

  lemma MultisetSwap<X>(a: multiset<X>, x: X, y: X)
    requires x in a
    ensures (a - multiset{x}) + multiset{y} == (a + multiset{y}) - multiset{x}
  {
  }

  lemma {:induction false} ProjectSeqRemove<K, V, X>(ks: seq<K>, vals: map<K, V>, f: V -> X, k: K)
    requires forall x | x in ks :: x in vals
    requires NoDuplicates(ks) && k in ks
    ensures ProjectSeq(Remove(ks, k), vals - {k}, f) == ProjectSeq(ks, vals, f) - multiset{f(vals[k])}
  {
    var pre := ks[..|ks| - 1];
    var last := ks[|ks| - 1];
    assert ks == pre + [last];
    assert NoDuplicates(pre);
    if last == k {
      ProjectSeqRemoveLast(pre, vals, f, k);
    } else {
      assert k in pre;
      ProjectSeqRemove(pre, vals, f, k);
      ProjectSeqRemoveEarlier(pre, last, vals, f, k);
    }
  }

  /** The removed key is the last one. */
  lemma ProjectSeqRemoveLast<K, V, X>(pre: seq<K>, vals: map<K, V>, f: V -> X, k: K)
    requires forall x | x in pre :: x in vals
    requires k in vals && k !in pre
    ensures ProjectSeq(Remove(pre + [k], k), vals - {k}, f) == ProjectSeq(pre + [k], vals, f) - multiset{f(vals[k])}
  {
    assert (pre + [k])[..|pre|] == pre;
    RemoveAbsent(pre, k);
    ProjectSeqFrame(pre, vals, vals - {k}, f);
  }

  /** The removed key comes before the last one. */
  lemma ProjectSeqRemoveEarlier<K, V, X>(pre: seq<K>, last: K, vals: map<K, V>, f: V -> X, k: K)
    requires forall x | x in pre :: x in vals
    requires last in vals && last != k && k in pre
    requires ProjectSeq(Remove(pre, k), vals - {k}, f) == ProjectSeq(pre, vals, f) - multiset{f(vals[k])}
    ensures ProjectSeq(Remove(pre + [last], k), vals - {k}, f) == ProjectSeq(pre + [last], vals, f) - multiset{f(vals[k])}
  {
    assert (pre + [last])[..|pre|] == pre;
    var rest := Remove(pre, k);
    assert Remove(pre + [last], k) == rest + [last];
    ProjectSeqSnoc(rest, vals - {k}, f, last);
    ProjectSeqSnoc(pre, vals, f, last);
    var j :| 0 <= j < |pre| && pre[j] == k;
    ProjectSeqHas(pre, vals, f, j);
    MultisetSwap(ProjectSeq(pre, vals, f), f(vals[k]), f(vals[last]));
  }

  lemma {:induction false} ProjectSeqHas<K, V, X>(ks: seq<K>, vals: map<K, V>, f: V -> X, j: nat)
    requires forall x | x in ks :: x in vals
    requires j < |ks|
    ensures f(vals[ks[j]]) in ProjectSeq(ks, vals, f)
  {
    if j < |ks| - 1 {
      ProjectSeqHas(ks[..|ks| - 1], vals, f, j);
    }
  }

  /** Popping a key removes its value from the projection. */
  lemma ProjectPop<K, V, X>(d: Dict<K, V>, f: V -> X, k: K)
    requires k in d.vals
    ensures f(d.vals[k]) in Project(d, f)
    ensures Project(Pop(d, k), f) == Project(d, f) - multiset{f(d.vals[k])}
  {
    ProjectSeqRemove(d.order, d.vals, f, k);
    var j :| 0 <= j < |d.order| && d.order[j] == k;
    ProjectSeqHas(d.order, d.vals, f, j);
  }

  /** Assigning a new key adds its value to the projection. */
  lemma ProjectPutFresh<K, V, X>(d: Dict<K, V>, f: V -> X, k: K, v: V)
    requires k !in d.vals
    ensures Project(Put(d, k, v), f) == Project(d, f) + multiset{f(v)}
  {
    var r := Put(d, k, v);
    assert r.order[..|r.order| - 1] == d.order;
    ProjectSeqFrame(d.order, d.vals, r.vals, f);
  }
}

=== FILE: options.dfy ===
/** Optional values, the model's stand-in for Python's `None` and for a
    dictionary key that may be absent. */
module Options {

  datatype Option<+T> = None | Some(value: T) {

    /** The wrapped value, or `default` when there is none (`dict.get(k, default)`). */
    function GetOr(default: T): T {
      match this
      case Some(v) => v
      case None => default
    }
  }
}

=== FILE: paths.dfy ===
/** File names as `pathlib` sees them, decimal counters, and the character
    classes the application relies on (blank text, lower-case extensions). */
module Paths {

  /** A file path split into its directory and its final component. */
  datatype Path = Path(dir: string, name: string)

  // ---------------------------------------------------------------------
  // Stem and suffix of a final path component
  // ---------------------------------------------------------------------

  /** Index of the last '.' in `s`, or -1 when `s` has none. */
  function LastDot(s: string): (i: int)
    ensures -1 <= i < |s|
    ensures i >= 0 ==> s[i] == '.'
    ensures forall j :: i < j < |s| ==> s[j] != '.'
  {
    if |s| == 0 then -1
    else if s[|s| - 1] == '.' then |s| - 1
    else LastDot(s[..|s| - 1])
  }

  /** The last dot starts a suffix only when it is neither the first nor the
      last character of the name. */
  predicate HasSuffix(name: string) {
    0 < LastDot(name) < |name| - 1
  }

  /** `Path(name).suffix`. */
  function Suffix(name: string): string {
    if HasSuffix(name) then name[LastDot(name)..] else ""
  }

  /** `Path(name).stem`. */
  function Stem(name: string): string {
    if HasSuffix(name) then name[..LastDot(name)] else name
  }

  /** Stem and suffix split a name without losing or adding characters; a
      suffix is a dot followed by at least one character that is not a dot,
      and a stem in front of a suffix is never empty. */
  lemma StemSuffixSplit(name: string)
    ensures Stem(name) + Suffix(name) == name
    ensures Suffix(name) == [] || (|Suffix(name)| >= 2 && Suffix(name)[0] == '.' && |Stem(name)| > 0)
    ensures forall j :: 0 < j < |Suffix(name)| ==> Suffix(name)[j] != '.'
  {
  }

  /** A non-empty stem followed by a suffix splits back into the same two
      parts: the extension of `stem + ext` is `ext`. */
  lemma {:induction false} SuffixOfJoin(stem: string, ext: string)
    requires |stem| > 0
    requires |ext| >= 2 && ext[0] == '.'
    requires forall j :: 0 < j < |ext| ==> ext[j] != '.'
    ensures Suffix(stem + ext) == ext
    ensures Stem(stem + ext) == stem
  {
    var s := stem + ext;
    var i := LastDot(s);
    assert s[|stem|] == '.';
    assert i == |stem|;
    assert s[i..] == ext;
    assert s[..i] == stem;
  }

  /** The name the application gives to a candidate matched with a reference:
      the reference's stem followed by the candidate's own extension. */
  function TargetName(referenceName: string, candidateName: string): string {
    Stem(referenceName) + Suffix(candidateName)
  }

  /** A target name keeps the candidate's extension (when the candidate has
      one and the reference name is not empty). */
  lemma TargetKeepsExtension(referenceName: string, candidateName: string)
    requires |referenceName| > 0
    requires HasSuffix(candidateName)
    ensures Suffix(TargetName(referenceName, candidateName)) == Suffix(candidateName)
    ensures Stem(TargetName(referenceName, candidateName)) == Stem(referenceName)
  {
    StemSuffixSplit(candidateName);
    StemSuffixSplit(referenceName);
    assert |Stem(referenceName)| > 0;
    SuffixOfJoin(Stem(referenceName), Suffix(candidateName));
  }

  // ---------------------------------------------------------------------
  // Decimal counters (`str(k)` for k >= 0)
  // ---------------------------------------------------------------------

  function DigitChar(d: nat): char
    requires d < 10
  {
    "0123456789"[d]
  }

  function DigitValue(c: char): nat {
    if '0' <= c <= '9' then (c as int - '0' as int) as nat else 0
  }

  /** `str(n)`. */
  function Decimal(n: nat): string
    decreases n
  {
    if n < 10 then [DigitChar(n)] else Decimal(n / 10) + [DigitChar(n % 10)]
  }

  /** The value a string of decimal digits denotes (`int(s)`). */
  function DecimalValue(s: string): nat {
    if |s| == 0 then 0 else DecimalValue(s[..|s| - 1]) * 10 + DigitValue(s[|s| - 1])
  }

  /** Parsing `str(n)` gives back `n`. */
  lemma {:induction false} DecimalRoundTrip(n: nat)
    ensures DecimalValue(Decimal(n)) == n
    decreases n
  {
    var s := Decimal(n);
    assert s[|s| - 1] == DigitChar(n % 10);
    assert DigitValue(DigitChar(n % 10)) == n % 10;
    if n < 10 {
      assert s[..|s| - 1] == [];
    } else {
      assert s[..|s| - 1] == Decimal(n / 10);
      DecimalRoundTrip(n / 10);
    }
  }

  /** Distinct counters print differently. */
  lemma DecimalInjective(m: nat, n: nat)
    requires Decimal(m) == Decimal(n)
    ensures m == n
  {
    DecimalRoundTrip(m);
    DecimalRoundTrip(n);
  }

  /** `f"{stem}_{k}{ext}"`: the k-th fallback name of a collision search. */
  function Numbered(stem: string, k: nat, ext: string): string {
    stem + "_" + Decimal(k) + ext
  }

  /** Distinct counters give distinct fallback names. */
  lemma NumberedInjective(stem: string, ext: string, m: nat, n: nat)
    requires Numbered(stem, m, ext) == Numbered(stem, n, ext)
    ensures m == n
  {
    var x := Numbered(stem, m, ext);
    var y := Numbered(stem, n, ext);
    var p := |stem| + 1;
    assert |Decimal(m)| == |Decimal(n)|;
    assert x[p..|x| - |ext|] == Decimal(m);
    assert y[p..|y| - |ext|] == Decimal(n);
    DecimalInjective(m, n);
  }

  // ---------------------------------------------------------------------
  // Character classes
  // ---------------------------------------------------------------------

  /** `str.isspace` for one character: the characters `str.strip()` removes. */
  predicate IsSpace(c: char) {
    c == ' ' || '\t' <= c <= '\r' || '\U{1C}' <= c <= '\U{1F}'
    || c == '\U{85}' || c == '\U{A0}' || c == '\U{1680}'
    || '\U{2000}' <= c <= '\U{200A}' || c == '\U{2028}' || c == '\U{2029}'
    || c == '\U{202F}' || c == '\U{205F}' || c == '\U{3000}'
  }

  /** `not s or not s.strip()`: empty or whitespace only. */
  predicate IsBlank(s: string) {
    forall i :: 0 <= i < |s| ==> IsSpace(s[i])
  }

  function LowerChar(c: char): char {
    if 'A' <= c <= 'Z' then (c as int + 32) as char else c
  }

  /** `str.lower()` restricted to ASCII letters. */
  function LowerAscii(s: string): (r: string)
    ensures |r| == |s|
    ensures forall i :: 0 <= i < |s| ==> r[i] == LowerChar(s[i])
  {
    if |s| == 0 then "" else LowerAscii(s[..|s| - 1]) + [LowerChar(s[|s| - 1])]
  }
}

=== FILE: records.dfy ===
/** The application's in-memory bookkeeping for the two collections: group A
    (reference images whose names are authoritative) and group B (images to
    be renamed). Every collection is keyed by the current file path, as in
    the application: a list of paths in display order, a path-to-text map
    filled by text recognition, and a path-to-record map. */
module Records {
  import opened Options
  import opened Paths
  import opened OrderedDicts

  /** A similarity as an integer percentage (`fuzz.ratio`). */
  type Percent = x: int | 0 <= x <= 100

  /** A group-A record. An absent `used` key reads as false, so the record
      for a path without an entry is `NoAInfo`. */
  datatype AInfo = AInfo(text: string, width: nat, height: nat, used: bool)

  const NoAInfo := AInfo("", 0, 0, false)

  /** A group-B record. `newName` is the name shown and the rename target;
      `originalName` is absent until first written and never rewritten;
      `renamed` says whether the file on disk already carries `newName`. */
  datatype BInfo = BInfo(
    text: string,
    width: nat,
    height: nat,
    matched: bool,
    similarity: Percent,
    matchedA: Option<Path>,
    newName: Option<string>,
    originalName: Option<string>,
    renamed: bool)

  /** What `group_b_info.get(path, {})` reads as: every flag false. */
  const NoBInfo := BInfo("", 0, 0, false, 0, None, None, None, false)

  type BInfos = Dict<Path, BInfo>

  datatype State = State(
    aImages: seq<Path>,
    aTexts: map<Path, string>,
    aInfo: map<Path, AInfo>,
    bImages: seq<Path>,
    bTexts: map<Path, string>,
    bInfo: BInfos)

  const EmptyState := State([], map[], map[], [], map[], Empty())

  /** `texts.get(path, "")`. */
  function TextOf(texts: map<Path, string>, p: Path): string {
    if p in texts then texts[p] else ""
  }

  function AInfoOf(st: State, p: Path): AInfo {
    if p in st.aInfo then st.aInfo[p] else NoAInfo
  }

  function BInfoOf(st: State, p: Path): BInfo {
    if p in st.bInfo.vals then st.bInfo.vals[p] else NoBInfo
  }

  /** `info.get('new_name', basename(path))`: the name a B card shows. */
  function DisplayName(info: BInfo, p: Path): string {
    info.newName.GetOr(p.name)
  }

  /** A group-B record claims reference `a`. */
  predicate Claims(info: BInfo, a: Path) {
    info.matched && info.matchedA == Some(a)
  }

  /** `s.index(x)`, or `|s|` when `x` does not occur. */
  function IndexOf(s: seq<Path>, x: Path): (i: nat)
    ensures i <= |s|
    ensures i < |s| ==> s[i] == x
    ensures forall j :: 0 <= j < i ==> s[j] != x
  {
    if |s| == 0 then 0
    else if s[0] == x then 0
    else 1 + IndexOf(s[1..], x)
  }

  /** `if src in s: s[s.index(src)] = dst`: only the first occurrence moves. */
  function ReplaceFirst(s: seq<Path>, src: Path, dst: Path): (r: seq<Path>)
    ensures |r| == |s|
    ensures forall j :: 0 <= j < |s| ==> r[j] == (if j == IndexOf(s, src) then dst else s[j])
  {
    var i := IndexOf(s, src);
    if i < |s| then s[i := dst] else s
  }

  /** `if src in texts: texts[dst] = texts.pop(src)`. */
  function MoveText(texts: map<Path, string>, src: Path, dst: Path): (r: map<Path, string>)
    ensures src in texts ==> dst in r && r[dst] == texts[src]
    ensures src !in texts ==> r == texts
    ensures src in texts ==> forall p :: p != src && p != dst ==> (p in r <==> p in texts) && (p in r ==> r[p] == texts[p])
    ensures src in texts && src != dst ==> src !in r
  {
    if src in texts then (texts - {src})[dst := texts[src]] else texts
  }

  /** Moving the first list entry of `src` changes how often no other path
      occurs. */
  lemma ReplaceFirstCount(s: seq<Path>, src: Path, dst: Path, q: Path)
    requires q != src && q != dst
    ensures multiset(ReplaceFirst(s, src, dst))[q] == multiset(s)[q]
  {
    var i := IndexOf(s, src);
    if i < |s| {
      assert s == s[..i] + [src] + s[i + 1..];
      assert ReplaceFirst(s, src, dst) == s[..i] + [dst] + s[i + 1..];
    }
  }

  /** One file move of group B, from `src` to `dst`, as the log reports it. */
  datatype Move = Move(src: Path, dst: Path)

  /** The list after `moves`, each replacing the first entry of its source. */
  function MovePaths(s: seq<Path>, moves: seq<Move>): (r: seq<Path>)
    ensures |r| == |s|
    decreases |moves|
  {
    if |moves| == 0 then s else MovePaths(ReplaceFirst(s, moves[0].src, moves[0].dst), moves[1..])
  }

  /** The texts after `moves`, each carrying its source's text to its
      destination. */
  function MoveTexts(texts: map<Path, string>, moves: seq<Move>): map<Path, string>
    decreases |moves|
  {
    if |moves| == 0 then texts else MoveTexts(MoveText(texts, moves[0].src, moves[0].dst), moves[1..])
  }

  /** Group B's list and texts in `st'` are those of `st` after `moves`: the
      list entry and the text of every moved image went with it, and
      nothing else changed. */
  predicate Carries(st: State, st': State, moves: seq<Move>) {
    st'.bImages == MovePaths(st.bImages, moves) && st'.bTexts == MoveTexts(st.bTexts, moves)
  }

  /** A text stored under `src` in `t` is stored under `dst` in `t'`. */
  predicate TextMoved(t: map<Path, string>, src: Path, t': map<Path, string>, dst: Path) {
    src in t ==> dst in t' && t'[dst] == t[src]
  }

  /** `q` keeps its group-B list entries and its text (or the lack of one)
      from `st` to `st'`. */
  predicate EntryKept(st: State, st': State, q: Path) {
    && multiset(st'.bImages)[q] == multiset(st.bImages)[q]
    && (q in st'.bTexts <==> q in st.bTexts)
    && (q in st.bTexts ==> st'.bTexts[q] == st.bTexts[q])
  }

  lemma EntryKeptThen(s1: State, s2: State, s3: State, q: Path)
    requires EntryKept(s1, s2, q) && EntryKept(s2, s3, q)
    ensures EntryKept(s1, s3, q)
  {
  }

  lemma {:induction false} MovesAppend(s: seq<Path>, t: map<Path, string>, m1: seq<Move>, m2: seq<Move>)
    ensures MovePaths(s, m1 + m2) == MovePaths(MovePaths(s, m1), m2)
    ensures MoveTexts(t, m1 + m2) == MoveTexts(MoveTexts(t, m1), m2)
    decreases |m1|
  {
    if |m1| > 0 {
      assert (m1 + m2)[1..] == m1[1..] + m2;
      MovesAppend(ReplaceFirst(s, m1[0].src, m1[0].dst), MoveText(t, m1[0].src, m1[0].dst), m1[1..], m2);
    } else {
      assert m1 + m2 == m2;
    }
  }

  /** Moving the first entry of `src` takes one `src` out of the list's
      multiset and puts one `dst` in, when there is a `src` to move. */
  lemma ReplaceFirstMultiset(s: seq<Path>, src: Path, dst: Path)
    ensures multiset(ReplaceFirst(s, src, dst)) == if src in s then multiset(s) - multiset{src} + multiset{dst} else multiset(s)
  {
    var i := IndexOf(s, src);
    if i < |s| {
      assert s == s[..i] + [src] + s[i + 1..];
      assert ReplaceFirst(s, src, dst) == s[..i] + [dst] + s[i + 1..];
    } else {
      assert src !in s;
    }
  }

  /** What `moves` make of a list depends only on the list's multiset, so
      a reordered list ends up reordered the same way. */
  lemma {:induction false} MovePathsReordered(s1: seq<Path>, s2: seq<Path>, moves: seq<Move>)
    requires multiset(s1) == multiset(s2)
    ensures multiset(MovePaths(s1, moves)) == multiset(MovePaths(s2, moves))
    decreases |moves|
  {
    if |moves| > 0 {
      var m := moves[0];
      ReplaceFirstMultiset(s1, m.src, m.dst);
      ReplaceFirstMultiset(s2, m.src, m.dst);
      assert m.src in s1 <==> m.src in multiset(s1);
      assert m.src in s2 <==> m.src in multiset(s2);
      MovePathsReordered(ReplaceFirst(s1, m.src, m.dst), ReplaceFirst(s2, m.src, m.dst), moves[1..]);
    }
  }

  /** Two runs of moves, one after the other, carry the list and the texts
      along their concatenation. */
  lemma CarriesThen(s1: State, s2: State, s3: State, m1: seq<Move>, m2: seq<Move>)
    requires Carries(s1, s2, m1) && Carries(s2, s3, m2)
    ensures Carries(s1, s3, m1 + m2)
  {
    MovesAppend(s1.bImages, s1.bTexts, m1, m2);
  }

  /** A single move carries exactly the source's first entry and text, and
      every other path keeps its entries and its text. */
  lemma CarriesOne(st: State, st': State, src: Path, dst: Path)
    requires st'.bImages == ReplaceFirst(st.bImages, src, dst) && st'.bTexts == MoveText(st.bTexts, src, dst)
    ensures Carries(st, st', [Move(src, dst)])
    ensures TextMoved(st.bTexts, src, st'.bTexts, dst)
    ensures forall q | q != src && q != dst :: EntryKept(st, st', q)
  {
    assert [Move(src, dst)][1..] == [];
    forall q | q != src && q != dst
      ensures EntryKept(st, st', q)
    {
      ReplaceFirstCount(st.bImages, src, dst, q);
    }
  }

  /** Every group-B record describes a file that exists. The application
      assumes this of the folders it scanned; the model states the rename
      engine's strongest promises under it instead of demanding it. */
  ghost predicate Coherent(st: State, fs: set<Path>) {
    forall p | p in st.bInfo.vals :: p in fs
  }
}

=== FILE: renaming.dfy ===
/** The rename engine (`apply_matched_renames`): for every B image that is
    matched but not yet renamed, in the order of the record dictionary, it
    first evicts other renamed B images that already carry the target name,
    then looks for a free name (`stem_1ext`, `stem_2ext`, ... when the
    target is taken), renames the file and moves the image's list entry,
    text and record to the new path. A failure on one image is counted and
    the batch goes on. The clock-based token of the `_restored_` names is a
    parameter. */
module RenameEngine {
  import opened Options
  import opened Paths
  import opened OrderedDicts
  import opened FileSystem
  import opened Records
  import opened Display

  // ---------------------------------------------------------------------
  // Moving an image to a new path
  // ---------------------------------------------------------------------

  /** The bookkeeping after a file moved from `src` to `dst`: the first list
      entry for `src` is overwritten in place, the text moves to the new key,
      and the record is popped and stored under the new key as `info`. */
  function Rekey(st: State, src: Path, dst: Path, info: BInfo): (r: State)
    requires src in st.bInfo.vals
    ensures r.aImages == st.aImages && r.aTexts == st.aTexts && r.aInfo == st.aInfo
    ensures |r.bImages| == |st.bImages|
    ensures dst in r.bInfo.vals && r.bInfo.vals[dst] == info
    ensures src != dst ==> src !in r.bInfo.vals
    ensures forall p :: p != src && p != dst ==> (p in r.bInfo.vals <==> p in st.bInfo.vals)
    ensures forall p | p != src && p != dst && p in r.bInfo.vals :: r.bInfo.vals[p] == st.bInfo.vals[p]
  {
    st.(bImages := ReplaceFirst(st.bImages, src, dst),
        bTexts := MoveText(st.bTexts, src, dst),
        bInfo := Put(Pop(st.bInfo, src), dst, info))
  }

  /** The original names recorded on the B records, one per record. */
  function OriginalNames(d: BInfos): multiset<Option<string>> {
    Project(d, (i: BInfo) => i.originalName)
  }

  /** No original name recorded in `d0` was lost or rewritten in `d1`. */
  ghost predicate KeepsOriginalNames(d0: BInfos, d1: BInfos) {
    forall x: string :: OriginalNames(d0)[Some(x)] <= OriginalNames(d1)[Some(x)]
  }

  /** When every record's file exists and the new path is free, a move keeps
      every record's file existing and loses no record. */
  lemma RekeyCoherent(st: State, fs: Fs, src: Path, dst: Path, info: BInfo)
    requires Coherent(st, fs)
    requires src in st.bInfo.vals
    requires dst == src || dst !in fs
    ensures Coherent(Rekey(st, src, dst, info), fs - {src} + {dst})
    ensures |Rekey(st, src, dst, info).bInfo.vals.Keys| == |st.bInfo.vals.Keys|
  {
    RekeySize(st.bInfo, src, dst, info);
  }

  /** The same move, seen from the original names: the moved record's
      original name is traded for the one it carries now. */
  lemma RekeyOriginalNames(st: State, fs: Fs, src: Path, dst: Path, info: BInfo)
    requires Coherent(st, fs)
    requires src in st.bInfo.vals
    requires dst == src || dst !in fs
    ensures var before := st.bInfo.vals[src].originalName;
            var m0 := OriginalNames(st.bInfo);
            var m1 := OriginalNames(Rekey(st, src, dst, info).bInfo);
            && before in m0
            && m1 == m0 - multiset{before} + multiset{info.originalName}
            && (info.originalName == before ==> m1 == m0)
            && ((before.Some? ==> info.originalName == before) ==> KeepsOriginalNames(st.bInfo, Rekey(st, src, dst, info).bInfo))
  {
    var f := (i: BInfo) => i.originalName;
    var popped := Pop(st.bInfo, src);
    ProjectPop(st.bInfo, f, src);
    ProjectPutFresh(popped, f, dst, info);
    assert Rekey(st, src, dst, info).bInfo == Put(popped, dst, info);
    TradeKeepsNames(OriginalNames(st.bInfo), OriginalNames(Put(popped, dst, info)),
                    st.bInfo.vals[src].originalName, info.originalName);
  }

  /** Trading one element of a multiset of names for another. */
  lemma TradeKeepsNames(m0: multiset<Option<string>>, m1: multiset<Option<string>>, before: Option<string>, after: Option<string>)
    requires before in m0
    requires m1 == m0 - multiset{before} + multiset{after}
    ensures after == before ==> m1 == m0
    ensures (before.Some? ==> after == before) ==> forall x: string :: m0[Some(x)] <= m1[Some(x)]
  {
  }

  // ---------------------------------------------------------------------
  // Eviction
  // ---------------------------------------------------------------------

  /** The fallback name of an evicted image whose original name is taken. */
  function RestoredName(original: string, token: string): string {
    Stem(original) + "_restored_" + token + Suffix(original)
  }

  /** Where an evicted image `holder` goes: its original name in its own
      directory when that is free (or is its current path); otherwise the
      first free name of `base_restored_token ext`, then
      `base_restored_token_1 ext`, ... */
  ghost predicate RestoreChoice(fs: Fs, holder: Path, original: string, token: string, p: Path) {
    var home := Path(holder.dir, original);
    var fallback := RestoredName(original, token);
    && (Vacant(fs, holder, home) ==> p == home)
    && (!Vacant(fs, holder, home) ==>
          exists k :: FirstVacant(fs, holder, holder.dir, fallback, Stem(fallback), Suffix(original), k)
                   && p == Candidate(holder.dir, fallback, Stem(fallback), Suffix(original), k))
  }

  method RestoreTarget(fs: Fs, holder: Path, original: string, token: string) returns (p: Path)
    ensures RestoreChoice(fs, holder, original, token, p)
    ensures p.dir == holder.dir && Vacant(fs, holder, p)
  {
    p := Path(holder.dir, original);
    if p in fs && p != holder {
      var fallback := RestoredName(original, token);
      var k;
      p, k := FindVacant(fs, holder, holder.dir, fallback, Stem(fallback), Suffix(original));
    }
  }

  /** The record of an evicted image: unmatched, showing its new name, and
      marked renamed; its original name and everything else stay. */
  function ReleasedInfo(info: BInfo, restore: Path): BInfo {
    info.(matched := false, matchedA := None, newName := Some(restore.name), renamed := true)
  }

  /** Evicts `holder`, whose original name (as read when the sweep started)
      is `original`: moves its file back, unless it is missing or already
      there, and resets its record. `released` is false when the operating
      system refuses the move, and then nothing changes. */
  method Evict(st: State, fs: Fs, locked: set<Path>, token: string, holder: Path, original: string)
    returns (st': State, fs': Fs, restore: Path, released: bool)
    requires holder in st.bInfo.vals
    ensures RestoreChoice(fs, holder, original, token, restore)
    ensures restore.dir == holder.dir && (restore == holder || restore !in fs)
    ensures released <==> !(holder in fs && holder != restore && holder in locked)
    ensures !released ==> st' == st && fs' == fs
    ensures released ==> fs' == if holder in fs && holder != restore then fs - {holder} + {restore} else fs
    ensures released ==> st' == Rekey(st, holder, restore, ReleasedInfo(st.bInfo.vals[holder], restore))
    ensures released ==> var r := st'.bInfo.vals[restore];
      && !r.matched && r.matchedA == None && r.renamed && r.newName == Some(restore.name)
      && r.originalName == st.bInfo.vals[holder].originalName
    ensures |fs'| == |fs|
    ensures forall p | p in st.bInfo.vals && p != holder && p in fs ::
              p in st'.bInfo.vals && st'.bInfo.vals[p] == st.bInfo.vals[p]
    ensures Coherent(st, fs) ==> Coherent(st', fs') && |st'.bInfo.vals.Keys| == |st.bInfo.vals.Keys|
    ensures Coherent(st, fs) ==> OriginalNames(st'.bInfo) == OriginalNames(st.bInfo)
  {
    restore := RestoreTarget(fs, holder, original, token);
    st', fs' := st, fs;
    released := true;
    if holder in fs && holder != restore {
      var moved := Rename(fs, locked, holder, restore);
      if moved.None? {
        released := false;
        return;
      }
      fs' := moved.value;
    }
    st' := Rekey(st, holder, restore, ReleasedInfo(st.bInfo.vals[holder], restore));
    if Coherent(st, fs) {
      ReleaseCoherent(st, fs, holder, restore, fs');
    }
  }

  lemma ReleaseCoherent(st: State, fs: Fs, holder: Path, restore: Path, fs': Fs)
    requires Coherent(st, fs)
    requires holder in st.bInfo.vals
    requires restore == holder || restore !in fs
    requires fs' == if holder in fs && holder != restore then fs - {holder} + {restore} else fs
    ensures var st' := Rekey(st, holder, restore, ReleasedInfo(st.bInfo.vals[holder], restore));
            && Coherent(st', fs') && |st'.bInfo.vals.Keys| == |st.bInfo.vals.Keys|
            && OriginalNames(st'.bInfo) == OriginalNames(st.bInfo)
  {
    var info := ReleasedInfo(st.bInfo.vals[holder], restore);
    assert holder in fs;
    assert fs' == fs - {holder} + {restore};
    assert info.originalName == st.bInfo.vals[holder].originalName;
    RekeyCoherent(st, fs, holder, restore, info);
    RekeyOriginalNames(st, fs, holder, restore, info);
  }

  /** The holders a target name evicts: every other image whose record says
      renamed and whose current file name is the target, in any directory. */
  predicate Evicts(info: BInfo, holder: Path, item: Path, target: string) {
    holder != item && info.renamed && holder.name == target
  }

  /** `p` has no record in `d`, or an unmatched one. */
  predicate Unmatched(d: BInfos, p: Path) {
    p !in d.vals || !d.vals[p].matched
  }

  /** The record of `p` in `d1` is the one it had in `d0`, or an unmatched
      one. */
  predicate StillOrReleased(d0: BInfos, d1: BInfos, p: Path)
    requires p in d1.vals
  {
    (p in d0.vals && d1.vals[p] == d0.vals[p]) || !d1.vals[p].matched
  }

  /** The eviction sweep before `item` is renamed to `target`: it walks a
      snapshot of the records in dictionary order. Every holder of the
      target name ends up unmatched unless the operating system refused to
      move its file, and no record gains a match. */
  method EvictHolders(st: State, fs: Fs, locked: set<Path>, token: string, item: Path, target: string)
    returns (st': State, fs': Fs, moves: seq<Move>)
    ensures forall p | p in st.bInfo.vals && Evicts(st.bInfo.vals[p], p, item, target) ::
              p in locked || Unmatched(st'.bInfo, p)
    ensures forall p | p in st'.bInfo.vals && st'.bInfo.vals[p].matched && Evicts(st'.bInfo.vals[p], p, item, target) ::
              p in locked
    ensures forall p | p in st'.bInfo.vals :: StillOrReleased(st.bInfo, st'.bInfo, p)
    ensures st'.aImages == st.aImages && st'.aTexts == st.aTexts && st'.aInfo == st.aInfo
    ensures |st'.bImages| == |st.bImages| && |fs'| == |fs|
    ensures Coherent(st, fs) ==> Coherent(st', fs') && |st'.bInfo.vals.Keys| == |st.bInfo.vals.Keys|
    ensures Coherent(st, fs) ==> OriginalNames(st'.bInfo) == OriginalNames(st.bInfo)
    ensures Coherent(st, fs) ==>
              forall p | p in st.bInfo.vals && !Evicts(st.bInfo.vals[p], p, item, target) ::
                p in st'.bInfo.vals && st'.bInfo.vals[p] == st.bInfo.vals[p]
    ensures Carries(st, st', moves)
    ensures forall m | m in moves :: m.src in st.bInfo.vals && Evicts(st.bInfo.vals[m.src], m.src, item, target)
    ensures Coherent(st, fs) ==>
              forall p | p in st.bInfo.vals && !Evicts(st.bInfo.vals[p], p, item, target) :: EntryKept(st, st', p)
    ensures (forall p | p in st.bInfo.vals :: !Evicts(st.bInfo.vals[p], p, item, target)) ==>
              st' == st && fs' == fs && moves == []
    ensures SweepMoves(st, item, target, st', moves)
    ensures Coherent(st, fs) ==> SweepFrame(st, fs, item, target, st', fs')
  {
    SweepStart(st, fs, locked, item, target);
    st', fs', moves := st, fs, [];
    for j := 0 to |st.bInfo.order|
      invariant SweptSoFar(st, fs, locked, item, target, j, st', fs', moves)
    {
      st', fs', moves := SweepNext(st, fs, locked, token, item, target, j, st', fs', moves);
    }
    SweepDone(st, fs, locked, item, target, st', fs', moves);
  }

  /** What the sweep has established after the first `j` entries of the
      snapshot of `st0`'s records: group A untouched, the moves made so far,
      the records as `SweepRecords` describes them, nothing changed when
      nothing holds the target and, when every record's file exists, the
      frame of `SweepFrame`. */
  ghost predicate SweptSoFar(st0: State, fs0: Fs, locked: set<Path>, item: Path, target: string, j: nat,
                             st: State, fs: Fs, moves: seq<Move>)
  {
    && j <= |st0.bInfo.order|
    && st.aImages == st0.aImages && st.aTexts == st0.aTexts && st.aInfo == st0.aInfo
    && |st.bImages| == |st0.bImages| && |fs| == |fs0|
    && SweepMoves(st0, item, target, st, moves)
    && SweepRecords(st0.bInfo, st.bInfo, locked, item, target, j)
    && (NoHolder(st0.bInfo, item, target) ==> st == st0 && fs == fs0 && moves == [])
    && (Coherent(st0, fs0) ==> SweepFrame(st0, fs0, item, target, st, fs))
  }

  /** No record of `d` holds `target` against `item`. */
  predicate NoHolder(d: BInfos, item: Path, target: string) {
    forall p | p in d.vals :: !Evicts(d.vals[p], p, item, target)
  }

  /** The moves of the sweep so far carry group B's list and texts, and
      each moves a holder of the target name. */
  ghost predicate SweepMoves(st0: State, item: Path, target: string, st: State, moves: seq<Move>) {
    && Carries(st0, st, moves)
    && (forall m | m in moves :: m.src in st0.bInfo.vals && Evicts(st0.bInfo.vals[m.src], m.src, item, target))
  }

  /** The records after the first `j` snapshot entries: the unvisited ones
      are still there, none gained a match, every visited holder is
      released or locked, and a matched holder is locked or unvisited. */
  ghost predicate SweepRecords(d0: BInfos, d: BInfos, locked: set<Path>, item: Path, target: string, j: nat)
    requires j <= |d0.order|
  {
    var snapshot := d0.order;
    && (forall i | j <= i < |snapshot| :: snapshot[i] in d.vals)
    && (forall p | p in d.vals :: StillOrReleased(d0, d, p))
    && (forall p | p in snapshot[..j] && Evicts(d0.vals[p], p, item, target) :: p in locked || Unmatched(d, p))
    && (forall p | p in d.vals && d.vals[p].matched && Evicts(d.vals[p], p, item, target) ::
          p in locked || p in snapshot[j..])
  }

  /** Every record's file exists, the number of records and the original
      names are kept, and every record that does not hold the target is
      unchanged, with its list entries and its text. */
  ghost predicate SweepFrame(st0: State, fs0: Fs, item: Path, target: string, st: State, fs: Fs) {
    && Coherent(st, fs) && |st.bInfo.vals.Keys| == |st0.bInfo.vals.Keys|
    && OriginalNames(st.bInfo) == OriginalNames(st0.bInfo)
    && (forall p | p in st0.bInfo.vals && !Evicts(st0.bInfo.vals[p], p, item, target) ::
          p in st.bInfo.vals && st.bInfo.vals[p] == st0.bInfo.vals[p] && EntryKept(st0, st, p))
  }

  lemma SweepStart(st0: State, fs0: Fs, locked: set<Path>, item: Path, target: string)
    ensures SweptSoFar(st0, fs0, locked, item, target, 0, st0, fs0, [])
  {
    var snapshot := st0.bInfo.order;
    assert snapshot[0..] == snapshot;
  }

  /** The bundled facts of a finished sweep, taken apart. */
  lemma SweepDone(st0: State, fs0: Fs, locked: set<Path>, item: Path, target: string, st: State, fs: Fs, moves: seq<Move>)
    requires SweptSoFar(st0, fs0, locked, item, target, |st0.bInfo.order|, st, fs, moves)
    ensures forall p | p in st0.bInfo.vals && Evicts(st0.bInfo.vals[p], p, item, target) ::
              p in locked || Unmatched(st.bInfo, p)
    ensures forall p | p in st.bInfo.vals && st.bInfo.vals[p].matched && Evicts(st.bInfo.vals[p], p, item, target) ::
              p in locked
    ensures forall p | p in st.bInfo.vals :: StillOrReleased(st0.bInfo, st.bInfo, p)
    ensures st.aImages == st0.aImages && st.aTexts == st0.aTexts && st.aInfo == st0.aInfo
    ensures |st.bImages| == |st0.bImages| && |fs| == |fs0|
    ensures Coherent(st0, fs0) ==> Coherent(st, fs) && |st.bInfo.vals.Keys| == |st0.bInfo.vals.Keys|
    ensures Coherent(st0, fs0) ==> OriginalNames(st.bInfo) == OriginalNames(st0.bInfo)
    ensures Coherent(st0, fs0) ==>
              forall p | p in st0.bInfo.vals && !Evicts(st0.bInfo.vals[p], p, item, target) ::
                p in st.bInfo.vals && st.bInfo.vals[p] == st0.bInfo.vals[p]
    ensures Carries(st0, st, moves)
    ensures forall m | m in moves :: m.src in st0.bInfo.vals && Evicts(st0.bInfo.vals[m.src], m.src, item, target)
    ensures Coherent(st0, fs0) ==>
              forall p | p in st0.bInfo.vals && !Evicts(st0.bInfo.vals[p], p, item, target) :: EntryKept(st0, st, p)
    ensures (forall p | p in st0.bInfo.vals :: !Evicts(st0.bInfo.vals[p], p, item, target)) ==>
              st == st0 && fs == fs0 && moves == []
    ensures SweepMoves(st0, item, target, st, moves)
    ensures Coherent(st0, fs0) ==> SweepFrame(st0, fs0, item, target, st, fs)
  {
    var snapshot := st0.bInfo.order;
    assert snapshot[..|snapshot|] == snapshot;
    assert snapshot[|snapshot|..] == [];
  }

  /** The `j`-th step of the sweep keeps its bookkeeping. */
  method SweepNext(st0: State, ghost fs0: Fs, locked: set<Path>, token: string, item: Path, target: string, j: nat,
                   st: State, fs: Fs, moves: seq<Move>)
    returns (st': State, fs': Fs, moves': seq<Move>)
    requires j < |st0.bInfo.order|
    requires SweptSoFar(st0, fs0, locked, item, target, j, st, fs, moves)
    ensures SweptSoFar(st0, fs0, locked, item, target, j + 1, st', fs', moves')
  {
    var holder := st0.bInfo.order[j];
    var info := st0.bInfo.vals[holder];
    var step;
    st', fs', step := EvictIfHolder(st, fs, locked, token, item, target, holder, info);
    moves' := moves + step;
    SweepStep(st0.bInfo, st.bInfo, st'.bInfo, locked, item, target, j);
    SweepMovesStep(st0, item, target, st, st', moves, step, holder);
    if Coherent(st0, fs0) {
      SweepFrameStep(st0, fs0, item, target, st, fs, st', fs', holder);
    }
  }

  /** One step of the sweep keeps `SweepMoves`. */
  lemma SweepMovesStep(st0: State, item: Path, target: string, st: State, st': State,
                       moves: seq<Move>, step: seq<Move>, holder: Path)
    requires holder in st0.bInfo.vals
    requires SweepMoves(st0, item, target, st, moves)
    requires Carries(st, st', step)
    requires forall m | m in step :: m.src == holder && Evicts(st0.bInfo.vals[holder], holder, item, target)
    ensures SweepMoves(st0, item, target, st', moves + step)
  {
    CarriesThen(st0, st, st', moves, step);
    forall m | m in moves + step
      ensures m.src in st0.bInfo.vals && Evicts(st0.bInfo.vals[m.src], m.src, item, target)
    {
      if m !in moves {
        assert m in step;
      }
    }
  }

  /** One step of the sweep keeps `SweepFrame`. */
  lemma SweepFrameStep(st0: State, fs0: Fs, item: Path, target: string, st: State, fs: Fs, st': State, fs': Fs, holder: Path)
    requires holder in st0.bInfo.vals
    requires SweepFrame(st0, fs0, item, target, st, fs)
    requires !Evicts(st0.bInfo.vals[holder], holder, item, target) ==> st' == st && fs' == fs
    requires forall p | p in st.bInfo.vals && p != holder :: p in st'.bInfo.vals
    requires Coherent(st, fs) ==> Coherent(st', fs') && |st'.bInfo.vals.Keys| == |st.bInfo.vals.Keys|
    requires Coherent(st, fs) ==> OriginalNames(st'.bInfo) == OriginalNames(st.bInfo)
    requires Coherent(st, fs) ==>
               forall p | p in st.bInfo.vals && p != holder :: st'.bInfo.vals[p] == st.bInfo.vals[p]
    requires Coherent(st, fs) ==> forall q | q in st.bInfo.vals && q != holder :: EntryKept(st, st', q)
    ensures SweepFrame(st0, fs0, item, target, st', fs')
  {
    forall p | p in st0.bInfo.vals && !Evicts(st0.bInfo.vals[p], p, item, target)
      ensures p in st'.bInfo.vals && st'.bInfo.vals[p] == st0.bInfo.vals[p] && EntryKept(st0, st', p)
    {
      if p != holder {
        EntryKeptThen(st0, st, st', p);
      }
    }
  }

  /** One step of the sweep: evicts `holder` when its snapshot record
      `info` says it holds the target name. `moves` is the move made, if
      any. */
  method EvictIfHolder(st: State, fs: Fs, locked: set<Path>, token: string, item: Path, target: string,
                       holder: Path, info: BInfo)
    returns (st': State, fs': Fs, moves: seq<Move>)
    requires holder in st.bInfo.vals
    ensures st'.aImages == st.aImages && st'.aTexts == st.aTexts && st'.aInfo == st.aInfo
    ensures |st'.bImages| == |st.bImages| && |fs'| == |fs|
    ensures !Evicts(info, holder, item, target) ==> st' == st && fs' == fs && moves == []
    ensures Carries(st, st', moves)
    ensures forall m | m in moves :: m.src == holder && Evicts(info, holder, item, target)
    ensures Coherent(st, fs) ==> forall q | q in st.bInfo.vals && q != holder :: EntryKept(st, st', q)
    ensures forall p | p in st.bInfo.vals && p != holder :: p in st'.bInfo.vals
    ensures Coherent(st, fs) ==> Coherent(st', fs') && |st'.bInfo.vals.Keys| == |st.bInfo.vals.Keys|
    ensures Coherent(st, fs) ==> OriginalNames(st'.bInfo) == OriginalNames(st.bInfo)
    ensures Coherent(st, fs) ==>
              forall p | p in st.bInfo.vals && p != holder :: st'.bInfo.vals[p] == st.bInfo.vals[p]
    ensures forall p | p in st'.bInfo.vals :: StillOrReleased(st.bInfo, st'.bInfo, p)
    ensures Evicts(info, holder, item, target) ==> holder in locked || Unmatched(st'.bInfo, holder)
  {
    st', fs', moves := st, fs, [];
    if Evicts(info, holder, item, target) {
      var released;
      var restore;
      st', fs', restore, released := Evict(st, fs, locked, token, holder, info.originalName.GetOr(holder.name));
      if released {
        moves := [Move(holder, restore)];
        CarriesOne(st, st', holder, restore);
      }
    }
  }

  /** One step of the sweep keeps `SweepRecords`: the holder visited is
      released or locked, and a matched holder is locked or not yet
      visited. */
  lemma SweepStep(d0: BInfos, prev: BInfos, next: BInfos, locked: set<Path>, item: Path, target: string, j: nat)
    requires j < |d0.order|
    requires SweepRecords(d0, prev, locked, item, target, j)
    requires forall p | p in prev.vals && p != d0.order[j] :: p in next.vals
    requires forall p | p in next.vals :: StillOrReleased(prev, next, p)
    requires Evicts(d0.vals[d0.order[j]], d0.order[j], item, target) ==> d0.order[j] in locked || Unmatched(next, d0.order[j])
    ensures SweepRecords(d0, next, locked, item, target, j + 1)
  {
    var snapshot := d0.order;
    var h := snapshot[j];
    assert snapshot[..j + 1] == snapshot[..j] + [h];
    assert snapshot[j..] == [h] + snapshot[j + 1..];
    forall i | j + 1 <= i < |snapshot|
      ensures snapshot[i] in next.vals
    {
      assert snapshot[i] != h;
    }
    forall p | p in next.vals
      ensures StillOrReleased(d0, next, p)
    {
      if next.vals[p].matched {
        assert p in prev.vals && next.vals[p] == prev.vals[p];
        assert StillOrReleased(d0, prev, p);
      }
    }
    forall p | p in next.vals && next.vals[p].matched && Evicts(next.vals[p], p, item, target)
      ensures p in locked || p in snapshot[j + 1..]
    {
      assert p in prev.vals && next.vals[p] == prev.vals[p];
    }
  }

  // ---------------------------------------------------------------------
  // Renaming one image
  // ---------------------------------------------------------------------

  datatype Outcome = Renamed(dest: Path) | Skipped | Failed

  /** The record of an image renamed to `dest`: the original name is written
      only if absent, the shown name is the new file name, and `renamed` is
      set. A manual confirmation (`claim` = the chosen reference) also marks
      it matched to that reference; the batch leaves the match as it is. */
  function RenamedInfo(info: BInfo, src: Path, dest: Path, claim: Option<Path>): BInfo {
    var moved := info.(originalName := if info.originalName.Some? then info.originalName else Some(src.name),
                       newName := Some(dest.name), renamed := true);
    if claim.Some? then moved.(matched := true, matchedA := claim) else moved
  }

  /** After the sweep: searches the first free name for `item` in its own
      directory, starting with `target`, and renames the file unless the
      search ends on the item's own path. */
  method RenameInPlace(st: State, fs: Fs, locked: set<Path>, item: Path, target: string, claim: Option<Path>)
    returns (st': State, fs': Fs, dest: Path, outcome: Outcome)
    ensures exists k :: FirstVacant(fs, item, item.dir, target, Stem(target), Suffix(target), k)
                     && dest == Candidate(item.dir, target, Stem(target), Suffix(target), k)
    ensures outcome == Skipped <==> dest == item
    ensures outcome == Failed <==> dest != item && (item !in fs || item in locked)
    ensures outcome.Renamed? ==> outcome.dest == dest
    ensures outcome.Renamed? ==> dest !in fs && fs' == fs - {item} + {dest}
    ensures !outcome.Renamed? ==> st' == st && fs' == fs
    ensures outcome.Renamed? ==>
      && st'.bImages == ReplaceFirst(st.bImages, item, dest)
      && st'.bTexts == MoveText(st.bTexts, item, dest)
      && st'.aImages == st.aImages && st'.aTexts == st.aTexts && st'.aInfo == st.aInfo
    ensures outcome.Renamed? && item in st.bInfo.vals ==>
      && dest in st'.bInfo.vals && item !in st'.bInfo.vals
      && st'.bInfo.vals[dest].originalName == Some(st.bInfo.vals[item].originalName.GetOr(item.name))
      && st'.bInfo.vals[dest] == RenamedInfo(st.bInfo.vals[item], item, dest, claim)
    ensures outcome.Renamed? && item !in st.bInfo.vals ==> st'.bInfo == st.bInfo
    ensures forall p | p in st.bInfo.vals && p != item && p != dest ::
              p in st'.bInfo.vals && st'.bInfo.vals[p] == st.bInfo.vals[p]
    ensures forall p | p in st'.bInfo.vals ::
              (p in st.bInfo.vals && st'.bInfo.vals[p] == st.bInfo.vals[p]) || st'.bInfo.vals[p].renamed
    ensures |st'.bImages| == |st.bImages| && |fs'| == |fs|
    ensures Coherent(st, fs) ==> Coherent(st', fs') && |st'.bInfo.vals.Keys| == |st.bInfo.vals.Keys|
    ensures Coherent(st, fs) ==> KeepsOriginalNames(st.bInfo, st'.bInfo)
  {
    var k;
    dest, k := FindVacant(fs, item, item.dir, target, Stem(target), Suffix(target));
    st', fs' := st, fs;
    if dest == item {
      outcome := Skipped;
      return;
    }
    var moved := Rename(fs, locked, item, dest);
    if moved.None? {
      outcome := Failed;
      return;
    }
    fs' := moved.value;
    outcome := Renamed(dest);
    if item in st.bInfo.vals {
      var info := RenamedInfo(st.bInfo.vals[item], item, dest, claim);
      st' := Rekey(st, item, dest, info);
      RekeyRenamedFrame(st, item, dest, info);
      if Coherent(st, fs) {
        RekeyCoherent(st, fs, item, dest, info);
        RekeyOriginalNames(st, fs, item, dest, info);
      }
    } else {
      st' := st.(bImages := ReplaceFirst(st.bImages, item, dest), bTexts := MoveText(st.bTexts, item, dest));
    }
  }

  /** Moving a record that is marked renamed leaves every other record as
      it was. */
  lemma RekeyRenamedFrame(st: State, src: Path, dst: Path, info: BInfo)
    requires src in st.bInfo.vals && info.renamed
    ensures var r := Rekey(st, src, dst, info);
      && (forall p | p in st.bInfo.vals && p != src && p != dst :: p in r.bInfo.vals && r.bInfo.vals[p] == st.bInfo.vals[p])
      && (forall p | p in r.bInfo.vals :: (p in st.bInfo.vals && r.bInfo.vals[p] == st.bInfo.vals[p]) || r.bInfo.vals[p].renamed)
  {
  }

  // ---------------------------------------------------------------------
  // The batch
  // ---------------------------------------------------------------------

  /** `p` is matched and not yet renamed: the batch will rename it. */
  predicate IsPending(d: BInfos, p: Path) {
    p in d.vals && d.vals[p].matched && !d.vals[p].renamed
  }

  function PendingIn(ks: seq<Path>, vals: map<Path, BInfo>): (r: seq<Path>)
    requires forall k | k in ks :: k in vals
    ensures forall p :: p in r <==> p in ks && vals[p].matched && !vals[p].renamed
    ensures NoDuplicates(ks) ==> NoDuplicates(r)
  {
    if |ks| == 0 then []
    else
      var last := ks[|ks| - 1];
      var rest := PendingIn(ks[..|ks| - 1], vals);
      assert NoDuplicates(ks) ==> last !in ks[..|ks| - 1];
      if vals[last].matched && !vals[last].renamed then rest + [last] else rest
  }

  /** The images the batch works on, in dictionary order: exactly the
      records that are matched and not yet renamed. */
  function Pending(d: BInfos): (r: seq<Path>)
    ensures forall p :: p in r <==> IsPending(d, p)
    ensures NoDuplicates(r)
  {
    PendingIn(d.order, d.vals)
  }

  /** The name the batch renames a pending image to: the target name its
      record holds, or its own name if none. */
  function TargetOf(d: BInfos, p: Path): string
    requires p in d.vals
  {
    d.vals[p].newName.GetOr(p.name)
  }

  function CountOf(outcomes: seq<Outcome>, renamed: bool): nat {
    if |outcomes| == 0 then 0
    else
      var o := outcomes[|outcomes| - 1];
      CountOf(outcomes[..|outcomes| - 1], renamed) + (if (renamed && o.Renamed?) || (!renamed && o.Failed?) then 1 else 0)
  }

  lemma {:induction false} CountsBounded(outcomes: seq<Outcome>)
    ensures CountOf(outcomes, true) + CountOf(outcomes, false) <= |outcomes|
    ensures (forall i :: 0 <= i < |outcomes| ==> outcomes[i] == Skipped) ==> CountOf(outcomes, true) + CountOf(outcomes, false) == 0
  {
    if |outcomes| > 0 {
      CountsBounded(outcomes[..|outcomes| - 1]);
    }
  }

  /** One image: the eviction sweep for its target name, then the rename,
      recording `claim` as the image's reference when there is one (the
      batch passes none, a manual confirmation its reference). A pending
      image whose file exists is renamed unless the free name is its own
      (skipped) or the operating system refuses the move (failed); its
      record moves with it and stays matched, the other pending images keep
      their records, and no record becomes pending. */
  method RenameOne(st: State, fs: Fs, locked: set<Path>, token: string, item: Path, target: string, claim: Option<Path>)
    returns (st': State, fs': Fs, outcome: Outcome, moves: seq<Move>)
    ensures outcome.Renamed? ==>
              exists k :: outcome.dest == Candidate(item.dir, target, Stem(target), Suffix(target), k)
    ensures Carries(st, st', moves)
    ensures forall m | m in moves ::
              || (outcome.Renamed? && m.src == item)
              || (m.src in st.bInfo.vals && Evicts(st.bInfo.vals[m.src], m.src, item, target))
    ensures outcome.Renamed? ==> |moves| > 0 && moves[|moves| - 1] == Move(item, outcome.dest)
    ensures forall p | IsPending(st'.bInfo, p) :: p in st.bInfo.vals && st'.bInfo.vals[p] == st.bInfo.vals[p]
    ensures Coherent(st, fs) && IsPending(st.bInfo, item) ==>
              && (outcome.Failed? ==> item in locked)
              && (outcome.Renamed? <==> !IsPending(st'.bInfo, item))
              && (forall p | p != item && IsPending(st.bInfo, p) ::
                    p in st'.bInfo.vals && st'.bInfo.vals[p] == st.bInfo.vals[p])
    ensures outcome.Renamed? ==> outcome.dest in fs'
    ensures outcome.Renamed? && Coherent(st, fs) && item in st.bInfo.vals ==>
              outcome.dest in st'.bInfo.vals
              && st'.bInfo.vals[outcome.dest] == RenamedInfo(st.bInfo.vals[item], item, outcome.dest, claim)
    ensures Coherent(st, fs) && item in st.bInfo.vals ==>
              && (outcome.Renamed? ==> TextMoved(st.bTexts, item, st'.bTexts, outcome.dest))
              && (!outcome.Renamed? ==> EntryKept(st, st', item))
    ensures Coherent(st, fs) ==>
              forall p | p in st.bInfo.vals && (p != item || !outcome.Renamed?)
                         && !Evicts(st.bInfo.vals[p], p, item, target) ::
                p in st'.bInfo.vals && st'.bInfo.vals[p] == st.bInfo.vals[p]
    ensures Coherent(st, fs) ==>
              forall p | p in st.bInfo.vals && (p != item || !outcome.Renamed?)
                         && !Evicts(st.bInfo.vals[p], p, item, target) ::
                EntryKept(st, st', p)
    ensures st'.aImages == st.aImages && st'.aTexts == st.aTexts && st'.aInfo == st.aInfo
    ensures |st'.bImages| == |st.bImages| && |fs'| == |fs|
    ensures Coherent(st, fs) ==> Coherent(st', fs') && |st'.bInfo.vals.Keys| == |st.bInfo.vals.Keys|
    ensures Coherent(st, fs) ==> KeepsOriginalNames(st.bInfo, st'.bInfo)
  {
    var swept, fs1, evicted := EvictHolders(st, fs, locked, token, item, target);
    var dest;
    st', fs', dest, outcome := RenameInPlace(swept, fs1, locked, item, target, claim);
    moves := if outcome.Renamed? then evicted + [Move(item, dest)] else evicted;
    SweepThenMove(st, fs, item, target, swept, fs1, evicted, st', dest, outcome.Renamed?, moves);
    forall p | IsPending(st'.bInfo, p)
      ensures p in st.bInfo.vals && st'.bInfo.vals[p] == st.bInfo.vals[p]
    {
      assert StillOrReleased(st.bInfo, swept.bInfo, p);
    }
    if Coherent(st, fs) && item in st.bInfo.vals {
      assert !Evicts(st.bInfo.vals[item], item, item, target);
      assert swept.bInfo.vals[item] == st.bInfo.vals[item];
      forall p | p != item && IsPending(st.bInfo, p)
        ensures p in st'.bInfo.vals && st'.bInfo.vals[p] == st.bInfo.vals[p]
      {
        assert p in swept.bInfo.vals && swept.bInfo.vals[p] == st.bInfo.vals[p];
        assert p in fs1;
      }
    }
    if Coherent(st, fs) {
      forall p | p in st.bInfo.vals && (p != item || !outcome.Renamed?) && !Evicts(st.bInfo.vals[p], p, item, target)
        ensures p in st'.bInfo.vals && st'.bInfo.vals[p] == st.bInfo.vals[p]
      {
        assert p in swept.bInfo.vals && swept.bInfo.vals[p] == st.bInfo.vals[p];
        assert p in fs1;
      }
    }
  }

  /** The list and text side of a sweep followed by the move of `item` to
      `dest` (when `renamed`): the moves carry group B's list and texts,
      each moves `item` or a holder of the target name, `item`'s text goes
      to `dest`, and every record that is not a holder keeps its list
      entries and its text, `item`'s own unless it moved. */
  lemma SweepThenMove(st: State, fs: Fs, item: Path, target: string, swept: State, fs1: Fs, evicted: seq<Move>,
                      st': State, dest: Path, renamed: bool, moves: seq<Move>)
    requires SweepMoves(st, item, target, swept, evicted)
    requires Coherent(st, fs) ==> SweepFrame(st, fs, item, target, swept, fs1)
    requires renamed ==>
               && dest !in fs1
               && st'.bImages == ReplaceFirst(swept.bImages, item, dest)
               && st'.bTexts == MoveText(swept.bTexts, item, dest)
    requires !renamed ==> st'.bImages == swept.bImages && st'.bTexts == swept.bTexts
    requires moves == if renamed then evicted + [Move(item, dest)] else evicted
    ensures Carries(st, st', moves)
    ensures forall m | m in moves ::
              || (renamed && m.src == item)
              || (m.src in st.bInfo.vals && Evicts(st.bInfo.vals[m.src], m.src, item, target))
    ensures renamed ==> |moves| > 0 && moves[|moves| - 1] == Move(item, dest)
    ensures Coherent(st, fs) && item in st.bInfo.vals ==>
              && (renamed ==> TextMoved(st.bTexts, item, st'.bTexts, dest))
              && (!renamed ==> EntryKept(st, st', item))
    ensures Coherent(st, fs) ==>
              forall p | p in st.bInfo.vals && (p != item || !renamed) && !Evicts(st.bInfo.vals[p], p, item, target) ::
                EntryKept(st, st', p)
  {
    if renamed {
      CarriesOne(swept, st', item, dest);
      CarriesThen(st, swept, st', evicted, [Move(item, dest)]);
      forall m | m in moves
        ensures m.src == item || (m.src in st.bInfo.vals && Evicts(st.bInfo.vals[m.src], m.src, item, target))
      {
        if m !in evicted {
          assert m == Move(item, dest);
        }
      }
    } else {
      assert Carries(swept, st', []);
      assert evicted + [] == evicted;
      CarriesThen(st, swept, st', evicted, []);
    }
    if Coherent(st, fs) {
      forall p | p in st.bInfo.vals && (p != item || !renamed) && !Evicts(st.bInfo.vals[p], p, item, target)
        ensures EntryKept(st, st', p)
      {
        if renamed {
          assert p in fs1;
          EntryKeptThen(st, swept, st', p);
        }
      }
      if item in st.bInfo.vals && renamed {
        assert !Evicts(st.bInfo.vals[item], item, item, target);
        assert EntryKept(st, swept, item);
      }
    }
  }

  /** Some pending image among positions `lo` to `hi - 1` of the batch has
      the target name `name`. */
  ghost predicate TargetAmong(d0: BInfos, pending: seq<Path>, lo: nat, hi: nat, name: string)
    requires pending == Pending(d0) && hi <= |pending|
  {
    exists m | lo <= m < hi :: TargetOf(d0, pending[m]) == name
  }

  lemma TargetAmongWiden(d0: BInfos, pending: seq<Path>, lo: nat, hi: nat, name: string)
    requires pending == Pending(d0) && hi < |pending|
    ensures TargetAmong(d0, pending, lo, hi, name) ==> TargetAmong(d0, pending, lo, hi + 1, name)
    ensures lo <= hi && TargetOf(d0, pending[hi]) == name ==> TargetAmong(d0, pending, lo, hi + 1, name)
  {
    if TargetAmong(d0, pending, lo, hi, name) {
      var m :| lo <= m < hi && TargetOf(d0, pending[m]) == name;
      assert lo <= m < hi + 1;
    }
  }

  /** Each image renamed among the first `i` still has its record at its
      new path, matched as before, unless a later image of the batch has
      the same target name and so may have evicted it. */
  ghost predicate RenamedKept(d0: BInfos, d: BInfos, pending: seq<Path>, i: nat, outcomes: seq<Outcome>)
    requires pending == Pending(d0) && i <= |pending| && |outcomes| == i
  {
    forall k | 0 <= k < i && outcomes[k].Renamed? ::
      || (outcomes[k].dest in d.vals
          && d.vals[outcomes[k].dest] == RenamedInfo(d0.vals[pending[k]], pending[k], outcomes[k].dest, None))
      || TargetAmong(d0, pending, k + 1, i, outcomes[k].dest.name)
  }

  /** A record that was not pending and does not hold the target name of
      one of the first `i` images is untouched. */
  ghost predicate OthersKept(d0: BInfos, d: BInfos, pending: seq<Path>, i: nat)
    requires pending == Pending(d0) && i <= |pending|
  {
    forall p | p in d0.vals && !IsPending(d0, p) && !(d0.vals[p].renamed && TargetAmong(d0, pending, 0, i, p.name)) ::
      p in d.vals && d.vals[p] == d0.vals[p]
  }

  /** One image of the batch keeps `RenamedKept` and `OthersKept`. */
  lemma FrameStep(d0: BInfos, prev: BInfos, next: BInfos, pending: seq<Path>, i: nat,
                  outcomes: seq<Outcome>, outcome: Outcome)
    requires pending == Pending(d0) && i < |pending| && |outcomes| == i
    requires RenamedKept(d0, prev, pending, i, outcomes) && OthersKept(d0, prev, pending, i)
    requires pending[i] in prev.vals && prev.vals[pending[i]] == d0.vals[pending[i]]
    requires forall p | p in prev.vals && p != pending[i] && !Evicts(prev.vals[p], p, pending[i], TargetOf(d0, pending[i])) ::
               p in next.vals && next.vals[p] == prev.vals[p]
    requires outcome.Renamed? ==>
               outcome.dest in next.vals
               && next.vals[outcome.dest] == RenamedInfo(prev.vals[pending[i]], pending[i], outcome.dest, None)
    ensures RenamedKept(d0, next, pending, i + 1, outcomes + [outcome])
    ensures OthersKept(d0, next, pending, i + 1)
  {
    var all := outcomes + [outcome];
    var target := TargetOf(d0, pending[i]);
    assert IsPending(d0, pending[i]);
    forall k | 0 <= k < i + 1 && all[k].Renamed?
      ensures || (all[k].dest in next.vals
                  && next.vals[all[k].dest] == RenamedInfo(d0.vals[pending[k]], pending[k], all[k].dest, None))
              || TargetAmong(d0, pending, k + 1, i + 1, all[k].dest.name)
    {
      if k < i {
        assert all[k] == outcomes[k];
        var dest := all[k].dest;
        TargetAmongWiden(d0, pending, k + 1, i, dest.name);
        if !TargetAmong(d0, pending, k + 1, i + 1, dest.name) {
          assert !Evicts(prev.vals[dest], dest, pending[i], target);
        }
      }
    }
    forall p | p in d0.vals && !IsPending(d0, p) && !(d0.vals[p].renamed && TargetAmong(d0, pending, 0, i + 1, p.name))
      ensures p in next.vals && next.vals[p] == d0.vals[p]
    {
      TargetAmongWiden(d0, pending, 0, i, p.name);
    }
  }

  /** Group B's list entries and texts after the first `i` images of the
      batch, seen from `st0`, where the batch started: every image not yet
      reached keeps its entries and its text, and so does every image not
      renamed and every record neither pending nor holding the target name
      of one of those images; the text of a renamed image is under its new
      path, unless a later image with the same target name may have evicted
      it. */
  ghost predicate EntriesFollow(st0: State, st: State, pending: seq<Path>, i: nat, outcomes: seq<Outcome>)
    requires pending == Pending(st0.bInfo) && i <= |pending| && |outcomes| == i
  {
    && (forall m | i <= m < |pending| :: EntryKept(st0, st, pending[m]))
    && DoneEntries(st0, st, pending, i, outcomes)
    && OtherEntries(st0, st, pending, i)
  }

  /** The images reached so far: the entries of one not renamed are kept,
      the text of a renamed one is under its new path unless a later image
      with the same target name may have evicted it. */
  ghost predicate DoneEntries(st0: State, st: State, pending: seq<Path>, i: nat, outcomes: seq<Outcome>)
    requires pending == Pending(st0.bInfo) && i <= |pending| && |outcomes| == i
  {
    && (forall k | 0 <= k < i && !outcomes[k].Renamed? :: EntryKept(st0, st, pending[k]))
    && (forall k | 0 <= k < i && outcomes[k].Renamed? ::
          || TextMoved(st0.bTexts, pending[k], st.bTexts, outcomes[k].dest)
          || TargetAmong(st0.bInfo, pending, k + 1, i, outcomes[k].dest.name))
  }

  /** A record neither pending nor holding the target name of one of the
      first `i` images keeps its entries and its text. */
  ghost predicate OtherEntries(st0: State, st: State, pending: seq<Path>, i: nat)
    requires pending == Pending(st0.bInfo) && i <= |pending|
  {
    var d0 := st0.bInfo;
    forall p | p in d0.vals && !IsPending(d0, p) && !(d0.vals[p].renamed && TargetAmong(d0, pending, 0, i, p.name)) ::
      EntryKept(st0, st, p)
  }

  /** Reordering group B's list, before or after, keeps `EntriesFollow`. */
  lemma EntriesReordered(st0: State, st0': State, st: State, st': State, pending: seq<Path>, i: nat, outcomes: seq<Outcome>)
    requires pending == Pending(st0.bInfo) && i <= |pending| && |outcomes| == i
    requires EntriesFollow(st0, st, pending, i, outcomes)
    requires st0'.bInfo == st0.bInfo && multiset(st0'.bImages) == multiset(st0.bImages) && st0'.bTexts == st0.bTexts
    requires multiset(st'.bImages) == multiset(st.bImages) && st'.bTexts == st.bTexts
    ensures EntriesFollow(st0', st', pending, i, outcomes)
  {
  }

  /** One image of the batch keeps `EntriesFollow`. */
  lemma EntriesStep(st0: State, prev: State, next: State, pending: seq<Path>, i: nat,
                    outcomes: seq<Outcome>, outcome: Outcome)
    requires pending == Pending(st0.bInfo) && i < |pending| && |outcomes| == i
    requires EntriesFollow(st0, prev, pending, i, outcomes)
    requires RenamedKept(st0.bInfo, prev.bInfo, pending, i, outcomes) && OthersKept(st0.bInfo, prev.bInfo, pending, i)
    requires forall m | i <= m < |pending| :: pending[m] in prev.bInfo.vals && prev.bInfo.vals[pending[m]] == st0.bInfo.vals[pending[m]]
    requires forall k | 0 <= k < i :: outcomes[k].Renamed? <==> !IsPending(prev.bInfo, pending[k])
    requires forall p | IsPending(prev.bInfo, p) :: p in st0.bInfo.vals && prev.bInfo.vals[p] == st0.bInfo.vals[p]
    requires forall p | p in prev.bInfo.vals && p != pending[i]
                        && !Evicts(prev.bInfo.vals[p], p, pending[i], TargetOf(st0.bInfo, pending[i])) ::
               EntryKept(prev, next, p)
    requires outcome.Renamed? ==> TextMoved(prev.bTexts, pending[i], next.bTexts, outcome.dest)
    requires !outcome.Renamed? ==> EntryKept(prev, next, pending[i])
    ensures EntriesFollow(st0, next, pending, i + 1, outcomes + [outcome])
  {
    var d0 := st0.bInfo;
    var item := pending[i];
    forall m | i + 1 <= m < |pending|
      ensures EntryKept(st0, next, pending[m])
    {
      assert IsPending(d0, pending[m]);
      assert pending[m] != item;
      EntryKeptThen(st0, prev, next, pending[m]);
    }
    DoneEntriesStep(st0, prev, next, pending, i, outcomes, outcome);
    OtherEntriesStep(st0, prev, next, pending, i);
  }

  /** One image of the batch keeps `DoneEntries`. */
  lemma DoneEntriesStep(st0: State, prev: State, next: State, pending: seq<Path>, i: nat,
                        outcomes: seq<Outcome>, outcome: Outcome)
    requires pending == Pending(st0.bInfo) && i < |pending| && |outcomes| == i
    requires DoneEntries(st0, prev, pending, i, outcomes) && EntryKept(st0, prev, pending[i])
    requires RenamedKept(st0.bInfo, prev.bInfo, pending, i, outcomes)
    requires forall m | i <= m < |pending| :: pending[m] in prev.bInfo.vals && prev.bInfo.vals[pending[m]] == st0.bInfo.vals[pending[m]]
    requires forall k | 0 <= k < i :: outcomes[k].Renamed? <==> !IsPending(prev.bInfo, pending[k])
    requires forall p | IsPending(prev.bInfo, p) :: p in st0.bInfo.vals && prev.bInfo.vals[p] == st0.bInfo.vals[p]
    requires forall p | p in prev.bInfo.vals && p != pending[i]
                        && !Evicts(prev.bInfo.vals[p], p, pending[i], TargetOf(st0.bInfo, pending[i])) ::
               EntryKept(prev, next, p)
    requires outcome.Renamed? ==> TextMoved(prev.bTexts, pending[i], next.bTexts, outcome.dest)
    requires !outcome.Renamed? ==> EntryKept(prev, next, pending[i])
    ensures DoneEntries(st0, next, pending, i + 1, outcomes + [outcome])
  {
    var d0 := st0.bInfo;
    var all := outcomes + [outcome];
    var item := pending[i];
    var target := TargetOf(d0, item);
    assert IsPending(d0, item);
    forall k | 0 <= k < i + 1 && !all[k].Renamed?
      ensures EntryKept(st0, next, pending[k])
    {
      if k < i {
        assert all[k] == outcomes[k];
        assert IsPending(prev.bInfo, pending[k]);
        assert pending[k] != item;
      }
      EntryKeptThen(st0, prev, next, pending[k]);
    }
    forall k | 0 <= k < i + 1 && all[k].Renamed?
      ensures || TextMoved(st0.bTexts, pending[k], next.bTexts, all[k].dest)
              || TargetAmong(d0, pending, k + 1, i + 1, all[k].dest.name)
    {
      if k < i {
        assert all[k] == outcomes[k];
        var dest := all[k].dest;
        TargetAmongWiden(d0, pending, k + 1, i, dest.name);
        if !TargetAmong(d0, pending, k + 1, i + 1, dest.name) {
          assert dest in prev.bInfo.vals && prev.bInfo.vals[dest].renamed;
          assert !Evicts(prev.bInfo.vals[dest], dest, item, target);
          assert EntryKept(prev, next, dest);
        }
      }
    }
  }

  /** One image of the batch keeps `OtherEntries`. */
  lemma OtherEntriesStep(st0: State, prev: State, next: State, pending: seq<Path>, i: nat)
    requires pending == Pending(st0.bInfo) && i < |pending|
    requires OtherEntries(st0, prev, pending, i) && OthersKept(st0.bInfo, prev.bInfo, pending, i)
    requires forall p | p in prev.bInfo.vals && p != pending[i]
                        && !Evicts(prev.bInfo.vals[p], p, pending[i], TargetOf(st0.bInfo, pending[i])) ::
               EntryKept(prev, next, p)
    ensures OtherEntries(st0, next, pending, i + 1)
  {
    var d0 := st0.bInfo;
    assert IsPending(d0, pending[i]);
    forall p | p in d0.vals && !IsPending(d0, p) && !(d0.vals[p].renamed && TargetAmong(d0, pending, 0, i + 1, p.name))
      ensures EntryKept(st0, next, p)
    {
      TargetAmongWiden(d0, pending, 0, i, p.name);
      assert p in prev.bInfo.vals && prev.bInfo.vals[p] == d0.vals[p];
      EntryKeptThen(st0, prev, next, p);
    }
  }

  /** What the batch has established after its first `i` images. */
  ghost predicate BatchSoFar(d0: BInfos, d: BInfos, coherent: bool, pending: seq<Path>, i: nat,
                             outcomes: seq<Outcome>, locked: set<Path>)
    requires pending == Pending(d0) && i <= |pending| && |outcomes| == i
  {
    && (forall k | 0 <= k < i && outcomes[k].Renamed? ::
          pending[k] in d0.vals &&
          exists c :: outcomes[k].dest == Candidate(pending[k].dir, TargetOf(d0, pending[k]),
                        Stem(TargetOf(d0, pending[k])), Suffix(TargetOf(d0, pending[k])), c))
    && (forall p | IsPending(d, p) :: p in d0.vals && d.vals[p] == d0.vals[p])
    && (coherent ==>
          && (forall m | i <= m < |pending| :: pending[m] in d.vals && d.vals[pending[m]] == d0.vals[pending[m]])
          && (forall k | 0 <= k < i ::
                && (outcomes[k].Renamed? <==> !IsPending(d, pending[k]))
                && (outcomes[k].Failed? ==> pending[k] in locked))
          && RenamedKept(d0, d, pending, i, outcomes)
          && OthersKept(d0, d, pending, i))
  }

  /** The loop of `apply_matched_renames`. Each pending image is renamed,
      in dictionary order, to the target name its record held when the
      batch started; a failure is counted and the batch goes on. */
  method RenamePending(st: State, fs: Fs, locked: set<Path>, token: string)
    returns (st': State, fs': Fs, outcomes: seq<Outcome>, successCount: nat, errorCount: nat, moves: seq<Move>)
    ensures |outcomes| == |Pending(st.bInfo)|
    ensures successCount == CountOf(outcomes, true) && errorCount == CountOf(outcomes, false)
    ensures successCount + errorCount <= |outcomes|
    ensures |Pending(st.bInfo)| == 0 ==> st' == st && fs' == fs
    ensures forall k | 0 <= k < |outcomes| && outcomes[k].Renamed? ::
              var p := Pending(st.bInfo)[k];
              exists c :: outcomes[k].dest == Candidate(p.dir, TargetOf(st.bInfo, p), Stem(TargetOf(st.bInfo, p)), Suffix(TargetOf(st.bInfo, p)), c)
    ensures forall p | IsPending(st'.bInfo, p) :: p in st.bInfo.vals && st'.bInfo.vals[p] == st.bInfo.vals[p]
    ensures Coherent(st, fs) ==>
              forall k | 0 <= k < |outcomes| ::
                && (outcomes[k].Renamed? <==> !IsPending(st'.bInfo, Pending(st.bInfo)[k]))
                && (outcomes[k].Failed? ==> Pending(st.bInfo)[k] in locked)
    ensures Coherent(st, fs) ==>
              && RenamedKept(st.bInfo, st'.bInfo, Pending(st.bInfo), |outcomes|, outcomes)
              && OthersKept(st.bInfo, st'.bInfo, Pending(st.bInfo), |outcomes|)
    ensures Carries(st, st', moves)
    ensures Coherent(st, fs) ==> EntriesFollow(st, st', Pending(st.bInfo), |outcomes|, outcomes)
    ensures st'.aImages == st.aImages && st'.aTexts == st.aTexts && st'.aInfo == st.aInfo
    ensures |st'.bImages| == |st.bImages| && |fs'| == |fs|
    ensures Coherent(st, fs) ==> Coherent(st', fs') && |st'.bInfo.vals.Keys| == |st.bInfo.vals.Keys|
    ensures Coherent(st, fs) ==> KeepsOriginalNames(st.bInfo, st'.bInfo)
  {
    var pending := Pending(st.bInfo);
    ghost var coherent := Coherent(st, fs);
    BatchStart(st, fs, coherent, locked);
    st', fs', outcomes, moves := RenameFrom(st, fs, coherent, pending, 0, [], [], st, fs, locked, token);
    successCount, errorCount := CountOf(outcomes, true), CountOf(outcomes, false);
    BatchDone(st, fs, coherent, locked, pending, outcomes, moves, st', fs');
    CountsBounded(outcomes);
  }

  /** Everything the batch keeps track of after its first `i` images,
      started from `st0` and the file system `fs0`: the bookkeeping of
      `BatchSoFar`, the moves made so far, group A untouched and, when
      every record's file exists, the records' files, the original names
      and the texts and list entries of `EntriesFollow`. */
  ghost predicate BatchState(st0: State, fs0: Fs, coherent: bool, locked: set<Path>, pending: seq<Path>, i: nat,
                             outcomes: seq<Outcome>, moves: seq<Move>, st: State, fs: Fs)
    requires pending == Pending(st0.bInfo) && i <= |pending| && |outcomes| == i
  {
    && BatchSoFar(st0.bInfo, st.bInfo, coherent, pending, i, outcomes, locked)
    && Carries(st0, st, moves)
    && st.aImages == st0.aImages && st.aTexts == st0.aTexts && st.aInfo == st0.aInfo
    && |st.bImages| == |st0.bImages| && |fs| == |fs0|
    && (coherent ==>
          && Coherent(st, fs) && |st.bInfo.vals.Keys| == |st0.bInfo.vals.Keys|
          && KeepsOriginalNames(st0.bInfo, st.bInfo)
          && EntriesFollow(st0, st, pending, i, outcomes))
  }

  /** Before the first image, the batch's bookkeeping holds. */
  lemma BatchStart(st0: State, fs0: Fs, coherent: bool, locked: set<Path>)
    requires coherent ==> Coherent(st0, fs0)
    ensures BatchState(st0, fs0, coherent, locked, Pending(st0.bInfo), 0, [], [], st0, fs0)
  {
  }

  /** The batch from the `i`-th pending image of `st0` on, one image at a
      time through `RenameNext`; `done` and `sofar` are the outcomes and the
      moves of the images before it, and `outcomes` and `moves` those of the
      whole batch. */
  method RenameFrom(st0: State, ghost fs0: Fs, ghost coherent: bool, pending: seq<Path>, i: nat,
                    done: seq<Outcome>, sofar: seq<Move>, st: State, fs: Fs, locked: set<Path>, token: string)
    returns (st': State, fs': Fs, outcomes: seq<Outcome>, moves: seq<Move>)
    requires pending == Pending(st0.bInfo) && i <= |pending| && |done| == i
    requires BatchState(st0, fs0, coherent, locked, pending, i, done, sofar, st, fs)
    ensures |outcomes| == |pending|
    ensures i == |pending| ==> st' == st && fs' == fs && outcomes == done && moves == sofar
    ensures BatchState(st0, fs0, coherent, locked, pending, |pending|, outcomes, moves, st', fs')
    decreases |pending| - i
  {
    if i == |pending| {
      return st, fs, done, sofar;
    }
    var mid, midFs, outcome, step := RenameNext(st0, fs0, coherent, pending, i, done, sofar, st, fs, locked, token);
    st', fs', outcomes, moves := RenameFrom(st0, fs0, coherent, pending, i + 1, done + [outcome], sofar + step, mid, midFs, locked, token);
  }

  /** The bundled facts of a finished batch, taken apart. */
  lemma BatchDone(st0: State, fs0: Fs, coherent: bool, locked: set<Path>, pending: seq<Path>,
                  outcomes: seq<Outcome>, moves: seq<Move>, st: State, fs: Fs)
    requires pending == Pending(st0.bInfo) && |outcomes| == |pending|
    requires BatchState(st0, fs0, coherent, locked, pending, |pending|, outcomes, moves, st, fs)
    ensures forall k | 0 <= k < |outcomes| && outcomes[k].Renamed? ::
              var p := pending[k];
              exists c :: outcomes[k].dest == Candidate(p.dir, TargetOf(st0.bInfo, p), Stem(TargetOf(st0.bInfo, p)), Suffix(TargetOf(st0.bInfo, p)), c)
    ensures forall p | IsPending(st.bInfo, p) :: p in st0.bInfo.vals && st.bInfo.vals[p] == st0.bInfo.vals[p]
    ensures coherent ==>
              forall k | 0 <= k < |outcomes| ::
                && (outcomes[k].Renamed? <==> !IsPending(st.bInfo, pending[k]))
                && (outcomes[k].Failed? ==> pending[k] in locked)
    ensures coherent ==> RenamedKept(st0.bInfo, st.bInfo, pending, |pending|, outcomes) && OthersKept(st0.bInfo, st.bInfo, pending, |pending|)
    ensures Carries(st0, st, moves)
    ensures st.aImages == st0.aImages && st.aTexts == st0.aTexts && st.aInfo == st0.aInfo
    ensures |st.bImages| == |st0.bImages| && |fs| == |fs0|
    ensures coherent ==>
              && Coherent(st, fs) && |st.bInfo.vals.Keys| == |st0.bInfo.vals.Keys|
              && KeepsOriginalNames(st0.bInfo, st.bInfo)
              && EntriesFollow(st0, st, pending, |pending|, outcomes)
  {
  }

  /** The `i`-th image of the batch. */
  method RenameNext(st0: State, ghost fs0: Fs, ghost coherent: bool, pending: seq<Path>, i: nat,
                    done: seq<Outcome>, sofar: seq<Move>, st: State, fs: Fs, locked: set<Path>, token: string)
    returns (st': State, fs': Fs, outcome: Outcome, step: seq<Move>)
    requires pending == Pending(st0.bInfo) && i < |pending| && |done| == i
    requires BatchState(st0, fs0, coherent, locked, pending, i, done, sofar, st, fs)
    ensures BatchState(st0, fs0, coherent, locked, pending, i + 1, done + [outcome], sofar + step, st', fs')
  {
    var d0 := st0.bInfo;
    var item := pending[i];
    assert IsPending(d0, item);
    var target := TargetOf(d0, item);
    st', fs', outcome, step := RenameOne(st, fs, locked, token, item, target, None);
    CarriesThen(st0, st, st', sofar, step);
    if coherent {
      BatchStep(d0, st.bInfo, st'.bInfo, pending, i, done, outcome, locked);
      FrameStep(d0, st.bInfo, st'.bInfo, pending, i, done, outcome);
      EntriesStep(st0, st, st', pending, i, done, outcome);
    }
    var all := done + [outcome];
    forall k | 0 <= k < i + 1 && all[k].Renamed?
      ensures pending[k] in d0.vals &&
              exists c :: all[k].dest == Candidate(pending[k].dir, TargetOf(d0, pending[k]),
                            Stem(TargetOf(d0, pending[k])), Suffix(TargetOf(d0, pending[k])), c)
    {
      if k < i {
        assert all[k] == done[k];
      }
    }
    forall p | IsPending(st'.bInfo, p)
      ensures p in d0.vals && st'.bInfo.vals[p] == d0.vals[p]
    {
      assert IsPending(st.bInfo, p);
    }
  }

  /** One image of the batch keeps the batch's bookkeeping: the images not
      reached yet keep their records, and each image reached so far is no
      longer pending exactly when it was renamed. */
  lemma BatchStep(d0: BInfos, prev: BInfos, next: BInfos, pending: seq<Path>, i: nat,
                  outcomes: seq<Outcome>, outcome: Outcome, locked: set<Path>)
    requires pending == Pending(d0) && i < |pending| && |outcomes| == i
    requires forall m | i <= m < |pending| :: pending[m] in prev.vals && prev.vals[pending[m]] == d0.vals[pending[m]]
    requires forall k | 0 <= k < i ::
               && (outcomes[k].Renamed? <==> !IsPending(prev, pending[k]))
               && (outcomes[k].Failed? ==> pending[k] in locked)
    requires forall p | IsPending(next, p) :: p in prev.vals && next.vals[p] == prev.vals[p]
    requires IsPending(prev, pending[i]) ==>
               && (outcome.Failed? ==> pending[i] in locked)
               && (outcome.Renamed? <==> !IsPending(next, pending[i]))
               && (forall p | p != pending[i] && IsPending(prev, p) ::
                     p in next.vals && next.vals[p] == prev.vals[p])
    ensures forall m | i + 1 <= m < |pending| :: pending[m] in next.vals && next.vals[pending[m]] == d0.vals[pending[m]]
    ensures var all := outcomes + [outcome];
            forall k | 0 <= k < i + 1 ::
              && (all[k].Renamed? <==> !IsPending(next, pending[k]))
              && (all[k].Failed? ==> pending[k] in locked)
  {
    assert IsPending(d0, pending[i]);
    assert IsPending(prev, pending[i]);
    forall m | i + 1 <= m < |pending|
      ensures pending[m] in next.vals && next.vals[pending[m]] == d0.vals[pending[m]]
    {
      assert IsPending(d0, pending[m]);
      assert pending[m] != pending[i];
    }
    var all := outcomes + [outcome];
    forall k | 0 <= k < i
      ensures all[k].Renamed? <==> !IsPending(next, pending[k])
    {
      assert all[k] == outcomes[k];
      assert pending[k] != pending[i];
    }
  }

  /** `apply_matched_renames`: nothing happens when no image is pending;
      otherwise the pending images are renamed and both tables are
      refreshed, which puts both groups back in display order. */
  method ApplyMatchedRenames(st: State, fs: Fs, locked: set<Path>, token: string, ranks: map<Path, nat>)
    returns (st': State, fs': Fs, outcomes: seq<Outcome>, successCount: nat, errorCount: nat, moves: seq<Move>)
    ensures |outcomes| == |Pending(st.bInfo)|
    ensures successCount == CountOf(outcomes, true) && errorCount == CountOf(outcomes, false)
    ensures successCount + errorCount <= |outcomes|
    ensures |Pending(st.bInfo)| == 0 ==> st' == st && fs' == fs
    ensures |Pending(st.bInfo)| > 0 ==> ArrangedA(st') && ArrangedB(st', ranks)
    ensures forall k | 0 <= k < |outcomes| && outcomes[k].Renamed? ::
              var p := Pending(st.bInfo)[k];
              exists c :: outcomes[k].dest == Candidate(p.dir, TargetOf(st.bInfo, p), Stem(TargetOf(st.bInfo, p)), Suffix(TargetOf(st.bInfo, p)), c)
    ensures forall p | IsPending(st'.bInfo, p) :: p in st.bInfo.vals && st'.bInfo.vals[p] == st.bInfo.vals[p]
    ensures Coherent(st, fs) ==>
              forall k | 0 <= k < |outcomes| ::
                && (outcomes[k].Renamed? <==> !IsPending(st'.bInfo, Pending(st.bInfo)[k]))
                && (outcomes[k].Failed? ==> Pending(st.bInfo)[k] in locked)
    ensures Coherent(st, fs) ==>
              && RenamedKept(st.bInfo, st'.bInfo, Pending(st.bInfo), |outcomes|, outcomes)
              && OthersKept(st.bInfo, st'.bInfo, Pending(st.bInfo), |outcomes|)
    ensures multiset(st'.bImages) == multiset(MovePaths(st.bImages, moves)) && st'.bTexts == MoveTexts(st.bTexts, moves)
    ensures Coherent(st, fs) ==> EntriesFollow(st, st', Pending(st.bInfo), |outcomes|, outcomes)
    ensures multiset(st'.aImages) == multiset(st.aImages) && st'.aTexts == st.aTexts && st'.aInfo == st.aInfo
    ensures |st'.bImages| == |st.bImages| && |fs'| == |fs|
    ensures Coherent(st, fs) ==> Coherent(st', fs') && |st'.bInfo.vals.Keys| == |st.bInfo.vals.Keys|
    ensures Coherent(st, fs) ==> KeepsOriginalNames(st.bInfo, st'.bInfo)
  {
    if |Pending(st.bInfo)| == 0 {
      st', fs', outcomes, successCount, errorCount, moves := st, fs, [], 0, 0, [];
      return;
    }
    var renamed;
    renamed, fs', outcomes, successCount, errorCount, moves := RenamePending(st, fs, locked, token);
    st' := Refresh(renamed, ranks);
    assert st' == renamed.(aImages := st'.aImages, bImages := st'.bImages);
    if Coherent(st, fs) {
      EntriesReordered(st, st, renamed, st', Pending(st.bInfo), |outcomes|, outcomes);
    }
  }

}

=== FILE: scanning.dfy ===
/** Which files count as images: the extension filter used when a folder is
    scanned and when files or folders are dropped onto a group. Walking the
    directory tree is input: a scan receives the walk's listing. */
module Scanning {
  import opened Options
  import opened Paths
  import opened Sorting
  import opened Display

  /** The accepted extensions, lower case with the dot. */
  const ImageExtensions: set<string> := {".jpg", ".jpeg", ".png", ".bmp", ".gif", ".tiff", ".webp", ".avif"}

  /** `Path(file).suffix.lower() in image_extensions`. */
  predicate IsImageName(name: string) {
    LowerAscii(Suffix(name)) in ImageExtensions
  }

  /** The separator `os.path.join` puts between folder and file name on
      Windows, where the application runs. */
  const Separator := '\\'

  /** The full path string `sorted` compares. */
  function FullPath(p: Path): string {
    p.dir + [Separator] + p.name
  }

  function PathKey(): Path -> seq<int> {
    (p: Path) => Codes(FullPath(p))
  }

  /** The image files among `listing`, in their order. */
  function KeepImages(listing: seq<Path>): (r: seq<Path>)
    ensures forall p :: p in r <==> p in listing && IsImageName(p.name)
    ensures |r| <= |listing|
  {
    if |listing| == 0 then []
    else
      var rest := KeepImages(listing[..|listing| - 1]);
      var last := listing[|listing| - 1];
      assert forall p :: p in listing <==> p in listing[..|listing| - 1] || p == last;
      if IsImageName(last.name) then rest + [last] else rest
  }

  /** `scan_folder`: nothing for a folder that does not exist, otherwise
      the image files of the walk, sorted by full path. */
  function ScanFolder(listing: Option<seq<Path>>): seq<Path> {
    if listing.None? then [] else SortBy(KeepImages(listing.value), PathKey())
  }

  /** What the scan returns: exactly the image files of the walk, each as
      often as the walk lists it, in path order. */
  lemma ScanFolderSpec(listing: Option<seq<Path>>)
    ensures listing.None? ==> ScanFolder(listing) == []
    ensures listing.Some? ==> multiset(ScanFolder(listing)) == multiset(KeepImages(listing.value))
    ensures listing.Some? ==> forall p :: p in ScanFolder(listing) <==> p in listing.value && IsImageName(p.name)
    ensures SortedBy(ScanFolder(listing), PathKey())
  {
    if listing.Some? {
      var kept := KeepImages(listing.value);
      SortByCorrect(kept, PathKey());
      forall p
        ensures p in ScanFolder(listing) <==> p in kept
      {
        assert p in ScanFolder(listing) <==> p in multiset(ScanFolder(listing));
        assert p in kept <==> p in multiset(kept);
      }
    }
  }

  /** One dropped item: a file, a folder (with its walk's listing), or a
      path that is neither. */
  datatype Dropped = File(path: Path) | Folder(listing: seq<Path>) | Neither

  /** The images the dropped items contribute, in drop order. */
  function Collected(items: seq<Dropped>): (r: seq<Path>)
    ensures forall p | p in r :: IsImageName(p.name)
  {
    if |items| == 0 then []
    else
      var last := items[|items| - 1];
      var more :=
        match last
        case File(p) => if IsImageName(p.name) then [p] else []
        case Folder(listing) => ScanFolderOf(listing)
        case Neither => [];
      Collected(items[..|items| - 1]) + more
  }

  /** A scan of an existing folder. */
  function ScanFolderOf(listing: seq<Path>): (r: seq<Path>)
    ensures forall p | p in r :: IsImageName(p.name)
  {
    ScanFolderSpec(Some(listing));
    ScanFolder(Some(listing))
  }

  /** `filter_image_files`: the dropped image files and the images of the
      dropped folders, sorted by full path. */
  function FilterImageFiles(items: seq<Dropped>): seq<Path> {
    SortBy(Collected(items), PathKey())
  }

  /** A drop yields exactly the images the items contribute, each as often
      as it is contributed, in path order: every dropped image file and every
      image in a dropped folder's walk, and nothing that is not one of
      those. */
  lemma FilterImageFilesSpec(items: seq<Dropped>)
    ensures multiset(FilterImageFiles(items)) == multiset(Collected(items))
    ensures forall p | p in FilterImageFiles(items) :: IsImageName(p.name)
    ensures forall p | p in FilterImageFiles(items) ::
              exists i | 0 <= i < |items| :: Contributes(items[i], p)
    ensures SortedBy(FilterImageFiles(items), PathKey())
    ensures forall i | 0 <= i < |items| && items[i].File? && IsImageName(items[i].path.name) ::
              items[i].path in FilterImageFiles(items)
    ensures forall i, p | 0 <= i < |items| && items[i].Folder? && p in items[i].listing && IsImageName(p.name) ::
              p in FilterImageFiles(items)
  {
    var all := Collected(items);
    SortByCorrect(all, PathKey());
    forall p | p in FilterImageFiles(items)
      ensures IsImageName(p.name)
      ensures exists i | 0 <= i < |items| :: Contributes(items[i], p)
    {
      assert p in multiset(FilterImageFiles(items));
      CollectedFrom(items, p);
    }
    forall p | p in all
      ensures p in FilterImageFiles(items)
    {
      assert p in multiset(all);
    }
    forall i | 0 <= i < |items| && items[i].File? && IsImageName(items[i].path.name)
      ensures items[i].path in all
    {
      CollectedHasFile(items, i);
    }
    forall i, p | 0 <= i < |items| && items[i].Folder? && p in items[i].listing && IsImageName(p.name)
      ensures p in all
    {
      CollectedHasFolder(items, i, p);
    }
  }

  /** `item` is a dropped file `p` or a dropped folder whose walk lists `p`. */
  predicate Contributes(item: Dropped, p: Path) {
    (item.File? && item.path == p) || (item.Folder? && p in item.listing)
  }

  lemma {:induction false} CollectedFrom(items: seq<Dropped>, p: Path)
    requires p in Collected(items)
    ensures exists i | 0 <= i < |items| :: Contributes(items[i], p)
    decreases |items|
  {
    var init := items[..|items| - 1];
    var last := items[|items| - 1];
    if p in Collected(init) {
      CollectedFrom(init, p);
      var i :| 0 <= i < |init| && Contributes(init[i], p);
      assert items[i] == init[i];
    } else {
      if last.Folder? {
        ScanFolderSpec(Some(last.listing));
      }
      assert Contributes(items[|items| - 1], p);
    }
  }

  lemma {:induction false} CollectedHasFile(items: seq<Dropped>, i: nat)
    requires i < |items| && items[i].File? && IsImageName(items[i].path.name)
    ensures items[i].path in Collected(items)
    decreases |items|
  {
    if i < |items| - 1 {
      CollectedHasFile(items[..|items| - 1], i);
    }
  }

  lemma {:induction false} CollectedHasFolder(items: seq<Dropped>, i: nat, p: Path)
    requires i < |items| && items[i].Folder? && p in items[i].listing && IsImageName(p.name)
    ensures p in Collected(items)
    decreases |items|
  {
    if i < |items| - 1 {
      CollectedHasFolder(items[..|items| - 1], i, p);
    } else {
      ScanFolderSpec(Some(items[i].listing));
    }
  }

  /** A candidate renamed after a reference keeps its extension, so it is
      still recognised as an image the next time its folder is scanned. */
  lemma RenamedStaysImage(referenceName: string, candidateName: string)
    requires |referenceName| > 0
    requires IsImageName(candidateName)
    ensures IsImageName(TargetName(referenceName, candidateName))
  {
    assert Suffix(candidateName) != "";
    TargetKeepsExtension(referenceName, candidateName);
  }

  /** Upper-case extensions count, and only the last suffix matters. */
  lemma ImageNameExamples()
    ensures IsImageName("scan.JPG")
    ensures IsImageName("a.b.webp")
  {
    var s := "scan.JPG";
    assert s[4] == '.';
    assert LastDot(s) == 4;
    assert Suffix(s) == ".JPG";
    assert LowerAscii(".JPG") == ".jpg";
    var t := "a.b.webp";
    assert t[3] == '.';
    assert LastDot(t) == 3;
    assert Suffix(t) == ".webp";
    assert LowerAscii(".webp") == ".webp";
  }

  /** A hidden file whose whole name is the extension is not an image, and
      neither is a name whose last suffix is something else. */
  lemma NotImageNameExamples()
    ensures !IsImageName(".png")
    ensures !IsImageName("notes.png.txt")
  {
    var s := ".png";
    assert s[0] == '.';
    assert LastDot(s) == 0;
    assert LowerAscii("") == "";
    var t := "notes.png.txt";
    assert t[9] == '.';
    assert LastDot(t) == 9;
    assert Suffix(t) == ".txt";
    assert LowerAscii(".txt") == ".txt";
  }
}

=== FILE: sorting.dfy ===
/** Python's `sorted(xs, key=...)` for keys that compare like tuples of
    integers: a stable insertion sort and the facts the rest of the model
    needs about it (ordered, a permutation, equal keys keep their order). */
module Sorting {

  /** Lexicographic order on integer sequences, the order Python uses for
      tuples and strings: a proper prefix comes first. */
  predicate LexLe(a: seq<int>, b: seq<int>)
    decreases |a|
  {
    |a| == 0 || (|b| > 0 && (a[0] < b[0] || (a[0] == b[0] && LexLe(a[1..], b[1..]))))
  }

  lemma {:induction false} LexReflexive(a: seq<int>)
    ensures LexLe(a, a)
    decreases |a|
  {
    if |a| > 0 {
      LexReflexive(a[1..]);
    }
  }

  lemma {:induction false} LexTotal(a: seq<int>, b: seq<int>)
    ensures LexLe(a, b) || LexLe(b, a)
    decreases |a|
  {
    if |a| > 0 && |b| > 0 && a[0] == b[0] {
      LexTotal(a[1..], b[1..]);
    }
  }

  lemma {:induction false} LexAntisymmetric(a: seq<int>, b: seq<int>)
    requires LexLe(a, b) && LexLe(b, a)
    ensures a == b
    decreases |a|
  {
    if |a| > 0 {
      LexAntisymmetric(a[1..], b[1..]);
      assert a == [a[0]] + a[1..];
      assert b == [b[0]] + b[1..];
    }
  }

  lemma {:induction false} LexTransitive(a: seq<int>, b: seq<int>, c: seq<int>)
    requires LexLe(a, b) && LexLe(b, c)
    ensures LexLe(a, c)
    decreases |a|
  {
    if |a| > 0 && a[0] == b[0] && b[0] == c[0] {
      LexTransitive(a[1..], b[1..], c[1..]);
    }
  }

  /** Comparing two keys that start with one integer each. */
  lemma LexCons(x: int, a: seq<int>, y: int, b: seq<int>)
    ensures LexLe([x] + a, [y] + b) <==> x < y || (x == y && LexLe(a, b))
  {
    assert ([x] + a)[1..] == a;
    assert ([y] + b)[1..] == b;
  }

  /** Comparing keys that share a prefix reduces to comparing the rest. */
  lemma {:induction false} LexCommonPrefix(p: seq<int>, a: seq<int>, b: seq<int>)
    ensures LexLe(p + a, p + b) <==> LexLe(a, b)
    decreases |p|
  {
    if |p| == 0 {
      assert p + a == a && p + b == b;
    } else {
      assert (p + a)[1..] == p[1..] + a;
      assert (p + b)[1..] == p[1..] + b;
      assert (p + a)[0] == p[0] == (p + b)[0];
      LexCommonPrefix(p[1..], a, b);
    }
  }

  /** The keys of `s` never decrease from left to right. */
  predicate SortedBy<T>(s: seq<T>, key: T -> seq<int>) {
    forall i, j :: 0 <= i < j < |s| ==> LexLe(key(s[i]), key(s[j]))
  }

  /** The elements of `s` whose key is `k`, in their order in `s`. */
  function WithKey<T>(s: seq<T>, key: T -> seq<int>, k: seq<int>): seq<T> {
    if |s| == 0 then []
    else WithKey(s[..|s| - 1], key, k) + (if key(s[|s| - 1]) == k then [s[|s| - 1]] else [])
  }

  lemma {:induction false} WithKeyAppend<T>(a: seq<T>, b: seq<T>, key: T -> seq<int>, k: seq<int>)
    ensures WithKey(a + b, key, k) == WithKey(a, key, k) + WithKey(b, key, k)
    decreases |b|
  {
    if |b| == 0 {
      assert a + b == a;
    } else {
      assert (a + b)[..|a + b| - 1] == a + b[..|b| - 1];
      WithKeyAppend(a, b[..|b| - 1], key, k);
    }
  }

  lemma {:induction false} WithKeyNone<T>(s: seq<T>, key: T -> seq<int>, k: seq<int>)
    requires forall i :: 0 <= i < |s| ==> key(s[i]) != k
    ensures WithKey(s, key, k) == []
    decreases |s|
  {
    if |s| > 0 {
      WithKeyNone(s[..|s| - 1], key, k);
    }
  }

  /** Inserts `x` just before the first element whose key is greater. */
  function Insert<T>(x: T, t: seq<T>, key: T -> seq<int>): (r: seq<T>)
    ensures |r| == |t| + 1
    ensures multiset(r) == multiset(t) + multiset{x}
  {
    if |t| == 0 || !LexLe(key(t[0]), key(x)) then [x] + t
    else
      var r := [t[0]] + Insert(x, t[1..], key);
      assert t == [t[0]] + t[1..];
      r
  }

  lemma {:induction false} InsertSorted<T>(x: T, t: seq<T>, key: T -> seq<int>)
    requires SortedBy(t, key)
    ensures SortedBy(Insert(x, t, key), key)
    decreases |t|
  {
    var r := Insert(x, t, key);
    if |t| == 0 {
    } else if !LexLe(key(t[0]), key(x)) {
      LexTotal(key(t[0]), key(x));
      forall i, j | 0 <= i < j < |r|
        ensures LexLe(key(r[i]), key(r[j]))
      {
        if i == 0 && j > 1 {
          LexTransitive(key(x), key(t[0]), key(t[j - 1]));
        }
      }
    } else {
      var rest := Insert(x, t[1..], key);
      InsertSorted(x, t[1..], key);
      forall i, j | 0 <= i < j < |r|
        ensures LexLe(key(r[i]), key(r[j]))
      {
        if i == 0 {
          assert r[j] in multiset(rest);
          assert r[j] in multiset(t[1..]) || r[j] == x;
          if r[j] != x {
            var m :| 0 <= m < |t[1..]| && t[1..][m] == r[j];
            assert t[m + 1] == r[j];
          }
        }
      }
    }
  }

  /** Nothing in a sorted sequence that starts above `x` shares `x`'s key. */
  lemma AboveHasNoEqualKey<T>(x: T, t: seq<T>, key: T -> seq<int>)
    requires SortedBy(t, key)
    requires |t| > 0 && !LexLe(key(t[0]), key(x))
    ensures WithKey(t, key, key(x)) == []
  {
    LexReflexive(key(x));
    forall i | 0 <= i < |t|
      ensures key(t[i]) != key(x)
    {
      if i > 0 {
        assert LexLe(key(t[0]), key(t[i]));
      }
    }
    WithKeyNone(t, key, key(x));
  }

  lemma WithKeySingle<T>(x: T, key: T -> seq<int>, k: seq<int>)
    ensures WithKey([x], key, k) == (if key(x) == k then [x] else [])
  {
    assert WithKey([x], key, k) == WithKey([x][..0], key, k) + (if key(x) == k then [x] else []);
  }

  lemma {:induction false} InsertWithKey<T>(x: T, t: seq<T>, key: T -> seq<int>, k: seq<int>)
    requires SortedBy(t, key)
    ensures WithKey(Insert(x, t, key), key, k)
         == WithKey(t, key, k) + (if key(x) == k then [x] else [])
    decreases |t|
  {
    if |t| == 0 {
      WithKeySingle(x, key, k);
      assert [x] + t == [x];
    } else if !LexLe(key(t[0]), key(x)) {
      InsertWithKeyFront(x, t, key, k);
    } else {
      assert SortedBy(t[1..], key);
      InsertWithKey(x, t[1..], key, k);
      InsertWithKeyLater(x, t, key, k);
    }
  }

  /** The new element goes in front: nothing after it shares its key. */
  lemma InsertWithKeyFront<T>(x: T, t: seq<T>, key: T -> seq<int>, k: seq<int>)
    requires SortedBy(t, key)
    requires |t| > 0 && !LexLe(key(t[0]), key(x))
    ensures WithKey(Insert(x, t, key), key, k)
         == WithKey(t, key, k) + (if key(x) == k then [x] else [])
  {
    WithKeySingle(x, key, k);
    WithKeyAppend([x], t, key, k);
    if key(x) == k {
      AboveHasNoEqualKey(x, t, key);
    }
  }

  /** The new element goes after the head, given where it goes in the rest. */
  lemma InsertWithKeyLater<T>(x: T, t: seq<T>, key: T -> seq<int>, k: seq<int>)
    requires |t| > 0 && LexLe(key(t[0]), key(x))
    requires WithKey(Insert(x, t[1..], key), key, k)
          == WithKey(t[1..], key, k) + (if key(x) == k then [x] else [])
    ensures WithKey(Insert(x, t, key), key, k)
         == WithKey(t, key, k) + (if key(x) == k then [x] else [])
  {
    var rest := Insert(x, t[1..], key);
    var extra := if key(x) == k then [x] else [];
    assert Insert(x, t, key) == [t[0]] + rest;
    WithKeyAppend([t[0]], rest, key, k);
    WithKeyAppend([t[0]], t[1..], key, k);
    assert [t[0]] + t[1..] == t;
    assert WithKey([t[0]], key, k) + (WithKey(t[1..], key, k) + extra)
        == (WithKey([t[0]], key, k) + WithKey(t[1..], key, k)) + extra;
  }

  /** `sorted(s, key=key)`: Python's sort is stable, so elements with equal
      keys come out in their input order. */
  function SortBy<T>(s: seq<T>, key: T -> seq<int>): seq<T> {
    if |s| == 0 then [] else Insert(s[|s| - 1], SortBy(s[..|s| - 1], key), key)
  }

  /** The sort returns a rearrangement of its input, ordered by key, in which
      the elements of any one key keep their input order. */
  lemma {:induction false} SortByCorrect<T>(s: seq<T>, key: T -> seq<int>)
    ensures |SortBy(s, key)| == |s|
    ensures multiset(SortBy(s, key)) == multiset(s)
    ensures SortedBy(SortBy(s, key), key)
    ensures forall k :: WithKey(SortBy(s, key), key, k) == WithKey(s, key, k)
    decreases |s|
  {
    if |s| > 0 {
      var init := s[..|s| - 1];
      SortByCorrect(init, key);
      InsertSorted(s[|s| - 1], SortBy(init, key), key);
      assert s == init + [s[|s| - 1]];
      forall k
        ensures WithKey(SortBy(s, key), key, k) == WithKey(s, key, k)
      {
        InsertWithKey(s[|s| - 1], SortBy(init, key), key, k);
      }
    }
  }

  /** The sort's output is in key order. */
  lemma {:induction false} SortByOrdered<T>(s: seq<T>, key: T -> seq<int>)
    ensures SortedBy(SortBy(s, key), key)
    decreases |s|
  {
    if |s| > 0 {
      SortByOrdered(s[..|s| - 1], key);
      InsertSorted(s[|s| - 1], SortBy(s[..|s| - 1], key), key);
    }
  }

  /** An element whose key is at least every key of `t` goes at the end. */
  lemma {:induction false} InsertAtEnd<T>(x: T, t: seq<T>, key: T -> seq<int>)
    requires forall i | 0 <= i < |t| :: LexLe(key(t[i]), key(x))
    ensures Insert(x, t, key) == t + [x]
    decreases |t|
  {
    if |t| > 0 {
      InsertAtEnd(x, t[1..], key);
      assert t == [t[0]] + t[1..];
    }
  }

  /** Sorting what is already sorted changes nothing. */
  lemma {:induction false} SortBySorted<T>(s: seq<T>, key: T -> seq<int>)
    requires SortedBy(s, key)
    ensures SortBy(s, key) == s
    decreases |s|
  {
    if |s| > 0 {
      var init := s[..|s| - 1];
      assert SortedBy(init, key);
      SortBySorted(init, key);
      InsertAtEnd(s[|s| - 1], init, key);
      assert init + [s[|s| - 1]] == s;
    }
  }
}

=== FILE: suggestions.dfy ===
/** The suggestion ranker (`compute_b_suggestions_for_current_a`): for the
    focused reference, the B images with text and a positive similarity are
    sorted by similarity, highest first and stably, and the first eight get
    ranks 0, 1, 2, ... It reads the collections and changes nothing. */
module Suggestions {
  import opened Options
  import opened Paths
  import opened OrderedDicts
  import opened Sorting
  import opened Records

  /** How many suggestions are shown. */
  const MaxSuggestions := 8

  /** The similarity of candidate `b` to the focused text. */
  function ScoreOf(st: State, sim: (string, string) -> Percent, aText: string, b: Path): Percent {
    sim(aText, TextOf(st.bTexts, b))
  }

  /** Candidate `b` is worth suggesting: it has text and a positive score. */
  predicate Suggestible(st: State, sim: (string, string) -> Percent, aText: string, b: Path) {
    !IsBlank(TextOf(st.bTexts, b)) && ScoreOf(st, sim, aText, b) > 0
  }

  /** The suggestible images among `bs`, in their order. */
  function Candidates(st: State, sim: (string, string) -> Percent, aText: string, bs: seq<Path>): (r: seq<Path>)
    ensures forall p :: p in r <==> p in bs && Suggestible(st, sim, aText, p)
    ensures |r| <= |bs|
    ensures NoDuplicates(bs) ==> NoDuplicates(r)
  {
    if |bs| == 0 then []
    else
      var last := bs[|bs| - 1];
      var rest := Candidates(st, sim, aText, bs[..|bs| - 1]);
      assert NoDuplicates(bs) ==> last !in bs[..|bs| - 1];
      if Suggestible(st, sim, aText, last) then rest + [last] else rest
  }

  /** The sort key: Python sorts on the score with `reverse=True`, which is a
      stable ascending sort on the negated score. */
  function ScoreKey(st: State, sim: (string, string) -> Percent, aText: string): Path -> seq<int> {
    (p: Path) => [-(ScoreOf(st, sim, aText, p) as int)]
  }

  /** The ranked list: empty without a focused reference or when its text is
      blank, otherwise the first eight of the sorted candidates. */
  function Ranking(st: State, sim: (string, string) -> Percent, focus: Option<Path>): seq<Path> {
    if focus.None? then []
    else
      var aText := TextOf(st.aTexts, focus.value);
      if IsBlank(aText) then []
      else
        Top(Candidates(st, sim, aText, st.bImages), ScoreKey(st, sim, aText), MaxSuggestions)
  }

  /** `sorted(s, key=key)[:n]`. */
  function Top<T>(s: seq<T>, key: T -> seq<int>, n: nat): seq<T> {
    var sorted := SortBy(s, key);
    if |sorted| <= n then sorted else sorted[..n]
  }

  /** `for rank, p in enumerate(top): suggestions[p] = rank`: a later
      occurrence of a path overwrites an earlier one. */
  function RankMap(top: seq<Path>): (m: map<Path, nat>)
    ensures forall p :: p in m <==> p in top
    ensures forall p | p in m :: m[p] < |top| && top[m[p]] == p
    ensures NoDuplicates(top) ==> forall i | 0 <= i < |top| :: m[top[i]] == i
  {
    if |top| == 0 then map[]
    else
      var m := RankMap(top[..|top| - 1]);
      assert NoDuplicates(top) ==> NoDuplicates(top[..|top| - 1]) && top[|top| - 1] !in top[..|top| - 1];
      m[top[|top| - 1] := |top| - 1]
  }

  /** `compute_b_suggestions_for_current_a`: path to rank. */
  function SuggestionsFor(st: State, sim: (string, string) -> Percent, focus: Option<Path>): map<Path, nat> {
    RankMap(Ranking(st, sim, focus))
  }

  // ---------------------------------------------------------------------
  // Facts about sequences
  // ---------------------------------------------------------------------

  lemma {:induction false} DistinctHasSingleCounts<T>(s: seq<T>)
    requires NoDuplicates(s)
    ensures forall x :: multiset(s)[x] <= 1
  {
    if |s| > 0 {
      var init := s[..|s| - 1];
      assert s == init + [s[|s| - 1]];
      assert s[|s| - 1] !in init;
      DistinctHasSingleCounts(init);
    }
  }

  lemma TwiceCounted<T>(s: seq<T>, i: nat, j: nat)
    requires i < j < |s| && s[i] == s[j]
    ensures multiset(s)[s[i]] >= 2
  {
    assert s == s[..j] + [s[j]] + s[j + 1..];
    assert s[..j][i] == s[i];
    assert s[i] in multiset(s[..j]);
  }

  lemma SingleCountsAreDistinct<T>(s: seq<T>)
    requires forall x :: multiset(s)[x] <= 1
    ensures NoDuplicates(s)
  {
    forall i, j | 0 <= i < j < |s|
      ensures s[i] != s[j]
    {
      if s[i] == s[j] {
        TwiceCounted(s, i, j);
      }
    }
  }

  /** A rearrangement of a list without repetitions has none either. */
  lemma PermutationKeepsDistinct<T>(a: seq<T>, b: seq<T>)
    requires multiset(a) == multiset(b)
    requires NoDuplicates(a)
    ensures NoDuplicates(b)
  {
    DistinctHasSingleCounts(a);
    SingleCountsAreDistinct(b);
  }

  /** Cutting a list short keeps, for every key, a prefix of its elements of
      that key. */
  lemma {:induction false} WithKeyOfPrefix<T>(s: seq<T>, n: nat, key: T -> seq<int>, k: seq<int>)
    requires n <= |s|
    ensures WithKey(s, key, k) == WithKey(s[..n], key, k) + WithKey(s[n..], key, k)
  {
    assert s == s[..n] + s[n..];
    WithKeyAppend(s[..n], s[n..], key, k);
  }

  /** The first `n` of a stable sort: at most `n` long, ordered, drawn from
      `s`, and all of `s` when it is short enough. */
  lemma TopMembers<T>(s: seq<T>, key: T -> seq<int>, n: nat)
    ensures |Top(s, key, n)| <= n && |Top(s, key, n)| <= |s|
    ensures SortedBy(Top(s, key, n), key)
    ensures forall x | x in Top(s, key, n) :: x in s
    ensures |s| <= n ==> forall x | x in s :: x in Top(s, key, n)
  {
    SortByCorrect(s, key);
    var sorted := SortBy(s, key);
    var top := Top(s, key, n);
    forall x | x in top
      ensures x in s
    {
      assert x in multiset(sorted);
    }
    if |s| <= n {
      forall x | x in s
        ensures x in top
      {
        assert x in multiset(s);
      }
    }
  }

  /** Nothing left out of the first `n` sorts before anything kept. */
  lemma TopBelowLeftOut<T>(s: seq<T>, key: T -> seq<int>, n: nat, i: nat, y: T)
    requires i < |Top(s, key, n)| && y in s && y !in Top(s, key, n)
    ensures LexLe(key(Top(s, key, n)[i]), key(y))
  {
    SortByCorrect(s, key);
    var sorted := SortBy(s, key);
    assert y in multiset(s);
    assert y in sorted;
    var j :| 0 <= j < |sorted| && sorted[j] == y;
    assert |sorted| > n && Top(s, key, n) == sorted[..n];
    assert sorted[i] == Top(s, key, n)[i];
  }

  lemma TopDistinct<T>(s: seq<T>, key: T -> seq<int>, n: nat)
    requires NoDuplicates(s)
    ensures NoDuplicates(Top(s, key, n))
  {
    SortByCorrect(s, key);
    PermutationKeepsDistinct(s, SortBy(s, key));
  }

  /** For each key, the kept elements of that key are the first elements of
      that key in `s`. */
  lemma TopStable<T>(s: seq<T>, key: T -> seq<int>, n: nat, k: seq<int>)
    ensures |WithKey(Top(s, key, n), key, k)| <= |WithKey(s, key, k)|
    ensures WithKey(s, key, k)[..|WithKey(Top(s, key, n), key, k)|] == WithKey(Top(s, key, n), key, k)
  {
    SortByCorrect(s, key);
    var sorted := SortBy(s, key);
    if |sorted| > n {
      WithKeyOfPrefix(sorted, n, key, k);
    }
  }

  // ---------------------------------------------------------------------
  // What the ranker promises
  // ---------------------------------------------------------------------

  /** Nothing is suggested without a focused reference or when its text is
      blank; otherwise exactly the suggestible images are eligible, at most
      eight are ranked, and all of them when there are at most eight. */
  lemma SuggestionsDomain(st: State, sim: (string, string) -> Percent, focus: Option<Path>)
    ensures focus.None? || IsBlank(TextOf(st.aTexts, focus.value)) ==> SuggestionsFor(st, sim, focus) == map[]
    ensures focus.Some? ==>
      var aText := TextOf(st.aTexts, focus.value);
      var ranked := SuggestionsFor(st, sim, focus);
      && |Ranking(st, sim, focus)| <= MaxSuggestions
      && (forall p | p in ranked :: p in st.bImages && Suggestible(st, sim, aText, p) && ranked[p] < MaxSuggestions)
      && (!IsBlank(aText) && |Candidates(st, sim, aText, st.bImages)| <= MaxSuggestions ==>
            forall p | p in st.bImages && Suggestible(st, sim, aText, p) :: p in ranked)
  {
    if focus.Some? && !IsBlank(TextOf(st.aTexts, focus.value)) {
      var aText := TextOf(st.aTexts, focus.value);
      TopMembers(Candidates(st, sim, aText, st.bImages), ScoreKey(st, sim, aText), MaxSuggestions);
    }
  }

  /** Ranks follow the score, highest first. */
  lemma SuggestionsDescend(st: State, sim: (string, string) -> Percent, focus: Option<Path>)
    requires focus.Some?
    ensures var aText := TextOf(st.aTexts, focus.value);
            var m := SuggestionsFor(st, sim, focus);
            forall p, q | p in m && q in m && m[p] < m[q] ::
              ScoreOf(st, sim, aText, p) >= ScoreOf(st, sim, aText, q)
  {
    var aText := TextOf(st.aTexts, focus.value);
    var key := ScoreKey(st, sim, aText);
    TopMembers(Candidates(st, sim, aText, st.bImages), key, MaxSuggestions);
    var top := Ranking(st, sim, focus);
    var m := SuggestionsFor(st, sim, focus);
    forall p, q | p in m && q in m && m[p] < m[q]
      ensures ScoreOf(st, sim, aText, p) >= ScoreOf(st, sim, aText, q)
    {
      assert top[m[p]] == p && top[m[q]] == q;
      assert LexLe(key(p), key(q));
      LexCons(-(ScoreOf(st, sim, aText, p) as int), [], -(ScoreOf(st, sim, aText, q) as int), []);
    }
  }

  /** Every ranked image scores at least as high as every suggestible image
      that was left out. */
  lemma SuggestionsDominate(st: State, sim: (string, string) -> Percent, focus: Option<Path>, p: Path, q: Path)
    requires focus.Some?
    requires p in SuggestionsFor(st, sim, focus)
    requires q in st.bImages && Suggestible(st, sim, TextOf(st.aTexts, focus.value), q)
    requires q !in SuggestionsFor(st, sim, focus)
    ensures var aText := TextOf(st.aTexts, focus.value);
            ScoreOf(st, sim, aText, p) >= ScoreOf(st, sim, aText, q)
  {
    var aText := TextOf(st.aTexts, focus.value);
    var key := ScoreKey(st, sim, aText);
    var cands := Candidates(st, sim, aText, st.bImages);
    var top := Ranking(st, sim, focus);
    var m := SuggestionsFor(st, sim, focus);
    assert top[m[p]] == p;
    assert q in cands && q !in top;
    TopBelowLeftOut(cands, key, MaxSuggestions, m[p], q);
    LexCons(-(ScoreOf(st, sim, aText, p) as int), [], -(ScoreOf(st, sim, aText, q) as int), []);
  }

  /** Ties keep group B's order: for every score, the ranked images of that
      score are the first images of that score in group B. */
  lemma SuggestionsStable(st: State, sim: (string, string) -> Percent, focus: Option<Path>, k: seq<int>)
    requires focus.Some? && !IsBlank(TextOf(st.aTexts, focus.value))
    ensures var aText := TextOf(st.aTexts, focus.value);
            var key := ScoreKey(st, sim, aText);
            var tied := WithKey(Candidates(st, sim, aText, st.bImages), key, k);
            var ranked := WithKey(Ranking(st, sim, focus), key, k);
            |ranked| <= |tied| && tied[..|ranked|] == ranked
  {
    var aText := TextOf(st.aTexts, focus.value);
    TopStable(Candidates(st, sim, aText, st.bImages), ScoreKey(st, sim, aText), MaxSuggestions, k);
  }

  /** With no path listed twice in group B, the ranks are exactly
      0, 1, ..., k - 1 for k ranked images, one per image, in the order of
      the ranked list. */
  lemma SuggestionsRanks(st: State, sim: (string, string) -> Percent, focus: Option<Path>)
    requires NoDuplicates(st.bImages)
    ensures var top := Ranking(st, sim, focus);
            var m := SuggestionsFor(st, sim, focus);
            && |m| == |top|
            && (forall i | 0 <= i < |top| :: m[top[i]] == i)
            && (forall r :: 0 <= r < |top| <==> r in m.Values)
  {
    var top := Ranking(st, sim, focus);
    var m := SuggestionsFor(st, sim, focus);
    if focus.Some? && !IsBlank(TextOf(st.aTexts, focus.value)) {
      var aText := TextOf(st.aTexts, focus.value);
      TopDistinct(Candidates(st, sim, aText, st.bImages), ScoreKey(st, sim, aText), MaxSuggestions);
    }
    assert NoDuplicates(top);
    OrderCardinality(top, m.Keys);
    forall r | 0 <= r < |top|
      ensures r in m.Values
    {
      assert m[top[r]] == r;
    }
  }
}

=== FILE: workflow.dfy ===
/** `auto_match_and_rename` as a whole: nothing happens unless both groups
    have recognised text; otherwise one greedy pass, a refresh of both
    tables, and the batch rename of every pending match. The pass here is
    the corrected one, whose claimed set starts from the references already
    marked used; on a group B chosen afresh it is the pass as written
    (`FreshGroupBMatchesAsWritten`). */
module Workflow {
  import opened Options
  import opened Paths
  import opened OrderedDicts
  import opened FileSystem
  import opened Records
  import opened Matcher
  import opened RenameEngine
  import opened Display

  /** Every record and every listed B image has its file on disk. */
  ghost predicate OnDisk(st: State, fs: Fs) {
    Coherent(st, fs) && forall p | p in st.bImages :: p in fs
  }

  /** The pass only adds records for listed B images, so they all still
      have their files. */
  lemma {:induction false} PassOnDisk(cfg: Settings, st0: State, claimed0: set<Path>, n: nat, fs: Fs)
    requires n <= |st0.bImages|
    requires OnDisk(st0, fs)
    ensures Coherent(PassUpTo(cfg, st0, claimed0, n).st, fs)
  {
    if n > 0 {
      PassOnDisk(cfg, st0, claimed0, n - 1, fs);
      var ps := PassUpTo(cfg, st0, claimed0, n - 1);
      var v := Judge(cfg, ps.st, ps.claimed, st0.bImages[n - 1]);
      if v.Accepted? {
        assert v.b == st0.bImages[n - 1];
      }
    }
  }

  /** The pass writes records only: the recognised texts stay. */
  lemma {:induction false} PassKeepsTexts(cfg: Settings, st0: State, claimed0: set<Path>, n: nat)
    requires n <= |st0.bImages|
    ensures PassUpTo(cfg, st0, claimed0, n).st.aTexts == st0.aTexts
    ensures PassUpTo(cfg, st0, claimed0, n).st.bTexts == st0.bTexts
  {
    if n > 0 {
      PassKeepsTexts(cfg, st0, claimed0, n - 1);
    }
  }

  /** With both groups recognised, the pass decides every B image, the tables
      are refreshed, and then every match the pass left pending is renamed
      unless the free name is its own or the operating system refuses the
      move; no record becomes pending that the pass did not leave pending. */
  method AutoMatchAndRename(cfg: Settings, st: State, fs: Fs, locked: set<Path>, token: string, ranks: map<Path, nat>)
    returns (st': State, fs': Fs, success: nat, warning: nat, outcomes: seq<Outcome>, renamedCount: nat, errorCount: nat,
             moves: seq<Move>)
    ensures |st.aTexts| == 0 || |st.bTexts| == 0 ==>
              st' == st && fs' == fs && success == 0 && warning == 0 && outcomes == [] && renamedCount == 0 && errorCount == 0
              && moves == []
    ensures |st.aTexts| > 0 && |st.bTexts| > 0 ==>
              var ps := CorrectedAutoMatch(cfg, st).st;
              && success + warning == |Decisions(CorrectedAutoMatch(cfg, st).verdicts)|
              && |outcomes| == |Pending(ps.bInfo)|
              && renamedCount == CountOf(outcomes, true) && errorCount == CountOf(outcomes, false)
              && st'.aInfo == ps.aInfo
              && ArrangedA(st') && ArrangedB(st', ranks)
              && (|Pending(ps.bInfo)| == 0 ==> st'.bInfo == ps.bInfo && st'.bTexts == ps.bTexts && fs' == fs)
              && (forall p | IsPending(st'.bInfo, p) :: p in ps.bInfo.vals && st'.bInfo.vals[p] == ps.bInfo.vals[p])
              && (OnDisk(st, fs) ==>
                    && (forall k | 0 <= k < |outcomes| ::
                          && (outcomes[k].Renamed? <==> !IsPending(st'.bInfo, Pending(ps.bInfo)[k]))
                          && (outcomes[k].Failed? ==> Pending(ps.bInfo)[k] in locked))
                    && RenamedKept(ps.bInfo, st'.bInfo, Pending(ps.bInfo), |outcomes|, outcomes)
                    && OthersKept(ps.bInfo, st'.bInfo, Pending(ps.bInfo), |outcomes|)
                    && EntriesFollow(ps, st', Pending(ps.bInfo), |outcomes|, outcomes))
    ensures multiset(st'.bImages) == multiset(MovePaths(st.bImages, moves)) && st'.bTexts == MoveTexts(st.bTexts, moves)
    ensures multiset(st'.aImages) == multiset(st.aImages) && st'.aTexts == st.aTexts
    ensures |st'.bImages| == |st.bImages| && |fs'| == |fs|
  {
    if |st.aTexts| == 0 || |st.bTexts| == 0 {
      return st, fs, 0, 0, [], 0, 0, [];
    }
    var matched, verdicts;
    matched, verdicts, success, warning := RunPass(cfg, st, UsedRefs(st));
    assert matched == CorrectedAutoMatch(cfg, st).st;
    assert verdicts == CorrectedAutoMatch(cfg, st).verdicts;
    PassKeepsTexts(cfg, st, UsedRefs(st), |st.bImages|);
    var shown := Refresh(matched, ranks);
    assert shown.bInfo == matched.bInfo && shown.aInfo == matched.aInfo;
    if OnDisk(st, fs) {
      PassOnDisk(cfg, st, UsedRefs(st), |st.bImages|, fs);
      assert Coherent(shown, fs);
    }
    var renamed;
    renamed, fs', outcomes, renamedCount, errorCount, moves := ApplyMatchedRenames(shown, fs, locked, token, ranks);
    st' := renamed;
    MovePathsReordered(shown.bImages, st.bImages, moves);
    if OnDisk(st, fs) {
      EntriesReordered(shown, matched, st', st', Pending(shown.bInfo), |outcomes|, outcomes);
    }
    if |Pending(shown.bInfo)| == 0 {
      assert ArrangedA(st') && ArrangedB(st', ranks);
    }
  }
}
